=== FILE: README.md ===
# ParkEasy WhatsApp bot: a Dafny model of its core

ParkEasy runs a parking lot over WhatsApp. Attendants and owners send text
messages and tap buttons. A router reads each message against the user's
saved conversation state. It then calls a handler that queries or updates
the lot's PostgreSQL tables and replies. This project models that core in
Dafny:

- the billing engine, `calculateFinalFee`, with its BLOCK, HOURLY and TIERED
  pricing models;
- the plate and phone-number validators;
- the attendant's entry, receipt, exit and pass-sale flows;
- the shared check-in, check-out, list and status handlers;
- the owner's bulk checkout, pricing model, tiered, flat and pass rates,
  passes (grant and revoke) and attendant management (add, remove,
  deactivate, reactivate, with the plan's cap);
- `mainRouter` and `handleIdleUserCommands`.

The modules are:

| file | module | contents |
|---|---|---|
| `wrappers.dfy` | `Wrappers` | `Option` |
| `text.dfy` | `Text` | the JavaScript string and number built-ins the handlers use (ASCII `toUpperCase`/`toLowerCase`, `trim`, `split`/`join`, `includes`, `parseInt`, decimal printing) with their round-trip lemmas |
| `validators.dfy` | `Validators` | `isValidIndianVehicleNumber` (a direct recogniser, proved equal to the regular expression) and `normalizePhoneNumber` |
| `billing.dfy` | `Billing` | the pricing models as functions, the tier loop of `calculateFinalFee` as a method proved against them, the entry fee and the legacy hourly fee |
| `records.dfy` | `Records` | the tables (`Transactions`, `Passes`, `Customers`, `Attendants`, lots, rate cards, plans), the conversation state and context, and the SQL row queries as functions. `WellFormed` is the table invariant: at most one INSIDE row per vehicle and lot, rate cards strictly ordered by duration, pass types sorted by duration (`DaysAscending`), fresh attendant ids, unique attendant numbers. Each kind of write gets a lemma showing it keeps the invariant |
| `messages.dfy` | `Messages` | the replies, one constructor per kind of message |
| `attendant_rules.dfy` | `AttendantRules` | what the attendant flows decide: parking status from the button, the exit target, the exit status, and the pass-button title and how it is read back |
| `owner_rules.dfy` | `OwnerRules` | the plan cap, the pricing-model choice, the rate-card upsert, flat rates, the quoted pass rate, granting and revoking passes, choosing an attendant by list or phone number, the removal writes, and the bulk checkout's resolution, closing and summary |
| `shared_rules.dfy` | `SharedRules` | the shared handlers' identifier resolution, de-duplication, single checkout with the hourly fee, and check-in |
| `commands.dfy` | `Commands` | the router's decisions: the idle fast paths, `out`/`pass` parsing, intent-to-handler-name derivation, and `mainRoute`, the state switch |
| `parking.dfy` | `Parking` | class `ParkingSystem`: one user's state, context, the database and the replies sent, with one method per handler and the router on top |

`ParkingSystem.Valid()` is the class invariant. It says the lot exists,
the database is `WellFormed`, and the saved context holds what the waiting
state's handler reads. Every method keeps it. A vehicle waiting to be
parked is never already inside, so each INSERT keeps "one INSIDE row per
vehicle" while one conversation per lot runs at a time (see "## Left out").
Each handler's effect is a two-state predicate over the state before and
after the call (`EntryHandled`, `ExitConfirmationHandled`, `ManageHandled`,
...). The handler ensures it, and each routing method ensures, route by
route, the predicate of the handler it reaches.

## Model

| member | source | states |
|---|---|---|
| Text.ToUpper | controllers/whatsappController.js:206 | `toUpperCase` keeps the length, maps each ASCII lower-case letter to the upper-case letter 32 code points below it and keeps every other character |
| Text.ToLower | controllers/whatsappController.js:132 | `toLowerCase` keeps the length, maps each ASCII upper-case letter to the lower-case letter 32 code points above it and keeps every other character |
| Text.ToUpperIdempotent | handlers/ownerHandlers.js:88 | upper-casing twice is upper-casing once |
| Text.TrimStart | controllers/whatsappController.js:206 | the result is a suffix of the input that does not start with white space, and everything removed is white space |
| Text.TrimEnd | controllers/whatsappController.js:206 | the result is a prefix of the input that does not end with white space, and everything removed is white space |
| Text.RemoveSpaces | controllers/whatsappController.js:207 | `replace(/\s/g, '')` leaves no white space, is no longer than the input, and on one character drops it exactly when it is white space |
| Text.RemoveSpacesAppend | controllers/whatsappController.js:207 | removal works piece by piece: removing from `a + b` is removing from `a`, then from `b`, so order and repeats are kept |
| Text.Split | controllers/whatsappController.js:220 | `split` yields at least one piece, and no piece contains the separator |
| Text.SplitJoin | controllers/whatsappController.js:220 | joining the pieces of a split with the separator gives back the text |
| Text.NonEmpty | controllers/whatsappController.js:220 | `filter(id => id)` keeps only non-empty pieces, every non-empty piece, and on one piece drops it exactly when it is empty |
| Text.NonEmptyAppend | controllers/whatsappController.js:220 | the filter works piece by piece: filtering `a + b` is filtering `a`, then `b`, so order and repeats are kept |
| Text.DecimalRoundTrip | handlers/ownerHandlers.js:79-81 | the value of the decimal printing of n is n |
| Text.CanonicalRoundTrip | handlers/ownerHandlers.js:79-81 | a canonical digit string is the printing of its value |
| Text.DecimalInjective | handlers/ownerHandlers.js:79-81 | distinct list positions get distinct `(index + 1).toString()` keys |
| Text.ParseIntOfDecimal | handlers/ownerHandlers.js:79-81 | `parseInt` reads back a printed number, and a printed positive number is a list number |
| Text.DigitStringParses | handlers/attendantHandlers.js:573 | `parseInt` of a canonical digit string is its value |
| Text.ParseIntNaN | handlers/attendantHandlers.js:573-574 | a text starting with a character that is not white space, a digit or a sign is NaN to `parseInt` |
| Text.ContainsAt | handlers/attendantHandlers.js:516 | a text `includes` any substring found at some position |
| Text.LacksCharNotContains | handlers/ownerHandlers.js:101 | a text missing one of another text's characters does not `include` it |
| Validators.ValidIffPattern | utils/validators.js:3-17 | the recogniser accepts exactly the texts whose upper-case form matches `^[A-Z]{2}[0-9]{2}[A-Z]{1,3}[0-9]{4}$` |
| Validators.ValidLength | utils/validators.js:13 | a valid plate has 9 to 11 characters |
| Validators.ValidCaseInsensitive | utils/validators.js:15 | validity does not depend on letter case |
| Validators.ValidIsNotListNumber | handlers/sharedHandlers.js:77-85 | a valid plate is never read as a list number (`parseInt` gives NaN) |
| Validators.DigitsOnly | utils/validators.js:21 | `replace(/\D/g, '')` keeps only digits, is no longer than the input, and on one character keeps it exactly when it is a digit |
| Validators.DigitsOnlyAppend | utils/validators.js:21 | extraction works piece by piece: the digits of `a + b` are the digits of `a`, then those of `b`, in order |
| Validators.DigitsOnlyOfDigits | utils/validators.js:21 | a digit string is unchanged by digit extraction |
| Validators.NormalizeShape | utils/validators.js:19-32 | an accepted number becomes `91` followed by exactly ten digits |
| Validators.NormalizeCases | utils/validators.js:19-32 | a non-empty text is accepted exactly when its digits are 10 long, 12 long starting `91`, or 11 long starting `0`; the last form becomes `91` and the ten digits after the `0` |
| Validators.NormalizeIdempotent | utils/validators.js:19-32 | normalising a normalised number changes nothing |
| Validators.NormalizeUsesDigitsOnly | utils/validators.js:21 | only the digits of the input matter |
| Validators.TenDigitForms | utils/validators.js:22-30 | `d`, `0d` and `91d` for ten digits `d` all normalise to `91d` |
| Validators.NormalizeOptional | handlers/sharedHandlers.js:62 | a missing number stays missing and a present one is normalised |
| Billing.CeilDiv | utils/billing.js:82 | `Math.ceil(a / b)` is the least q with a <= b*q |
| Billing.ElapsedHours | utils/billing.js:78-82 | the stay in hours rounded up: (h-1) hours < elapsed ms <= h hours |
| Billing.FirstCovering | utils/billing.js:119-126 | the tier the `for..of` loop stops at lies in the card |
| Billing.FirstCoveringSpec | utils/billing.js:119-126 | the found tier is the first one whose duration covers the stay, and no tier is found exactly when none covers it |
| Billing.FirstCoveringIsTightest | utils/billing.js:111-126 | on a card sorted by duration, the tier found is the shortest one that covers the stay |
| Billing.OverflowAtLeastTwice | utils/billing.js:128-134 | past the longest tier the bill is that tier's fee plus one such fee per started day over it, so at least twice the top fee |
| Billing.OverflowFlat | utils/billing.js:135-137 | a longest tier of no duration is charged flat |
| Billing.BlockChargesWholeBlocks | utils/billing.js:88-97 | BLOCK charges `blocks` whole blocks, where `blocks` is the least number of at least one block whose hours cover the stay (so one block fewer would not), and 0 when the block rate is not configured |
| Billing.HourlyMonotone | utils/billing.js:99-107 | HOURLY never charges less for a longer stay, and charges at least one hour |
| Billing.CeilDivMonotone | utils/billing.js:95 | rounding up a quotient is monotone |
| Billing.BlockMonotone | utils/billing.js:89-97 | BLOCK never charges less for a longer stay |
| Billing.FinalFee | utils/billing.js:70-152 | the fee to collect is never negative |
| Billing.FeeIsRemainder | utils/billing.js:70-151 | an unknown lot collects 0; otherwise the fee is the total bill less what was already paid, or 0 when that much was paid |
| Billing.CalculateFinalFee | utils/billing.js:70-152 | the imperative tier loop computes FinalFee |
| Billing.EntryFee | handlers/attendantHandlers.js:476-491 | the entry fee quoted is never 0 (a missing rate falls back to 20) |
| Billing.EntryFeeIsFirstPeriodBill | handlers/attendantHandlers.js:476-491 | when the lot's rate is configured and the stay is within the first period, the entry fee is the whole bill, so nothing is left to collect at exit |
| Billing.LegacyFeeIsHourlyBill | handlers/sharedHandlers.js:31-34 | the shared checkout's fee equals the HOURLY model's bill for the same stay, and is at least one hour's rate |
| Billing.ExampleBlock | utils/billing.js:89-97 | 5 hours on 12-hour blocks of 60 costs 60 |
| Billing.ExampleHourly | utils/billing.js:99-107 | 90 minutes at 20 an hour costs 40 |
| Billing.ExampleTieredOverflow | utils/billing.js:128-134 | 30 hours on a 4/12/24-hour card whose top tier costs 100 costs 100 + 1 × 100 = 200 |
| Billing.ExampleAlreadyPaid | utils/billing.js:142-151 | 10 hours on the same card cost 60, of which 20 was already paid, leaving 40 |
| Records.Rows | handlers/attendantHandlers.js:575 | the rows a filter selects, each once, in table order |
| Records.Newest | handlers/attendantHandlers.js:582 | `ORDER BY start_time DESC LIMIT 1`: the row found matches the filter |
| Records.Nth | handlers/attendantHandlers.js:575 | `LIMIT 1 OFFSET n-1`: the row found matches the filter |
| Records.NewestSpec | handlers/attendantHandlers.js:582 | the newest match is the last matching row, and there is none exactly when no row matches |
| Records.RowsAppend | handlers/attendantHandlers.js:517-519 | an appended row joins the selection at the end exactly when it matches |
| Records.InsideAtMostOnce | handlers/attendantHandlers.js:436-442 | in a well-formed table a vehicle has at most one INSIDE row in a lot |
| Records.ParkingLeavesOneInside | handlers/attendantHandlers.js:517-519 | inserting the INSIDE row of a vehicle not inside leaves exactly that one row for it |
| Records.ParkingKeepsWellFormed | handlers/attendantHandlers.js:517-519 | the entry INSERT keeps the table invariant |
| Records.NoNewInsideKeeps | handlers/attendantHandlers.js:623-627 | a write that creates no INSIDE row keeps "one INSIDE row per vehicle" and every "not inside" fact |
| Records.RewriteIsNoNewInside | handlers/attendantHandlers.js:623-627 | an UPDATE of one row that keeps or ends its INSIDE state creates no INSIDE row |
| Records.NoNewInsideKeepsWellFormed | handlers/ownerHandlers.js:103-106 | such a write keeps the table invariant |
| Records.AppendOutsideIsNoNewInside | handlers/sharedHandlers.js:64 | inserting a row that is not INSIDE creates no INSIDE row |
| Records.HiringKeepsWellFormed | handlers/ownerHandlers.js:345 | inserting an attendant with a new number under a fresh id keeps the invariant |
| Records.FlagKeepsWellFormed | handlers/ownerHandlers.js:697-700 | flipping an attendant's `is_active` keeps the invariant |
| Records.DismissalKeepsWellFormed | handlers/ownerHandlers.js:647-648 | detaching and deleting an attendant keeps the invariant |
| AttendantRules.ParkingStatusRecordsFee | handlers/attendantHandlers.js:504-520 | a pass holder parks only on "Yes, Park" (PARKED_PASS, no fee); others on Cash, UPI or Pay Later, whose statuses all contain PAID and so record the entry fee |
| AttendantRules.NoPaidInPassStatus | handlers/attendantHandlers.js:516 | PARKED_PASS does not contain PAID, so a pass entry records no fee |
| AttendantRules.PayLaterIsNeverCollected | handlers/attendantHandlers.js:511-517 | "Pay Later" records PARKED_UNPAID with the entry fee as paid, so within the first period the exit collects 0 |
| AttendantRules.ExitStatusCases | handlers/attendantHandlers.js:612-621 | "Confirm Exit", "Cash Collected" and "UPI Collected" are the only buttons that lead to a write, and "Confirm Exit" on a pass entry writes COMPLETED_PASS_EXIT |
| AttendantRules.ExitSettlesBill | handlers/attendantHandlers.js:623-627 | the total fee written at exit (what was paid plus the fee collected) equals the larger of the total bill and what was already paid |
| AttendantRules.ExitTarget | handlers/attendantHandlers.js:570-585 | the row chosen for exit is an INSIDE row of the lot |
| AttendantRules.ExitTargetSpec | handlers/attendantHandlers.js:573-585 | a list number n picks the n-th INSIDE row by start time and is refused exactly when fewer rows are inside; any other identifier picks the vehicle's INSIDE row (upper-cased) and is refused exactly when the vehicle is not inside |
| AttendantRules.ExitRecordsWholeBill | handlers/attendantHandlers.js:623-627 | the exited row is EXITED, ends now, keeps its lot, vehicle and start, and its total fee is the larger of the whole bill and what was already paid |
| AttendantRules.RupeeDigits | handlers/attendantHandlers.js:663 | the fee read from a button is a non-empty run of digits |
| AttendantRules.PassNameOfTitle | handlers/attendantHandlers.js:655-665 | the name read back from a pass button is the pass type's name |
| AttendantRules.PassFeeOfTitle | handlers/attendantHandlers.js:655-664 | the fee read back from a pass button is the pass type's fee |
| AttendantRules.PassButtonRoundTrip | handlers/attendantHandlers.js:655-665 | reading back a pass button gives the pass type's name and fee |
| AttendantRules.FindPassType | handlers/attendantHandlers.js:667-668 | the pass type found belongs to the lot and has the name; none is found only when the lot has no such type |
| AttendantRules.PassTypesOf | handlers/attendantHandlers.js:649 | exactly the lot's pass types; on one type keeps it exactly when it is the lot's; sorted by duration when the table is |
| AttendantRules.PassTypesOfAppend | handlers/attendantHandlers.js:649 | the query works piece by piece, so the table's order and repeats are kept |
| AttendantRules.PassMenu | handlers/attendantHandlers.js:655 | one button per pass type, in order; the button of each type whose name holds no `(` or `₹` and no surrounding space reads back as that type's name and fee |
| AttendantRules.MenuSelectionFindsType | handlers/attendantHandlers.js:655-668 | a tapped menu button reads back as its type's name and fee, and the lookup by that name finds a pass type of the lot with that name |
| AttendantRules.RecordReceiptNumberSpec | handlers/attendantHandlers.js:546 | the intended write: only the vehicle's newest INSIDE row changes, only in its customer number, and whenever the vehicle is inside an INSIDE row of it carries the number |
| AttendantRules.ReceiptNumberLostAsWritten | handlers/attendantHandlers.js:546 | a vehicle parked without a number keeps none as written, where the intended write records it |
| AttendantRules.PassExpiry | handlers/attendantHandlers.js:712-714 | a pass of a positive number of days expires after now |
| OwnerRules.MaxAttendants | handlers/ownerHandlers.js:331-334 | every plan allows at least one attendant |
| OwnerRules.CapOfPlan | handlers/ownerHandlers.js:330-334 | a missing or empty plan is Starter with 1 attendant; Growth allows 5 and Pro 15 |
| OwnerRules.AddRaisesCount | handlers/ownerHandlers.js:335-346 | adding an active attendant raises the lot's active count by one |
| OwnerRules.ActivateRaisesCount | handlers/ownerHandlers.js:697-700 | reactivating raises the lot's active count by one |
| OwnerRules.PricingModelChoice | handlers/ownerHandlers.js:122-126 | only TIERED, BLOCK or HOURLY is ever written |
| OwnerRules.PricingModelTakesEffect | handlers/ownerHandlers.js:122-127 | the choice ignores letter case, is accepted exactly for the three models, and the model written is the one the billing engine then bills by |
| OwnerRules.FindByPhone | handlers/ownerHandlers.js:613-617 | the attendant found has the number, and none is found only when no listed attendant has it |
| OwnerRules.ChooseAttendant | handlers/ownerHandlers.js:604-618 | a chosen attendant exists |
| OwnerRules.ChooseAttendantSpec | handlers/ownerHandlers.js:604-618 | on the lot's roster the choice is an attendant of the lot; "not found" means no attendant of the lot has the number; a choice by phone has that normalised number |
| OwnerRules.Detach | handlers/ownerHandlers.js:647 | the UPDATE keeps the number of rows |
| OwnerRules.DetachSpec | handlers/ownerHandlers.js:647-648 | after the detach no row names the attendant, every row differs at most in its attendant, and other rows are untouched |
| OwnerRules.DeactivateLowersCount | handlers/ownerHandlers.js:644 | deactivating an active attendant lowers the active count by one and keeps the attendant listed |
| OwnerRules.ActivationIgnoresCap | handlers/ownerHandlers.js:662-710 | reactivating when the lot is at its plan's cap takes it over the cap |
| OwnerRules.UpsertTier | handlers/ownerHandlers.js:139-143 | the tier written is on the card, which gains at most one tier |
| OwnerRules.UpsertTierSpec | handlers/ownerHandlers.js:139-143 | `ON CONFLICT (lot_id, duration_hours) DO UPDATE`: the card keeps one tier per duration, in order; the new tier is on it, the old tier of that duration is gone and every other tier stays |
| OwnerRules.FlatRateTakesEffect | handlers/ownerHandlers.js:153-165 | a flat rate switches the model with it, so the bill no longer depends on the former model, rates or rate card; an hourly rate bills every started hour, at least one; a block rate bills whole blocks covering the stay, at least one |
| OwnerRules.QuotedPassRate | handlers/ownerHandlers.js:231-232 | the price quoted, the lot's `pass_rate` or else 500, is never 0, and is the lot's pass rate whenever that is set and not 0 |
| OwnerRules.FirstValidPlate | handlers/ownerHandlers.js:262-268 | the loop stops at the first word that is a valid vehicle number, and finds none exactly when no word is one |
| OwnerRules.PassToRemove | handlers/ownerHandlers.js:258-269 | the classifier's vehicle is used when given; otherwise the first valid vehicle number among the upper-cased message's words, or none for an empty message |
| OwnerRules.PassGrantAndRevoke | handlers/ownerHandlers.js:236-238 | a pass written ACTIVE counts as active exactly up to its expiry; a revoked pass (INACTIVE, expired a day ago, as at :277) never counts |
| OwnerRules.FindByPhoneComplete | handlers/ownerHandlers.js:316-321 | on the lot's roster, an attendant with the number is found exactly when the lot has one, and it is the lot's |
| OwnerRules.DeactivateByPhone | handlers/ownerHandlers.js:316 | the UPDATE keeps every attendant row |
| OwnerRules.DeactivateByPhoneIsDeactivate | handlers/ownerHandlers.js:316 | with unique numbers, deactivating by number and lot deactivates exactly that one attendant |
| OwnerRules.RemovalPhoneSpec | handlers/ownerHandlers.js:298-314 | a list number names an active attendant of the lot, and removing it lowers the active count by one; otherwise the number is the typed one normalised; an invalid number is neither a list number nor a phone number |
| OwnerRules.UnpaidClosesWithoutFee | handlers/ownerHandlers.js:101-106 | an unpaid (PARKED_UNPAID) vehicle is closed at once as COMPLETED_NO_FEE_EXIT, and its fee is left as it was |
| OwnerRules.ListKey | handlers/ownerHandlers.js:78-81 | a list key names a position of the snapshot |
| OwnerRules.ListKeyIff | handlers/ownerHandlers.js:78-91 | `listMap.has(u)` for position j holds exactly when u is the decimal text of j+1 |
| OwnerRules.FindVehicle | handlers/ownerHandlers.js:93 | `find` returns a snapshot row of that vehicle, and nothing only when no row has it |
| OwnerRules.Resolve | handlers/ownerHandlers.js:88-94 | an identifier resolves to a row of the snapshot |
| OwnerRules.CloseAll | handlers/ownerHandlers.js:86-112 | the bulk checkout keeps the number of rows |
| OwnerRules.BulkCheckoutOutcome | handlers/ownerHandlers.js:86-112 | one summary line per identifier. "Not found" exactly when the identifier resolves to no row. "Checked out" means the resolved row is closed with its fee unchanged. "Payment pending" means the row's status does not close at once and the row is left as it was. No row outside the snapshot changes |
| OwnerRules.CloseAllIsNoNewInside | handlers/ownerHandlers.js:101-106 | the bulk checkout creates no INSIDE row |
| OwnerRules.CloseAllStep | handlers/ownerHandlers.js:86-112 | one more identifier changes only its resolved row, and only when that row's status closes at once |
| SharedRules.ParkedVehicles | handlers/sharedHandlers.js:72 | one vehicle per PARKED row of the lot |
| SharedRules.LegacyResolveSpec | handlers/sharedHandlers.js:76-88 | a list number picks a parked vehicle or is warned about; otherwise a plate in any case names its upper-case form; anything else is warned about |
| SharedRules.ResolveStep | handlers/sharedHandlers.js:75-89 | each identifier adds its vehicle once or adds its warning |
| SharedRules.DistinctSpec | handlers/sharedHandlers.js:73-91 | `Array.from(new Set(...))` has no repeats and the same members, and keeps a repeat-free list unchanged |
| SharedRules.EveryIdentifierAccounted | handlers/sharedHandlers.js:75-89 | every identifier gives either a vehicle or a warning |
| SharedRules.CheckoutOneSpec | handlers/sharedHandlers.js:8-40 | one checkout changes at most the vehicle's newest PARKED row. It ends the row as COMPLETED_PASS for a pass holder, or as COMPLETED_CASH with the hourly fee. It writes nothing when the vehicle has no PARKED row or the lot has no rate |
| SharedRules.CheckoutAllStep | handlers/sharedHandlers.js:94-96 | each vehicle is checked out against the table the previous ones left |
| SharedRules.CheckoutAllKeepsTables | handlers/sharedHandlers.js:94-96 | checking vehicles out writes Transactions only, keeps its length and keeps one INSIDE row per vehicle |
| SharedRules.CheckInLeavesOneParked | handlers/sharedHandlers.js:42-66 | a check-in that passes the checks leaves exactly one PARKED row for the vehicle |
| Commands.ClassifyIdle | controllers/whatsappController.js:204-231 | a pass command carries a one-word vehicle; a message goes to the classifier exactly when it is not `LIST`, `LIST VEHICLES` or `STATUS`, not a plate, and starts with neither `OUT` nor `PASS` |
| Commands.EntrySpec | controllers/whatsappController.js:206-218 | a plate typed with spaces or in lower case starts the entry flow with its standard form |
| Commands.StandardTextShape | controllers/whatsappController.js:206-207 | the standardised text has no white space and no lower-case letter |
| Commands.OutIdentifiersSpec | controllers/whatsappController.js:219-222 | the `out` identifiers are non-empty and contain no comma or space |
| Commands.CamelCase | controllers/whatsappController.js:254 | camel-casing never lengthens the intent |
| Commands.IntentHandler | controllers/whatsappController.js:254-256 | an intent of words joined by `_` is handled by `handle` followed by each word capitalised |
| Commands.ResolvesAddPass | controllers/whatsappController.js:247-256 | the intent `add_pass` is handled by `handleAddPass` |
| Commands.ResolvesRemovePass | controllers/whatsappController.js:247-256 | the intent `remove_pass` is handled by `handleRemovePass` |
| Commands.ResolvesRemoveAttendant | controllers/whatsappController.js:247-256 | the intent `remove_attendant` is handled by `handleRemoveAttendant` |
| Commands.ResolvesManageAttendant | controllers/whatsappController.js:247-256 | the intent `manage_attendant` is handled by `handleManageAttendant` |
| Commands.ResolvesAddAttendant | controllers/whatsappController.js:247-256 | the intent `add_attendant` is handled by `handleAddAttendant` |
| Commands.ResolvesViewPasses | controllers/whatsappController.js:247-256 | the intent `view_passes` is handled by `handleViewPasses` |
| Commands.ResolvesGetReport | controllers/whatsappController.js:247-256 | the intent `get_report` is handled by `handleGetReport` |
| Commands.ResolvesSetPricingModel | controllers/whatsappController.js:247-256 | the intent `set_pricing_model` is handled by `handleSetPricingModel` |
| Commands.ResolvesSetTieredRate | controllers/whatsappController.js:247-256 | the intent `set_tiered_rate` is handled by `handleSetTieredRate` |
| Commands.ResolvesSetFlatRate | controllers/whatsappController.js:247-256 | the intent `set_flat_rate` is handled by `handleSetFlatRate` |
| Commands.ResolvesViewRates | controllers/whatsappController.js:247-256 | the intent `view_rates` is handled by `handleViewRates` |
| Commands.ResolvesSetPassRate | controllers/whatsappController.js:247-256 | the intent `set_pass_rate` is handled by `handleSetPassRate` |
| Commands.ResolvesListAttendants | controllers/whatsappController.js:247-256 | the intent `list_attendants` is handled by `handleListAttendants` |
| Commands.ResolvesActivateAttendant | controllers/whatsappController.js:247-256 | the intent `activate_attendant` is handled by `handleActivateAttendant` |
| Commands.OwnerIntentsResolve | controllers/whatsappController.js:247-266 | every owner intent names an exported owner handler, so "feature not available" is never sent; a non-owner always gets "owners only" |
| Commands.FlatRateExample | controllers/whatsappController.js:252-256 | `set_flat_rate` is handled by `handleSetFlatRate` |
| Commands.MainRoute | controllers/whatsappController.js:128-202 | a universal `cancel` comes first; each handler is reached only in its own state; removal confirmation only for an owner; a list reply only with a list number; idle commands only with no state |
| Commands.MainRouteReachesHandler | controllers/whatsappController.js:140-201 | a message other than `cancel` reaches the handler of the state the user waits in; the removal state confirms only for an owner, the checkout state only on `Yes, Check Out`, the list state only with a list number |
| Commands.CancelButtonIsUniversal | controllers/whatsappController.js:132-137 | a "Cancel" button is taken as the universal cancel in every state, so the handlers' own Cancel branches are never reached |
| Commands.ReceiptStateResets | controllers/whatsappController.js:140-196 | the receipt-number state has no case: every reply but `cancel` resets the conversation |
| Parking.NoNewInsideKeepsContext | handlers/attendantHandlers.js:623-627 | a write creating no INSIDE row keeps every saved context valid |
| Parking.ResolveIdentifiers | handlers/sharedHandlers.js:73-91 | the loop over the identifiers computes the de-duplicated vehicles and the warnings |
| Parking.CloseIdentified | handlers/ownerHandlers.js:86-112 | the loop over the identifiers computes CloseAll and the summary |
| Parking.ParkingSystem.HandleInitialVehicleEntry | handlers/attendantHandlers.js:431-461 | an invalid plate is refused. A vehicle inside is offered the exit. A pass holder is asked to confirm. A known customer is asked how to pay, with the entry fee. Anyone else is asked for a number. Nothing is written |
| Parking.ParkingSystem.HandleCustomerNumberInput | handlers/attendantHandlers.js:463-474 | a valid number is saved for the vehicle and the payment question follows; an invalid one is refused and nothing changes |
| Parking.ParkingSystem.AskForPaymentType | handlers/attendantHandlers.js:476-497 | the entry fee is quoted and saved, and the state awaits the payment type |
| Parking.ParkingSystem.HandleParkingConfirmation | handlers/attendantHandlers.js:499-539 | an accepted button inserts the vehicle's only INSIDE row, with the button's status and the entry fee. The receipt then goes to the customer, or the user is asked for a number. Any other button cancels |
| Parking.ParkingSystem.HandleReceiptCustomerNumber | handlers/attendantHandlers.js:541-561 | a valid number is written on the vehicle's newest INSIDE row (`RecordReceiptNumber`) and saved for the vehicle; otherwise the receipt is skipped; the flow ends |
| Parking.ParkingSystem.HandleReceiptCustomerNumberAsWritten | handlers/attendantHandlers.js:541-561 | as written, a valid number makes the UPDATE fail: nothing is saved, the controller reports an internal error and the state stays; an invalid number skips the receipt and ends the flow |
| Parking.ParkingSystem.HandleInitialVehicleExit | handlers/attendantHandlers.js:566-598 | exactly one identifier is looked up as ExitTarget decides. The fee due is the billing engine's. The exit is offered as "collect" or "ok to go". Nothing is written |
| Parking.ParkingSystem.HandleExitConfirmation | handlers/attendantHandlers.js:600-641 | an accepted button marks the saved row EXITED with its status and whole bill. Any other button is refused. The flow ends |
| Parking.ParkingSystem.HandleStartPassCreation | handlers/attendantHandlers.js:646-659 | a valid plate gets the lot's pass-type menu; an invalid plate or a lot without pass types is refused |
| Parking.ParkingSystem.HandlePassTypeSelection | handlers/attendantHandlers.js:661-686 | a button naming a pass type with a fee moves on with its name, fee and duration; the customer's number is asked for unless known |
| Parking.ParkingSystem.HandlePassCustomerNumberInput | handlers/attendantHandlers.js:688-703 | a valid number is saved and the payment question follows; an invalid one is refused |
| Parking.ParkingSystem.HandlePassFinalConfirmation | handlers/attendantHandlers.js:705-728 | any button but "Cancel" writes the pass, active and expiring after the chosen number of days, so the vehicle holds an active pass from now on; "Cancel" writes nothing; the flow ends |
| Parking.ParkingSystem.SharedListVehicles | handlers/sharedHandlers.js:106-116 | the parked vehicles are listed in table order, or "none parked" |
| Parking.ParkingSystem.SharedGetStatus | handlers/sharedHandlers.js:100-104 | the reply counts the lot's PARKED rows |
| Parking.ParkingSystem.CheckoutSingleVehicle | handlers/sharedHandlers.js:8-40 | the database becomes CheckoutOne's and its reply is sent |
| Parking.ParkingSystem.SharedVehicleCheckout | handlers/sharedHandlers.js:68-98 | only Transactions change. Without identifiers nothing happens. Otherwise the warnings are sent, then "processing", then each named vehicle is checked out once, in order of first mention |
| Parking.ParkingSystem.CheckoutVehicles | handlers/sharedHandlers.js:94-96 | the loop computes CheckoutAll |
| Parking.ParkingSystem.LegacyCheckIn | handlers/sharedHandlers.js:42-66 | a missing, invalid or already-parked vehicle is refused; otherwise one PARKED row is inserted |
| Parking.ParkingSystem.OwnerVehicleCheckout | handlers/ownerHandlers.js:72-117 | identifiers are resolved against one snapshot of the INSIDE rows; rows already paid for are closed, the rest reported with their fee, in one summary |
| Parking.ParkingSystem.SetPricingModel | handlers/ownerHandlers.js:120-129 | only an owner's valid model is written to the lot; otherwise the refusal is sent and nothing changes |
| Parking.ParkingSystem.AddAttendant | handlers/ownerHandlers.js:324-351 | only an owner with both details is served. At the plan's cap, or with an invalid or taken number, the refusal is sent. Otherwise one active attendant is added and the count rises by one, never past the cap |
| Parking.ParkingSystem.ManageAttendant | handlers/ownerHandlers.js:599-633 | the attendant named is offered for removal if active, with the refusals of the source otherwise; nothing is written |
| Parking.ParkingSystem.RemovalConfirmation | handlers/ownerHandlers.js:635-659 | "Deactivate Only" leaves the attendant inactive. "Delete Forever" removes it and no transaction names it any more. Anything else changes nothing. The flow always ends |
| Parking.ParkingSystem.ActivateAttendant | handlers/ownerHandlers.js:662-710 | an inactive attendant named is made active and the lot's count rises by one; the refusals otherwise; the cap is not checked |
| Parking.ParkingSystem.SetTieredRate | handlers/ownerHandlers.js:131-145 | an owner's duration and fee switch the lot to TIERED and upsert that tier, the rest of the card kept; a missing one is refused; a non-number fails after the switch with the internal error |
| Parking.ParkingSystem.SetFlatRate | handlers/ownerHandlers.js:147-169 | `block` with hours writes BLOCK with fee and hours; `hourly` writes HOURLY with the fee; a missing type, fee or block hours, or another type, is refused and writes nothing; a non-number fails with the internal error |
| Parking.ParkingSystem.SetPassRate | handlers/ownerHandlers.js:202-212 | a fee that parses becomes the lot's pass rate and, unless 0, the price quoted for a new pass; a missing or non-numeric fee is refused |
| Parking.ParkingSystem.AddOwnerPass | handlers/ownerHandlers.js:215-251 | a valid vehicle number gets an ACTIVE pass for the given days, 30 by default, with the customer's number normalised, replacing any pass it had; the reply quotes the pass rate; the vehicle then holds an active pass exactly up to the expiry |
| Parking.ParkingSystem.RemoveOwnerPass | handlers/ownerHandlers.js:253-291 | the vehicle named, or found in the message, loses an ACTIVE pass, which then never counts as active; no vehicle or no ACTIVE pass is reported and nothing is written |
| Parking.ParkingSystem.RemoveAttendant | handlers/ownerHandlers.js:294-322 | the lot's attendant with the number named, by list position among the active ones or typed, is deactivated, and by list position the active count drops by one; an invalid list number or phone, or a number not in the lot, is refused and nothing is written |
| Parking.ParkingSystem.HandleFastPath | controllers/whatsappController.js:209-231 | each fast path has exactly the effect of the handler it calls (list, status, entry, checkout, pass menu), a usage hint is only its reply, and none changes the lot's settings or staff |
| Parking.ParkingSystem.HandleIdleUserCommands | controllers/whatsappController.js:204-287 | a fast path has its handler's effect, and a message left for the classifier has the effect of its intent; no classified intent but an owner's changes anything, and a non-owner never changes the lot's settings or staff |
| Parking.ParkingSystem.HandleIntent | controllers/whatsappController.js:233-286 | menus, help and refusals are only replies; the fallback adds the menu for an owner; an owner intent has exactly the effect of the owner handler it names, including the rate, pass and attendant handlers that write; a non-owner changes nothing |
| Parking.ParkingSystem.RunOwnerHandler | controllers/whatsappController.js:258-259 | each owner handler that writes (pricing model, tiered, flat and pass rates, adding and removing passes, adding, managing, removing and reactivating attendants) has exactly its own effect, with the intent's fields as arguments; the four that only read and reply (passes, report, rates, attendant list) are recorded as called and change nothing |
| Parking.ParkingSystem.ContinueParkingFlow | controllers/whatsappController.js:142-159 | the state's handler has exactly its effect: number input, parking confirmation, the exit offer for the saved vehicle or the list number, exit confirmation; none changes the lot's settings and staff or the passes |
| Parking.ParkingSystem.ContinuePassFlow | controllers/whatsappController.js:160-168 | the state's handler has exactly its effect: pass type selection, customer number, final confirmation; none changes the lot's settings and staff or Transactions |
| Parking.ParkingSystem.ContinueWaitingFlow | controllers/whatsappController.js:140-178 | a waiting state's handler has exactly its effect: the parking and exit steps, the pass steps, or an owner's removal reply |
| Parking.ParkingSystem.EndOrRestart | controllers/whatsappController.js:131-195 | a cancel, a declined checkout, a non-owner's removal reply and a state without a case each end the flow with their reply and write nothing |
| Parking.ParkingSystem.MainRouter | controllers/whatsappController.js:128-202 | a cancel ends any flow and writes nothing. A declined checkout, a non-owner's removal reply and a state without a case each end the flow with their reply. Every other route but one has exactly the effect of the handler it reaches: the parking, exit and pass steps, an owner's removal reply, and the idle commands. A non-owner never changes the lot's settings or staff |

## Left out

- Network I/O, WhatsApp message formatting, images, receipts and e-pass
  files are left out. Replies are reduced to one constructor per kind of
  message, carrying the values the text shows.
- The intent classifier (`getAiIntent`) is a parameter: the `Intent` value
  passed to the router. The help text it generates is the `HelpList` reply.
- The language of a reply (the Hindi variant) is left out.
- Letter-case mapping and white space cover ASCII only.
- `parseInt` is modelled on decimal and `0x` prefixes with unbounded
  integers. Precision loss above 2^53 is not modelled.
- Time is milliseconds as an integer parameter. `NOW()` is the `now`
  argument. Pass expiry adds whole days of 86,400,000 ms, so `setDate` and
  daylight-saving shifts are not modelled.
- `ORDER BY start_time` is modelled as table (insertion) order. This
  assumes the clock never goes back.
- The attendant roster order (`ORDER BY is_active DESC, name ASC`) is a
  parameter checked by `IsRoster`. The collation of names is not
  modelled.
- Only one user's conversation is modelled at a time. Concurrent users and
  races between handlers are left out.
- Records.WellFormed and AttendantRules.ExitTargetSpec: "one INSIDE row per
  vehicle" and the `requires` of `ExitTargetSpec` that rests on it hold only
  while one conversation per lot runs at a time. Two attendants of one lot
  can both pass the check at handlers/attendantHandlers.js:436 and both
  insert at :517; the schema has no constraint against it.
- A lower-case `pass gj05ab1234` reaches `handleStartPassCreation` with the
  plate as typed, so the pass is stored un-upper-cased. The model follows
  the code.
- The owner's notification of a cash payment is left out. So is the
  `last_seen` column of Customers.
- Database errors and the `catch` branches they reach are left out. The
  one exception is the unique-number violation (23505) of
  `handleAddAttendant`, modelled as `PhoneTaken`. Phone numbers are assumed
  unique across all lots.
- Parking.ParkingSystem.ActivateAttendant: the "failed to reactivate" reply
  for an UPDATE that matches no row is not modelled. The attendant was just
  read from the same table, so the UPDATE always finds it here.
- `setUserState` and `clearUserState` are called in the handlers but not
  defined in handlers/sharedHandlers.js. The model gives them their evident
  effect: save the state and context, or reset to IDLE with an empty
  context.
- The router passes the whole `user` where the shared handlers expect
  `lot_id`. The model uses the user's lot.
- `handleInitialVehicleExit` bills pass holders like anyone else. The model
  follows the code.
- Parking.ParkingSystem.HandleIdleUserCommands: the second plate check in
  the fallback branch is not modelled, because `ClassifyIdle` proves it can
  never succeed there.
- Parking.ParkingSystem.RunOwnerHandler: `handleViewPasses`,
  `handleGetReport`, `handleViewRates` and `handleListAttendants` only read
  and reply; the text of those replies is not modelled, and routing to them
  is recorded as a `Delegated` reply.
- The classifier's parameters are text. A numeric parameter of 0, which
  `!fee` would refuse, is not told apart from a given one.
- A parameter that `parseInt` reads as NaN is taken to make its query fail.
  That failure reaches the controller's `catch`
  (controllers/whatsappController.js:116-118), modelled as `InternalError`.
  In `handleSetTieredRate` the switch to TIERED is already written by then.
- The pass expiry in `handleAddPass`'s reply is the millisecond value, not
  its `toLocaleDateString` text.
- Parking.ParkingSystem.MainRouter: a reply in the list state that is not a
  list number resets the conversation and then runs the idle commands. For
  that one route the contract states only the invariant and the settings
  guarantee, because the idle commands' effect is stated from the reset
  state, not the state the message arrived in.
- The saved context is modelled as the handlers write it. A context edited
  by hand in the database is outside the model.
- handlers/adminHandlers.js, handlers/cronHandler.js, daily_report.js and
  the services are not part of this model.

## Findings

| source | as written | input that shows it | evidently intended | confidence | as-written member | corrected member |
|---|---|---|---|---|---|---|
| handlers/attendantHandlers.js:546 | `UPDATE Transactions ... ORDER BY start_time DESC LIMIT 1`; PostgreSQL accepts no `ORDER BY` or `LIMIT` in an UPDATE, so the query is rejected | a vehicle parked without a number, then a valid customer number at the receipt prompt: nothing is saved and the user sees the internal error | the number is written on the vehicle's newest INSIDE row and saved for the vehicle | not executed | Parking.ParkingSystem.HandleReceiptCustomerNumberAsWritten, AttendantRules.ReceiptNumberLostAsWritten | Parking.ParkingSystem.HandleReceiptCustomerNumber, AttendantRules.RecordReceiptNumberSpec |

=== FILE: attendant_rules.dfy ===
/** The decisions the attendant flows of handlers/attendantHandlers.js take
    on a reply: which status a parked vehicle gets, which status an exit
    closes it with, and how a pass-type button title is read back. */
module AttendantRules {
  import opened Wrappers
  import opened Text
  import Billing
  import opened Records
  import Messages

  const MsPerDay: int := 86400000

  /** The status a parking-confirmation reply parks the vehicle with; None
      cancels. A pass holder can only confirm; everyone else chooses how to pay. */
  function ParkingStatus(isPassHolder: bool, button: string): (status: Option<string>)
  {
    if isPassHolder then
      if button == "Yes, Park" then Some("PARKED_PASS") else None
    else if button == "Cash" then Some("PARKED_PAID_CASH")
    else if button == "UPI" then Some("PARKED_PAID_UPI")
    else if button == "Pay Later" then Some("PARKED_UNPAID")
    else None
  }

  /** `status.includes('PAID')`: whether the entry fee is written as `total_fee`. */
  predicate RecordsEntryFee(status: string) {
    Contains(status, "PAID")
  }

  /** Every reply accepted from a non-holder records the entry fee as paid,
      "Pay Later" included, because PARKED_UNPAID contains PAID; a pass holder's
      row records none. Only the four buttons park a vehicle. */
  lemma ParkingStatusRecordsFee(isPassHolder: bool, button: string)
    ensures ParkingStatus(isPassHolder, button).Some? <==>
      (if isPassHolder then button == "Yes, Park" else button in {"Cash", "UPI", "Pay Later"})
    ensures ParkingStatus(isPassHolder, button).Some? ==>
      (RecordsEntryFee(ParkingStatus(isPassHolder, button).value) <==> !isPassHolder)
  {
    ContainsAt("PARKED_PAID_CASH", "PAID", 7);
    ContainsAt("PARKED_PAID_UPI", "PAID", 7);
    ContainsAt("PARKED_UNPAID", "PAID", 9);
    NoPaidInPassStatus();
  }

  lemma NoPaidInPassStatus()
    ensures !Contains("PARKED_PASS", "PAID")
  {
    var s := "PARKED_PASS";
    assert 'I' !in s && "PAID"[2] == 'I';
    if Contains(s, "PAID") {
      ContainsHasChars(s, "PAID", 2);
    }
  }

  /** The row `handleParkingConfirmation` inserts: INSIDE, started now, with the
      entry fee (0 when the context has none) as `total_fee` exactly when the
      status contains PAID. */
  function EntryRow(lot: int, userId: int, vehicle: string, customer: Option<string>,
                    entryFee: Option<int>, status: string, now: int): Transaction {
    Transaction(lot, Some(userId), vehicle, now, None, status, Inside,
      if RecordsEntryFee(status) then Some(entryFee.GetOr(0)) else None, customer)
  }

  /** "Pay Later" parks the vehicle with the quoted entry fee recorded as if
      it had been paid, so an exit within the first period asks for nothing
      although nothing was collected. */
  lemma PayLaterIsNeverCollected(lotId: int, lot: Billing.Lot, card: seq<Billing.Tier>, userId: int,
                                 vehicle: string, customer: Option<string>, now: int, later: int)
    requires Billing.SortedByDuration(card)
    requires var h := Billing.ElapsedHours(now, later);
      if lot.pricingModel == "BLOCK" then Billing.BlockConfigured(lot) && h <= lot.blockRateHours
      else if lot.pricingModel == "HOURLY" then lot.hourlyRate != 0 && h <= 1
      else |card| > 0 && card[0].fee != 0 && h <= card[0].durationHours
    ensures ParkingStatus(false, "Pay Later") == Some("PARKED_UNPAID")
    ensures var fee := Billing.EntryFee(lot, card);
      var t := EntryRow(lotId, userId, vehicle, customer, Some(fee), "PARKED_UNPAID", now);
      t.totalFee == Some(fee) && fee != 0 && Billing.FinalFee(Some(lot), card, StayOf(t), later) == 0
  {
    ParkingStatusRecordsFee(false, "Pay Later");
    Billing.EntryFeeIsFirstPeriodBill(lot, card, now, later);
  }

  /** The status an exit-confirmation reply closes the row with; None resets. */
  function ExitStatus(button: string, originalStatus: string): (status: Option<string>)
  {
    if button == "Confirm Exit" then
      Some(if Contains(originalStatus, "PASS") then "COMPLETED_PASS_EXIT" else "COMPLETED_NO_FEE_EXIT")
    else if button == "Cash Collected" then Some("COMPLETED_CASH_EXIT")
    else if button == "UPI Collected" then Some("COMPLETED_UPI_EXIT")
    else None
  }

  /** Exactly the three exit buttons close a row, and a pass row confirmed
      without payment is closed as a pass exit. */
  lemma ExitStatusCases(button: string, originalStatus: string)
    ensures ExitStatus(button, originalStatus).Some? <==>
      button in {"Confirm Exit", "Cash Collected", "UPI Collected"}
    ensures button == "Confirm Exit" && originalStatus == "PARKED_PASS" ==>
      ExitStatus(button, originalStatus) == Some("COMPLETED_PASS_EXIT")
  {
    ContainsAt("PARKED_PASS", "PASS", 7);
  }

  /** The `total_fee` an exit writes: what was recorded before plus what was collected. */
  function ExitTotal(recorded: Option<int>, collected: int): int {
    recorded.GetOr(0) + collected
  }

  /** Collecting the fee the billing engine asks for leaves the row recording
      the whole bill, or what had been paid if that was more. */
  lemma ExitSettlesBill(lot: Billing.Lot, card: seq<Billing.Tier>, stay: Billing.Stay, now: int)
    ensures var bill := Billing.TotalBill(lot, card, Billing.ElapsedHours(stay.startTime, now));
      ExitTotal(stay.totalFee, Billing.FinalFee(Some(lot), card, stay, now))
        == Billing.Max(bill, Billing.AlreadyPaid(stay))
  {
  }

  /** The row `handleInitialVehicleExit` settles: a positive list number is a
      position among the lot's INSIDE rows, oldest first; anything else is the
      upper-cased vehicle number's newest INSIDE row. */
  function ExitTarget(txs: seq<Transaction>, lot: int, identifier: string): (r: Option<nat>)
    ensures r.Some? ==> r.value < |txs| && Matches(txs[r.value], InsideIn(lot))
  {
    if IsListNumber(identifier) then Nth(txs, InsideIn(lot), ParseInt(identifier).value)
    else Newest(txs, InsideAs(lot, ToUpper(identifier)))
  }

  /** The message when ExitTarget finds nothing. */
  function ExitRefusal(txs: seq<Transaction>, lot: int, identifier: string): Messages.Reply {
    if IsListNumber(identifier) then Messages.InvalidListNumber(|Rows(txs, InsideIn(lot))|)
    else Messages.NotInside(identifier)
  }

  /** A list number n finds the n-th oldest INSIDE row of the lot, and finds
      nothing exactly when fewer vehicles are inside; a vehicle number in any
      letter case finds that vehicle's INSIDE row, its only one, and finds
      nothing exactly when the vehicle is not inside. */
  lemma ExitTargetSpec(txs: seq<Transaction>, lot: int, identifier: string, k: nat)
    requires OneInsidePerVehicle(txs)
    ensures IsListNumber(identifier) ==>
      var n := ParseInt(identifier).value;
      var inside := Rows(txs, InsideIn(lot));
      (ExitTarget(txs, lot, identifier).None? <==> n > |inside|)
      && (n <= |inside| ==> ExitTarget(txs, lot, identifier) == Some(inside[n - 1]))
    ensures !IsListNumber(identifier) ==>
      (ExitTarget(txs, lot, identifier) == Some(k) <==>
         k < |txs| && Matches(txs[k], InsideAs(lot, ToUpper(identifier))))
      && (ExitTarget(txs, lot, identifier).None? <==> NotInside(txs, lot, ToUpper(identifier)))
  {
    if !IsListNumber(identifier) {
      var f := InsideAs(lot, ToUpper(identifier));
      InsideAtMostOnce(txs, lot, ToUpper(identifier));
      NewestSpec(txs, f, k);
      if k < |txs| && Matches(txs[k], f) {
        assert k in Rows(txs, f);
      }
    }
  }

  /** The row as the exit confirmation leaves it: exited now with the chosen
      status, and what was collected added to what was recorded. */
  function ExitedRow(t: Transaction, status: string, collected: int, now: int): Transaction {
    t.(endTime := Some(now), status := status, totalFee := Some(ExitTotal(t.totalFee, collected)),
       vehicleState := Exited)
  }

  /** When the amount collected is what the billing engine asked for, the
      closed row records the whole bill of the stay, or what had been paid if
      that was more, and the vehicle is no longer inside. */
  lemma ExitRecordsWholeBill(t: Transaction, lot: Billing.Lot, card: seq<Billing.Tier>, status: string, now: int)
    ensures var t' := ExitedRow(t, status, Billing.FinalFee(Some(lot), card, StayOf(t), now), now);
      var bill := Billing.TotalBill(lot, card, Billing.ElapsedHours(t.startTime, now));
      t'.totalFee == Some(Billing.Max(bill, Billing.AlreadyPaid(StayOf(t))))
      && t'.vehicleState == Exited && t'.endTime == Some(now)
      && t'.lotId == t.lotId && t'.vehicle == t.vehicle && t'.startTime == t.startTime
  {
    ExitSettlesBill(lot, card, StayOf(t), now);
  }

  // ---------------------------------------------------------------- receipt number

  /** The write `handleReceiptCustomerNumber` means to make: the customer's
      number on the vehicle's newest INSIDE row, and no change when the
      vehicle has none. */
  function RecordReceiptNumber(txs: seq<Transaction>, lot: int, v: string, p: string): (r: seq<Transaction>)
    ensures |r| == |txs|
  {
    match Newest(txs, InsideAs(lot, v))
    case None => txs
    case Some(k) => txs[k := txs[k].(customer := Some(p))]
  }

  /** Only the newest INSIDE row of the vehicle changes, and only in its
      customer; whenever the vehicle is inside, that row carries the number. */
  lemma RecordReceiptNumberSpec(txs: seq<Transaction>, lot: int, v: string, p: string)
    ensures var r := RecordReceiptNumber(txs, lot, v, p);
      (forall i :: 0 <= i < |txs| && Newest(txs, InsideAs(lot, v)) != Some(i) ==> r[i] == txs[i])
      && (forall i :: 0 <= i < |txs| && Newest(txs, InsideAs(lot, v)) == Some(i) ==> r[i] == txs[i].(customer := Some(p)))
      && ((exists i :: 0 <= i < |txs| && Matches(txs[i], InsideAs(lot, v))) ==>
            exists i :: 0 <= i < |r| && Matches(r[i], InsideAs(lot, v)) && r[i].customer == Some(p))
  {
    var f := InsideAs(lot, v);
    if i :| 0 <= i < |txs| && Matches(txs[i], f) {
      assert i in Rows(txs, f);
      var k := Newest(txs, f).value;
      assert Matches(RecordReceiptNumber(txs, lot, v, p)[k], f);
    }
  }

  /** As written, the UPDATE carries `ORDER BY ... LIMIT 1`, which PostgreSQL
      rejects, so the table is left as it was: a vehicle parked without a
      number keeps none, where the intended write records it. */
  lemma ReceiptNumberLostAsWritten()
    ensures var txs := [Transaction(1, Some(7), "GJ05AB1234", 0, None, "PARKED_UNPAID", Inside, None, None)];
      txs[0].customer.None?
      && RecordReceiptNumber(txs, 1, "GJ05AB1234", "919876543210")[0].customer == Some("919876543210")
  {
    var txs := [Transaction(1, Some(7), "GJ05AB1234", 0, None, "PARKED_UNPAID", Inside, None, None)];
    assert Rows(txs[..0], InsideAs(1, "GJ05AB1234")) == [];
  }

  // ---------------------------------------------------------------- pass-type buttons

  /** The digits of the first `₹` followed by a digit: `s.match(/₹(\d+)/)[1]`. */
  function RupeeDigits(s: string): (d: Option<string>)
    ensures d.Some? ==> |d.value| >= 1 && AllDigits(d.value)
  {
    if |s| < 2 then None
    else if s[0] == '\U{20B9}' && IsDigit(s[1]) then Some(DigitPrefix(s[1..]))
    else RupeeDigits(s[1..])
  }

  /** The fee read from a pass-type button; no amount is 0. */
  function PassFee(button: string): int {
    match RupeeDigits(button)
    case None => 0
    case Some(d) => ParseInt(d).GetOr(0)
  }

  /** The pass name read from a pass-type button: the text before the first `(`, trimmed. */
  function PassName(button: string): string {
    Trim(Split(button, '(')[0])
  }

  /** The title `handleStartPassCreation` gives a pass type's button. */
  function PassButtonTitle(name: string, fee: nat): string {
    name + " (\U{20B9}" + Decimal(fee) + ")"
  }

  predicate Trimmed(s: string) {
    |s| == 0 || (!IsSpace(s[0]) && !IsSpace(s[|s| - 1]))
  }

  /** The first piece of a split is the text before the first separator. */
  lemma {:induction false} SplitFirst(a: string, b: string, sep: char)
    requires sep !in a
    ensures Split(a + [sep] + b, sep)[0] == a
  {
    var s := a + [sep] + b;
    if |a| > 0 {
      SplitFirst(a[1..], b, sep);
      assert s[1..] == a[1..] + [sep] + b;
      assert s[0] == a[0] && s[0] != sep;
      assert Split(s, sep)[0] == [s[0]] + Split(s[1..], sep)[0];
      assert a == [a[0]] + a[1..];
    } else {
      assert s == [sep] + b;
    }
  }

  lemma {:induction false} RupeeSkip(a: string, b: string)
    requires '\U{20B9}' !in a && |b| >= 2
    ensures RupeeDigits(a + b) == RupeeDigits(b)
  {
    if |a| > 0 {
      assert (a + b)[0] == a[0] && a[0] in a;
      assert (a + b)[1..] == a[1..] + b;
      RupeeSkip(a[1..], b);
    } else {
      assert a + b == b;
    }
  }

  lemma {:induction false} DigitPrefixStops(d: string, rest: string)
    requires AllDigits(d) && (|rest| == 0 || !IsDigit(rest[0]))
    ensures DigitPrefix(d + rest) == d
  {
    if |d| > 0 {
      assert (d + rest)[1..] == d[1..] + rest;
      DigitPrefixStops(d[1..], rest);
    }
  }

  lemma TrimNameSpace(name: string)
    requires Trimmed(name)
    ensures Trim(name + " ") == name
  {
    var s := name + " ";
    if |name| == 0 {
      assert TrimStart(s) == TrimStart(s[1..]);
      assert s[1..] == "";
    } else {
      assert TrimStart(s) == s;
      assert s[..|s| - 1] == name;
      assert TrimEnd(s) == TrimEnd(name);
    }
  }

  /** The name read back from a pass-type button is the pass type's name. */
  lemma PassNameOfTitle(name: string, fee: nat)
    requires '(' !in name && Trimmed(name)
    ensures PassName(PassButtonTitle(name, fee)) == name
  {
    var title := PassButtonTitle(name, fee);
    assert title == (name + " ") + ['('] + ("\U{20B9}" + Decimal(fee) + ")");
    SplitFirst(name + " ", "\U{20B9}" + Decimal(fee) + ")", '(');
    TrimNameSpace(name);
  }

  /** The fee read back from a pass-type button is the pass type's fee. */
  lemma PassFeeOfTitle(name: string, fee: nat)
    requires '\U{20B9}' !in name
    ensures PassFee(PassButtonTitle(name, fee)) == fee
  {
    var d := Decimal(fee);
    assert PassButtonTitle(name, fee) == (name + " (") + ("\U{20B9}" + d + ")");
    RupeeSkip(name + " (", "\U{20B9}" + d + ")");
    assert ("\U{20B9}" + d + ")")[1..] == d + ")";
    DigitPrefixStops(d, ")");
    DecimalIsCanonical(fee);
    DigitStringParses(d);
    DecimalRoundTrip(fee);
  }

  /** Reading back a pass-type button gives the pass type's name and fee,
      for a name with no `(` or `₹` and no white space at either end. */
  lemma PassButtonRoundTrip(name: string, fee: nat)
    requires '(' !in name && '\U{20B9}' !in name && Trimmed(name)
    ensures PassName(PassButtonTitle(name, fee)) == name
    ensures PassFee(PassButtonTitle(name, fee)) == fee
  {
    PassNameOfTitle(name, fee);
    PassFeeOfTitle(name, fee);
  }

  /** The first pass type of the lot with that name, as `rows[0]` of the lookup. */
  function FindPassType(types: seq<PassType>, lot: int, name: string): (r: Option<PassType>)
    ensures r.Some? ==> r.value in types && r.value.lotId == lot && r.value.name == name
    ensures r.None? ==> forall k :: 0 <= k < |types| ==> types[k].lotId != lot || types[k].name != name
  {
    if |types| == 0 then None
    else if types[0].lotId == lot && types[0].name == name then Some(types[0])
    else FindPassType(types[1..], lot, name)
  }

  /** The lot's pass types: `WHERE lot_id = $1 ORDER BY duration_days ASC`
      on a table kept in that order. */
  function PassTypesOf(types: seq<PassType>, lot: int): (r: seq<PassType>)
    ensures forall k :: 0 <= k < |r| ==> r[k] in types && r[k].lotId == lot
    ensures forall t :: t in types && t.lotId == lot ==> t in r
    ensures |types| == 1 ==> r == (if types[0].lotId == lot then types else [])
    ensures DaysAscending(types) ==> DaysAscending(r)
  {
    if |types| == 0 then []
    else
      var rest := PassTypesOf(types[1..], lot);
      FirstHasFewestDays(types);
      (if types[0].lotId == lot then [types[0]] else []) + rest
  }

  /** In a table kept in `duration_days` order no row has fewer days than the first. */
  lemma FirstHasFewestDays(types: seq<PassType>)
    ensures DaysAscending(types) && |types| > 0 ==>
      forall t :: t in types ==> types[0].durationDays <= t.durationDays
  {
    if DaysAscending(types) && |types| > 0 {
      forall t | t in types ensures types[0].durationDays <= t.durationDays {
        var j :| 0 <= j < |types| && types[j] == t;
      }
    }
  }

  /** Selecting the lot's rows works piece by piece, so the table order is kept. */
  lemma {:induction false} PassTypesOfAppend(a: seq<PassType>, b: seq<PassType>, lot: int)
    ensures PassTypesOf(a + b, lot) == PassTypesOf(a, lot) + PassTypesOf(b, lot)
  {
    if |a| == 0 {
      assert a + b == b;
    } else {
      assert (a + b)[1..] == a[1..] + b;
      PassTypesOfAppend(a[1..], b, lot);
    }
  }

  /** A pass name that reads back from its button: no `(`, no `₹`, no white
      space at either end. */
  predicate PlainName(name: string) {
    '(' !in name && '\U{20B9}' !in name && Trimmed(name)
  }

  /** The buttons of the pass-type menu, one per pass type; each plainly named
      type's button reads back as its name and fee. */
  function PassMenu(types: seq<PassType>): (titles: seq<string>)
    ensures |titles| == |types|
    ensures forall k :: 0 <= k < |types| && PlainName(types[k].name) ==>
      PassName(titles[k]) == types[k].name && PassFee(titles[k]) == types[k].fee
  {
    var titles := seq(|types|, k requires 0 <= k < |types| => PassButtonTitle(types[k].name, types[k].fee));
    assert forall k :: 0 <= k < |types| && PlainName(types[k].name) ==>
      PassName(titles[k]) == types[k].name && PassFee(titles[k]) == types[k].fee by {
      forall k | 0 <= k < |types| && PlainName(types[k].name)
        ensures PassName(titles[k]) == types[k].name && PassFee(titles[k]) == types[k].fee
      {
        PassButtonRoundTrip(types[k].name, types[k].fee);
      }
    }
    titles
  }

  /** Pressing a menu button of a pass type with a positive fee and a plain name
      selects that pass type's name and fee, and finds a pass type of that name. */
  lemma MenuSelectionFindsType(types: seq<PassType>, lot: int, k: nat)
    requires k < |PassTypesOf(types, lot)|
    requires var t := PassTypesOf(types, lot)[k];
      '(' !in t.name && '\U{20B9}' !in t.name && Trimmed(t.name) && t.fee > 0
    ensures var t := PassTypesOf(types, lot)[k];
      var title := PassMenu(PassTypesOf(types, lot))[k];
      PassName(title) == t.name && PassFee(title) == t.fee
      && FindPassType(types, lot, PassName(title)).Some?
  {
    var t := PassTypesOf(types, lot)[k];
    PassButtonRoundTrip(t.name, t.fee);
    assert t in types;
  }

  /** `expiryDate.setDate(expiryDate.getDate() + duration_days)` on a clock in milliseconds. */
  function PassExpiry(now: int, durationDays: int): (expiry: int)
    ensures durationDays > 0 ==> expiry > now
    ensures durationDays >= 0 ==> expiry >= now
  {
    now + durationDays * MsPerDay
  }
}

=== FILE: billing.dfy ===
/** utils/billing.js: the amount still due for a parked vehicle under the BLOCK,
    HOURLY and TIERED pricing models, and the entry fee quoted by
    handlers/attendantHandlers.js before a vehicle is parked. The lot row, the
    rate card and the clock are parameters; all times are in milliseconds. */
module Billing {
  import opened Wrappers

  /** A ParkingLots row as the fee calculation reads it. A NULL column is 0:
      the source tests every one of them with `!x`, which holds for both. */
  datatype Lot = Lot(pricingModel: string, blockRateFee: int, blockRateHours: int, hourlyRate: int)

  /** A RateCards row: the total cost of a stay of at most `durationHours` hours. */
  datatype Tier = Tier(durationHours: int, fee: int)

  /** The two Transactions columns the fee depends on. */
  datatype Stay = Stay(startTime: int, totalFee: Option<int>)

  const MsPerHour: int := 3600000
  const HoursPerDay: int := 24
  /** The fee quoted at entry when the configured one is NULL or 0. */
  const DefaultEntryFee: int := 20

  function Max(a: int, b: int): int { if a >= b then a else b }

  /** `Math.ceil(a / b)` for a positive divisor. */
  function CeilDiv(a: int, b: int): (q: int)
    requires b > 0
    ensures b * q - b < a <= b * q
  {
    -((-a) / b)
  }

  /** Whole hours between the two instants, rounded up. */
  function ElapsedHours(startMs: int, nowMs: int): (h: int)
    ensures (h - 1) * MsPerHour < nowMs - startMs <= h * MsPerHour
  {
    CeilDiv(nowMs - startMs, MsPerHour)
  }

  /** `transaction.total_fee || 0`. */
  function AlreadyPaid(stay: Stay): int {
    stay.totalFee.GetOr(0)
  }

  /** The order `ORDER BY duration_hours ASC` delivers the rate card in. */
  ghost predicate SortedByDuration(card: seq<Tier>) {
    forall i, j :: 0 <= i < j < |card| ==> card[i].durationHours <= card[j].durationHours
  }

  /** The unique key (lot_id, duration_hours) with `ORDER BY duration_hours`:
      one tier per duration, in strictly increasing durations. */
  ghost predicate KeyedByDuration(card: seq<Tier>) {
    forall i, j :: 0 <= i < j < |card| ==> card[i].durationHours < card[j].durationHours
  }

  predicate BlockConfigured(lot: Lot) {
    lot.blockRateFee != 0 && lot.blockRateHours > 0
  }

  function BlockBill(lot: Lot, hours: int): int {
    if lot.blockRateFee == 0 || lot.blockRateHours == 0 || lot.blockRateHours <= 0 then 0
    else Max(1, CeilDiv(hours, lot.blockRateHours)) * lot.blockRateFee
  }

  function HourlyBill(lot: Lot, hours: int): int {
    if lot.hourlyRate == 0 then 0 else Max(1, hours) * lot.hourlyRate
  }

  /** Index of the first tier, in card order, whose duration covers the stay. */
  function FirstCovering(card: seq<Tier>, hours: int): (r: Option<nat>)
    ensures r.Some? ==> r.value < |card|
  {
    if |card| == 0 then None
    else if hours <= card[0].durationHours then Some(0)
    else match FirstCovering(card[1..], hours)
      case None => None
      case Some(k) => Some(k + 1)
  }

  /** A stay longer than every tier: the top tier's fee once, plus once more per
      started 24 hours beyond its duration when that duration is positive. */
  function OverflowBill(top: Tier, hours: int): int {
    if top.durationHours > 0 then
      top.fee + CeilDiv(hours - top.durationHours, HoursPerDay) * top.fee
    else top.fee
  }

  function TieredBill(card: seq<Tier>, hours: int): int {
    if |card| == 0 then 0
    else match FirstCovering(card, hours)
      case Some(k) => card[k].fee
      case None => OverflowBill(card[|card| - 1], hours)
  }

  /** The total theoretical bill; any model other than BLOCK and HOURLY is TIERED. */
  function TotalBill(lot: Lot, card: seq<Tier>, hours: int): int {
    if lot.pricingModel == "BLOCK" then BlockBill(lot, hours)
    else if lot.pricingModel == "HOURLY" then HourlyBill(lot, hours)
    else TieredBill(card, hours)
  }

  /** What `calculateFinalFee` returns: nothing for a missing lot, otherwise the
      bill less what was already paid, never below zero. */
  function FinalFee(lot: Option<Lot>, card: seq<Tier>, stay: Stay, nowMs: int): (fee: int)
    ensures fee >= 0
  {
    match lot
    case None => 0
    case Some(l) => Max(0, TotalBill(l, card, ElapsedHours(stay.startTime, nowMs)) - AlreadyPaid(stay))
  }

  /** `calculateFinalFee`, with the tier search written as the source's early-exit loop. */
  method CalculateFinalFee(lot: Option<Lot>, card: seq<Tier>, stay: Stay, nowMs: int) returns (fee: int)
    ensures fee == FinalFee(lot, card, stay, nowMs)
  {
    if lot.None? {
      return 0;
    }
    var l := lot.value;
    var totalHours := CeilDiv(nowMs - stay.startTime, MsPerHour);
    var totalBill := 0;
    if l.pricingModel == "BLOCK" {
      if l.blockRateFee == 0 || l.blockRateHours == 0 || l.blockRateHours <= 0 {
        totalBill := 0;
      } else {
        var blocks := Max(1, CeilDiv(totalHours, l.blockRateHours));
        totalBill := blocks * l.blockRateFee;
      }
    } else if l.pricingModel == "HOURLY" {
      if l.hourlyRate == 0 {
        totalBill := 0;
      } else {
        totalBill := Max(1, totalHours) * l.hourlyRate;
      }
    } else if |card| == 0 {
      totalBill := 0;
    } else {
      var foundTier := false;
      ghost var found := 0;
      var i := 0;
      while i < |card|
        invariant 0 <= i <= |card|
        invariant !foundTier
        invariant forall j :: 0 <= j < i ==> totalHours > card[j].durationHours
      {
        if totalHours <= card[i].durationHours {
          totalBill := card[i].fee;
          foundTier := true;
          found := i;
          break;
        }
        i := i + 1;
      }
      if !foundTier {
        var maxTier := card[|card| - 1];
        if maxTier.durationHours > 0 {
          var hoursOverMax := totalHours - maxTier.durationHours;
          var daysOver := CeilDiv(hoursOverMax, HoursPerDay);
          totalBill := maxTier.fee + daysOver * maxTier.fee;
        } else {
          totalBill := maxTier.fee;
        }
        FirstCoveringSpec(card, totalHours, None);
      } else {
        FirstCoveringSpec(card, totalHours, Some(found));
      }
    }
    var amountAlreadyPaid := stay.totalFee.GetOr(0);
    var feeToCollect := totalBill - amountAlreadyPaid;
    fee := Max(0, feeToCollect);
  }

  // ---------------------------------------------------------------- properties

  /** The tier search finds tier k exactly when k covers the stay and no earlier
      tier does, and finds none exactly when no tier covers it. */
  lemma {:induction false} FirstCoveringSpec(card: seq<Tier>, hours: int, r: Option<nat>)
    ensures FirstCovering(card, hours) == r <==>
      match r
      case Some(k) => k < |card| && hours <= card[k].durationHours
        && forall j :: 0 <= j < k ==> hours > card[j].durationHours
      case None => forall j :: 0 <= j < |card| ==> hours > card[j].durationHours
  {
    if |card| > 0 {
      var tail := card[1..];
      match r {
        case None =>
          FirstCoveringSpec(tail, hours, None);
          if forall j :: 0 <= j < |card| ==> hours > card[j].durationHours {
            assert forall j :: 0 <= j < |tail| ==> hours > tail[j].durationHours by {
              forall j | 0 <= j < |tail| ensures hours > tail[j].durationHours {
                assert tail[j] == card[j + 1];
              }
            }
          }
        case Some(k) =>
          if k > 0 {
            FirstCoveringSpec(tail, hours, Some(k - 1));
            var side := k < |card| && hours <= card[k].durationHours
              && forall j :: 0 <= j < k ==> hours > card[j].durationHours;
            if side {
              assert forall j :: 0 <= j < k - 1 ==> hours > tail[j].durationHours by {
                forall j | 0 <= j < k - 1 ensures hours > tail[j].durationHours {
                  assert tail[j] == card[j + 1];
                }
              }
            }
            if FirstCovering(card, hours) == r {
              assert hours > card[0].durationHours;
              forall j | 0 <= j < k ensures hours > card[j].durationHours {
                if j > 0 { assert card[j] == tail[j - 1]; }
              }
            }
          }
      }
    }
  }

  /** On a card sorted by duration the tier found is the tightest one: no
      covering tier has a shorter duration. */
  lemma FirstCoveringIsTightest(card: seq<Tier>, hours: int, k: nat, j: nat)
    requires SortedByDuration(card)
    requires FirstCovering(card, hours) == Some(k)
    requires j < |card| && hours <= card[j].durationHours
    ensures card[k].durationHours <= card[j].durationHours
  {
    FirstCoveringSpec(card, hours, Some(k));
  }

  /** Beyond the top tier of positive duration the bill is the top fee once per
      started day beyond it, plus once: at least twice the top fee. */
  lemma OverflowAtLeastTwice(card: seq<Tier>, hours: int)
    requires |card| > 0 && FirstCovering(card, hours).None?
    requires card[|card| - 1].durationHours > 0 && card[|card| - 1].fee >= 0
    ensures var top := card[|card| - 1];
      TieredBill(card, hours) == (1 + CeilDiv(hours - top.durationHours, HoursPerDay)) * top.fee
      && TieredBill(card, hours) >= 2 * top.fee
  {
    var top := card[|card| - 1];
    FirstCoveringSpec(card, hours, None);
    assert hours > top.durationHours;
    var days := CeilDiv(hours - top.durationHours, HoursPerDay);
    assert days >= 1;
    assert (1 + days) * top.fee >= 2 * top.fee;
  }

  /** Beyond a top tier of non-positive duration the bill is the top fee. */
  lemma OverflowFlat(card: seq<Tier>, hours: int)
    requires |card| > 0 && FirstCovering(card, hours).None?
    requires card[|card| - 1].durationHours <= 0
    ensures TieredBill(card, hours) == card[|card| - 1].fee
  {
  }

  /** A configured block lot charges one fee per started block, and at least
      one block: the fewest blocks, never fewer than one, whose hours cover the stay. */
  lemma BlockChargesWholeBlocks(lot: Lot, card: seq<Tier>, hours: int)
    requires lot.pricingModel == "BLOCK"
    ensures !BlockConfigured(lot) ==> TotalBill(lot, card, hours) == 0
    ensures BlockConfigured(lot) ==>
      var blocks := Max(1, CeilDiv(hours, lot.blockRateHours));
      TotalBill(lot, card, hours) == blocks * lot.blockRateFee
      && hours <= blocks * lot.blockRateHours
      && (blocks == 1 || (blocks - 1) * lot.blockRateHours < hours)
  {
  }

  lemma MulMonotone(a: int, b: int, r: int)
    requires a <= b && r >= 0
    ensures a * r <= b * r
  {
  }

  /** For a non-negative rate, a longer stay never costs less by the hour. */
  lemma HourlyMonotone(lot: Lot, card: seq<Tier>, h1: int, h2: int)
    requires lot.pricingModel == "HOURLY" && lot.hourlyRate >= 0 && h1 <= h2
    ensures TotalBill(lot, card, h1) <= TotalBill(lot, card, h2)
    ensures lot.hourlyRate != 0 ==> TotalBill(lot, card, h1) >= lot.hourlyRate
  {
    MulMonotone(Max(1, h1), Max(1, h2), lot.hourlyRate);
    MulMonotone(1, Max(1, h1), lot.hourlyRate);
  }

  /** `Math.ceil` is monotone. */
  lemma CeilDivMonotone(a1: int, a2: int, b: int)
    requires a1 <= a2 && b > 0
    ensures CeilDiv(a1, b) <= CeilDiv(a2, b)
  {
    var q1, q2 := CeilDiv(a1, b), CeilDiv(a2, b);
    if q1 > q2 {
      MulMonotone(q2 + 1, q1, b);
    }
  }

  /** For a non-negative block fee, a longer stay never costs less by the block. */
  lemma BlockMonotone(lot: Lot, card: seq<Tier>, h1: int, h2: int)
    requires lot.pricingModel == "BLOCK" && lot.blockRateFee >= 0 && h1 <= h2
    ensures TotalBill(lot, card, h1) <= TotalBill(lot, card, h2)
  {
    if BlockConfigured(lot) {
      CeilDivMonotone(h1, h2, lot.blockRateHours);
      MulMonotone(Max(1, CeilDiv(h1, lot.blockRateHours)), Max(1, CeilDiv(h2, lot.blockRateHours)), lot.blockRateFee);
    }
  }

  /** The amount due is the unpaid remainder of the bill: never negative, zero
      once the amount already paid reaches the bill, the whole bill when nothing
      was recorded as paid, and zero for a lot that does not exist. */
  lemma FeeIsRemainder(lot: Option<Lot>, card: seq<Tier>, stay: Stay, nowMs: int)
    ensures lot.None? ==> FinalFee(lot, card, stay, nowMs) == 0
    ensures lot.Some? ==>
      var bill := TotalBill(lot.value, card, ElapsedHours(stay.startTime, nowMs));
      (AlreadyPaid(stay) >= bill ==> FinalFee(lot, card, stay, nowMs) == 0)
      && (AlreadyPaid(stay) < bill ==> FinalFee(lot, card, stay, nowMs) == bill - AlreadyPaid(stay))
      && (stay.totalFee.None? ==> FinalFee(lot, card, stay, nowMs) == Max(0, bill))
  {
  }

  // ---------------------------------------------------------------- entry fee

  /** `x || 20`. */
  function OrDefault(x: int): int {
    if x == 0 then DefaultEntryFee else x
  }

  /** The fee `askForPaymentType` quotes and freezes: the block fee, the hourly
      rate or the fee of the shortest tier, each 20 when NULL or 0. */
  function EntryFee(lot: Lot, card: seq<Tier>): (fee: int)
    ensures fee != 0
  {
    if lot.pricingModel == "BLOCK" then OrDefault(lot.blockRateFee)
    else if lot.pricingModel == "HOURLY" then OrDefault(lot.hourlyRate)
    else if |card| == 0 then DefaultEntryFee
    else OrDefault(card[0].fee)
  }

  /** Where the model is configured, the fee quoted at entry is exactly the bill
      for a stay within the first period (one hour, one block, the shortest
      tier), so a vehicle that paid it at entry owes nothing more then. */
  lemma EntryFeeIsFirstPeriodBill(lot: Lot, card: seq<Tier>, startMs: int, nowMs: int)
    requires SortedByDuration(card)
    requires var h := ElapsedHours(startMs, nowMs);
      if lot.pricingModel == "BLOCK" then BlockConfigured(lot) && h <= lot.blockRateHours
      else if lot.pricingModel == "HOURLY" then lot.hourlyRate != 0 && h <= 1
      else |card| > 0 && card[0].fee != 0 && h <= card[0].durationHours
    ensures TotalBill(lot, card, ElapsedHours(startMs, nowMs)) == EntryFee(lot, card)
    ensures FinalFee(Some(lot), card, Stay(startMs, Some(EntryFee(lot, card))), nowMs) == 0
  {
    var h := ElapsedHours(startMs, nowMs);
    if lot.pricingModel == "BLOCK" {
      CeilDivMonotone(h, lot.blockRateHours, lot.blockRateHours);
      assert CeilDiv(lot.blockRateHours, lot.blockRateHours) == 1;
    } else if lot.pricingModel != "HOURLY" {
      FirstCoveringSpec(card, h, Some(0));
    }
  }

  // ---------------------------------------------------------------- legacy hourly exit

  /** The fee of the legacy check-out in handlers/sharedHandlers.js: the
      started hours, at least one, times the hourly rate. */
  function LegacyHourlyFee(startMs: int, nowMs: int, hourlyRate: int): int {
    Max(1, CeilDiv(nowMs - startMs, MsPerHour)) * hourlyRate
  }

  /** The legacy fee agrees with the HOURLY model of the billing engine. */
  lemma LegacyFeeIsHourlyBill(lot: Lot, card: seq<Tier>, startMs: int, nowMs: int)
    requires lot.pricingModel == "HOURLY" && lot.hourlyRate != 0
    ensures LegacyHourlyFee(startMs, nowMs, lot.hourlyRate) == TotalBill(lot, card, ElapsedHours(startMs, nowMs))
    ensures lot.hourlyRate > 0 ==> LegacyHourlyFee(startMs, nowMs, lot.hourlyRate) >= lot.hourlyRate
  {
    if lot.hourlyRate > 0 {
      MulMonotone(1, Max(1, CeilDiv(nowMs - startMs, MsPerHour)), lot.hourlyRate);
    }
  }

  // ---------------------------------------------------------------- worked examples

  /** Block fee 60 per 12 hours, parked 5 hours: one block. */
  lemma ExampleBlock()
    ensures FinalFee(Some(Lot("BLOCK", 60, 12, 0)), [], Stay(0, None), 5 * MsPerHour) == 60
  {
  }

  /** Hourly rate 20, parked 90 minutes: two started hours. */
  lemma ExampleHourly()
    ensures FinalFee(Some(Lot("HOURLY", 0, 0, 20)), [], Stay(0, None), 90 * 60000) == 40
  {
  }

  /** Tiers (4h, 30), (12h, 60), (24h, 100), parked 30 hours: one day over the top tier. */
  lemma ExampleTieredOverflow()
    ensures FinalFee(Some(Lot("TIERED", 0, 0, 0)), [Tier(4, 30), Tier(12, 60), Tier(24, 100)],
      Stay(0, None), 30 * MsPerHour) == 200
  {
  }

  /** A 60 tier with 20 paid at entry leaves 40 to collect. */
  lemma ExampleAlreadyPaid()
    ensures FinalFee(Some(Lot("TIERED", 0, 0, 0)), [Tier(4, 30), Tier(12, 60), Tier(24, 100)],
      Stay(0, Some(20)), 10 * MsPerHour) == 40
  {
  }
}

=== FILE: commands.dfy ===
/** controllers/whatsappController.js: how an idle user's message is routed —
    the fast paths that need no classifier, the parsing of `out` and `pass`
    commands, and the dispatch of a classified intent to an owner handler by
    its derived name. */
module Commands {
  import opened Wrappers
  import opened Text
  import opened Validators
  import opened Records

  // ---------------------------------------------------------------- fast paths

  datatype IdleRoute =
    | ListVehicles
    | Status
    | Entry(vehicle: string)
    | Checkout(identifiers: seq<string>)
    | OutUsage
    | StartPass(vehicle: string)
    | PassUsage
    | AskClassifier

  /** `upperText`: the message upper-cased and trimmed. */
  function UpperText(text: string): string {
    Trim(ToUpper(text))
  }

  /** `standardizedText`: the upper text with all white space removed. */
  function StandardText(text: string): string {
    RemoveSpaces(UpperText(text))
  }

  /** The words after `out`, glued together and cut at commas, empty pieces dropped. */
  function OutIdentifiers(text: string): seq<string> {
    var words := Split(Trim(text), ' ');
    NonEmpty(Split(Join(words[1..], ""), ','))
  }

  /** The second space-separated word of the trimmed message, or "" when there is none. */
  function PassArgument(text: string): string {
    var words := Split(Trim(text), ' ');
    if |words| >= 2 then words[1] else ""
  }

  /** `handleIdleUserCommands` up to the point where it asks the classifier. */
  function ClassifyIdle(text: string): (r: IdleRoute)
    ensures r.StartPass? ==> r.vehicle != "" && ' ' !in r.vehicle
    ensures r.AskClassifier? <==>
      var upper := UpperText(text);
      upper != "LIST" && upper != "LIST VEHICLES" && upper != "STATUS"
      && !IsValidVehicleNumber(StandardText(text))
      && !StartsWith(upper, "OUT") && !StartsWith(upper, "PASS")
  {
    var upper := UpperText(text);
    var std := StandardText(text);
    if upper == "LIST" || upper == "LIST VEHICLES" then ListVehicles
    else if upper == "STATUS" then Status
    else if IsValidVehicleNumber(std) then Entry(std)
    else if StartsWith(upper, "OUT") then
      var ids := OutIdentifiers(text);
      if |ids| > 0 then Checkout(ids) else OutUsage
    else if StartsWith(upper, "PASS") then
      var v := PassArgument(text);
      if v != "" then StartPass(v) else PassUsage
    else AskClassifier
  }

  /** Joining pieces that avoid a character, with a separator that avoids it,
      gives a text that avoids it. */
  lemma {:induction false} JoinAvoids(parts: seq<string>, sep: string, c: char)
    requires forall k :: 0 <= k < |parts| ==> c !in parts[k]
    requires c !in sep
    ensures c !in Join(parts, sep)
  {
    if |parts| > 1 {
      JoinAvoids(parts[1..], sep, c);
      assert c !in parts[0];
    }
  }

  /** A vehicle entry is started only for a valid vehicle number, written
      without spaces or lower-case letters. */
  lemma EntrySpec(text: string)
    ensures ClassifyIdle(text).Entry? ==>
      var v := ClassifyIdle(text).vehicle;
      IsValidVehicleNumber(v) && v == StandardText(text) && NoLower(v) && forall i :: 0 <= i < |v| ==> !IsSpace(v[i])
  {
    if ClassifyIdle(text).Entry? {
      StandardTextShape(text);
    }
  }

  predicate NoLower(s: string) {
    forall k :: 0 <= k < |s| ==> !IsLower(s[k])
  }

  lemma SliceKeepsNoLower(s: string, i: nat, j: nat)
    requires NoLower(s) && i <= j <= |s|
    ensures NoLower(s[i..j])
  {
    assert forall k :: 0 <= k < j - i ==> s[i..j][k] == s[i + k];
  }

  lemma {:induction false} RemoveSpacesKeepsNoLower(s: string)
    requires NoLower(s)
    ensures NoLower(RemoveSpaces(s))
  {
    if |s| > 0 {
      SliceKeepsNoLower(s, 1, |s|);
      RemoveSpacesKeepsNoLower(s[1..]);
      var head := if IsSpace(s[0]) then "" else [s[0]];
      assert RemoveSpaces(s) == head + RemoveSpaces(s[1..]);
    }
  }

  /** The standardized text has neither white space nor lower-case letters. */
  lemma StandardTextShape(text: string)
    ensures NoLower(StandardText(text))
  {
    var u := ToUpper(text);
    assert NoLower(u);
    var t := TrimStart(u);
    SliceKeepsNoLower(u, |u| - |t|, |u|);
    SliceKeepsNoLower(t, 0, |TrimEnd(t)|);
    RemoveSpacesKeepsNoLower(UpperText(text));
  }

  /** The identifiers of an `out` command are non-empty and contain neither
      commas nor spaces. */
  lemma OutIdentifiersSpec(text: string)
    ensures forall k :: 0 <= k < |OutIdentifiers(text)| ==>
      OutIdentifiers(text)[k] != "" && ',' !in OutIdentifiers(text)[k] && ' ' !in OutIdentifiers(text)[k]
  {
    var words := Split(Trim(text), ' ');
    var joined := Join(words[1..], "");
    JoinAvoids(words[1..], "", ' ');
    var pieces := Split(joined, ',');
    forall k | 0 <= k < |OutIdentifiers(text)|
      ensures ' ' !in OutIdentifiers(text)[k]
    {
      var p := OutIdentifiers(text)[k];
      var j :| 0 <= j < |pieces| && pieces[j] == p;
      forall i | 0 <= i < |p|
        ensures p[i] != ' '
      {
        SplitPieceIn(joined, ',', j, i);
      }
    }
  }

  /** Every character of a piece of a split occurs in the split text. */
  lemma {:induction false} SplitPieceIn(s: string, sep: char, j: nat, i: nat)
    requires j < |Split(s, sep)| && i < |Split(s, sep)[j]|
    ensures Split(s, sep)[j][i] in s
  {
    if |s| > 0 {
      var rest := Split(s[1..], sep);
      if s[0] == sep {
        assert Split(s, sep)[j] == rest[j - 1];
        SplitPieceIn(s[1..], sep, j - 1, i);
      } else if j == 0 {
        if i > 0 {
          assert Split(s, sep)[0][i] == rest[0][i - 1];
          SplitPieceIn(s[1..], sep, 0, i - 1);
        }
      } else {
        assert Split(s, sep)[j] == rest[j];
        SplitPieceIn(s[1..], sep, j, i);
      }
    }
  }

  // ---------------------------------------------------------------- classified intents

  datatype IntentRoute = ShowMenu | GetHelp | OwnerHandler(name: string) | NotAvailable | OwnersOnly | Fallback

  /** The intents the router sends to the owner handlers, each as its
      underscore-separated words. */
  const OwnerIntentWords: seq<seq<string>> := [
    ["add", "pass"], ["remove", "pass"], ["remove", "attendant"], ["manage", "attendant"],
    ["add", "attendant"], ["view", "passes"], ["get", "report"],
    ["set", "pricing", "model"], ["set", "tiered", "rate"], ["set", "flat", "rate"],
    ["view", "rates"], ["set", "pass", "rate"], ["list", "attendants"], ["activate", "attendant"]
  ]

  const OwnerIntents: set<string> := set k | 0 <= k < |OwnerIntentWords| :: Join(OwnerIntentWords[k], "_")

  /** The names handlers/ownerHandlers.js exports. */
  const OwnerExports: set<string> := {
    "handleVehicleCheckout", "handleListVehicles", "handleSetPricingModel",
    "handleSetTieredRate", "handleSetFlatRate", "handleViewRates", "handleSetPassRate",
    "handleAddPass", "handleRemovePass", "handleRemoveAttendant", "handleAddAttendant",
    "handleViewPasses", "handleShowMenu", "handleGetReport", "handleGetHelpList",
    "handleListAttendants", "handleManageAttendant", "handleRemovalConfirmation",
    "handleActivateAttendant"
  }

  /** `intent.replace(/_([a-z])/g, g => g[1].toUpperCase())`. */
  function CamelCase(s: string): (r: string)
    ensures |r| <= |s|
  {
    if |s| == 0 then ""
    else if |s| >= 2 && s[0] == '_' && IsLower(s[1]) then [UpperChar(s[1])] + CamelCase(s[2..])
    else [s[0]] + CamelCase(s[1..])
  }

  /** `handle` followed by the camel-cased intent with its first letter capitalised. */
  function HandlerName(intent: string): string {
    var c := CamelCase(intent);
    "handle" + (if |c| == 0 then "" else [UpperChar(c[0])] + c[1..])
  }

  /** The route a classified intent takes for a user of the given role. */
  function RouteIntent(role: Role, intent: string): IntentRoute {
    if intent == "show_menu" then ShowMenu
    else if intent == "get_help" then GetHelp
    else if intent in OwnerIntents then
      if role != OwnerRole then OwnersOnly
      else if HandlerName(intent) in OwnerExports then OwnerHandler(HandlerName(intent))
      else NotAvailable
    else Fallback
  }

  /** Camel-casing a word, then an underscore and a lower-case letter,
      capitalises that letter and drops the underscore. */
  lemma {:induction false} CamelCaseWord(w: string, c: char, rest: string)
    requires forall i :: 0 <= i < |w| ==> w[i] != '_'
    requires IsLower(c)
    ensures CamelCase(w + ['_', c] + rest) == w + [UpperChar(c)] + CamelCase(rest)
  {
    if |w| == 0 {
      assert ['_', c] + rest == w + ['_', c] + rest;
    } else {
      assert (w + ['_', c] + rest)[1..] == w[1..] + ['_', c] + rest;
      CamelCaseWord(w[1..], c, rest);
    }
  }

  lemma {:induction false} CamelCasePlain(w: string)
    requires forall i :: 0 <= i < |w| ==> w[i] != '_'
    ensures CamelCase(w) == w
  {
    if |w| > 0 {
      CamelCasePlain(w[1..]);
    }
  }

  predicate Word(w: string) {
    |w| > 0 && forall i :: 0 <= i < |w| ==> IsLower(w[i])
  }

  function Capitalised(w: string): string
    requires |w| > 0
  {
    [UpperChar(w[0])] + w[1..]
  }

  lemma HandlerOfCamel(intent: string, a: string, rest: string)
    requires |a| > 0 && CamelCase(intent) == a + rest
    ensures HandlerName(intent) == "handle" + Capitalised(a) + rest
  {
    var c := a + rest;
    assert c[0] == a[0] && c[1..] == a[1..] + rest;
  }

  predicate Words(ws: seq<string>) {
    forall k :: 0 <= k < |ws| ==> Word(ws[k])
  }

  /** The words capitalised and concatenated. */
  function CapitalisedAll(ws: seq<string>): string
    requires Words(ws)
  {
    if |ws| == 0 then "" else Capitalised(ws[0]) + CapitalisedAll(ws[1..])
  }

  /** Joining a word and a non-empty list with underscores. */
  lemma JoinCons(w: string, ws: seq<string>)
    requires |ws| > 0
    ensures Join([w] + ws, "_") == w + "_" + Join(ws, "_")
  {
    assert ([w] + ws)[1..] == ws;
  }

  lemma WordsTail(ws: seq<string>)
    requires |ws| > 0 && Words(ws)
    ensures Words(ws[1..])
  {
    forall k | 0 <= k < |ws| - 1 ensures Word(ws[1..][k]) {
      assert ws[1..][k] == ws[k + 1];
    }
  }

  /** Joining words whose first word is non-empty starts with that word's first letter. */
  lemma JoinHead(w: string, ws: seq<string>)
    requires |w| > 0
    ensures Join([w] + ws, "_") == [w[0]] + Join([w[1..]] + ws, "_")
  {
    if |ws| > 0 {
      JoinCons(w, ws);
      JoinCons(w[1..], ws);
      assert w == [w[0]] + w[1..];
    } else {
      assert [w] + ws == [w];
      assert [w[1..]] + ws == [w[1..]];
    }
  }

  /** Camel-casing underscore-joined words keeps the first word and
      capitalises each later one. */
  lemma {:induction false} CamelCaseOfJoin(w: string, ws: seq<string>)
    requires forall i :: 0 <= i < |w| ==> w[i] != '_'
    requires Words(ws)
    ensures CamelCase(Join([w] + ws, "_")) == w + CapitalisedAll(ws)
    decreases |ws|
  {
    if |ws| == 0 {
      assert [w] + ws == [w];
      CamelCasePlain(w);
    } else {
      var w1 := ws[0];
      assert Word(w1);
      var tail := ws[1..];
      WordsTail(ws);
      JoinCons(w, ws);
      var rest := Join([w1[1..]] + tail, "_");
      assert ws == [w1] + tail;
      JoinHead(w1, tail);
      assert w + "_" + Join(ws, "_") == w + ['_', w1[0]] + rest;
      CamelCaseWord(w, w1[0], rest);
      assert forall i :: 0 <= i < |w1[1..]| ==> w1[1..][i] != '_';
      CamelCaseOfJoin(w1[1..], tail);
      assert CapitalisedAll(ws) == Capitalised(w1) + CapitalisedAll(tail);
    }
  }

  /** The handler name of underscore-joined lower-case words is `handle`
      followed by every word capitalised. */
  lemma HandlerOfWords(w: string, ws: seq<string>)
    requires Word(w) && Words(ws)
    ensures HandlerName(Join([w] + ws, "_")) == "handle" + Capitalised(w) + CapitalisedAll(ws)
  {
    CamelCaseOfJoin(w, ws);
    HandlerOfCamel(Join([w] + ws, "_"), w, CapitalisedAll(ws));
  }

  /** A handler name spelled out: the camel-cased name of the joined words. */
  lemma IntentHandler(w: string, ws: seq<string>, name: string)
    requires Word(w) && Words(ws)
    requires "handle" + Capitalised(w) + CapitalisedAll(ws) == name
    ensures HandlerName(Join([w] + ws, "_")) == name
  {
    HandlerOfWords(w, ws);
  }

  // One lemma per owner intent: its handler name, spelled out.

  lemma ResolvesAddPass()
    ensures HandlerName(Join(OwnerIntentWords[0], "_")) == "handleAddPass"
  {
    IntentHandler("add", ["pass"], "handleAddPass");
    assert OwnerIntentWords[0] == ["add"] + ["pass"];
  }

  lemma ResolvesRemovePass()
    ensures HandlerName(Join(OwnerIntentWords[1], "_")) == "handleRemovePass"
  {
    IntentHandler("remove", ["pass"], "handleRemovePass");
    assert OwnerIntentWords[1] == ["remove"] + ["pass"];
  }

  lemma ResolvesRemoveAttendant()
    ensures HandlerName(Join(OwnerIntentWords[2], "_")) == "handleRemoveAttendant"
  {
    IntentHandler("remove", ["attendant"], "handleRemoveAttendant");
    assert OwnerIntentWords[2] == ["remove"] + ["attendant"];
  }

  lemma ResolvesManageAttendant()
    ensures HandlerName(Join(OwnerIntentWords[3], "_")) == "handleManageAttendant"
  {
    IntentHandler("manage", ["attendant"], "handleManageAttendant");
    assert OwnerIntentWords[3] == ["manage"] + ["attendant"];
  }

  lemma ResolvesAddAttendant()
    ensures HandlerName(Join(OwnerIntentWords[4], "_")) == "handleAddAttendant"
  {
    IntentHandler("add", ["attendant"], "handleAddAttendant");
    assert OwnerIntentWords[4] == ["add"] + ["attendant"];
  }

  lemma ResolvesViewPasses()
    ensures HandlerName(Join(OwnerIntentWords[5], "_")) == "handleViewPasses"
  {
    IntentHandler("view", ["passes"], "handleViewPasses");
    assert OwnerIntentWords[5] == ["view"] + ["passes"];
  }

  lemma ResolvesGetReport()
    ensures HandlerName(Join(OwnerIntentWords[6], "_")) == "handleGetReport"
  {
    IntentHandler("get", ["report"], "handleGetReport");
    assert OwnerIntentWords[6] == ["get"] + ["report"];
  }

  lemma ResolvesSetPricingModel()
    ensures HandlerName(Join(OwnerIntentWords[7], "_")) == "handleSetPricingModel"
  {
    IntentHandler("set", ["pricing", "model"], "handleSetPricingModel");
    assert OwnerIntentWords[7] == ["set"] + ["pricing", "model"];
  }

  lemma ResolvesSetTieredRate()
    ensures HandlerName(Join(OwnerIntentWords[8], "_")) == "handleSetTieredRate"
  {
    IntentHandler("set", ["tiered", "rate"], "handleSetTieredRate");
    assert OwnerIntentWords[8] == ["set"] + ["tiered", "rate"];
  }

  lemma ResolvesSetFlatRate()
    ensures HandlerName(Join(OwnerIntentWords[9], "_")) == "handleSetFlatRate"
  {
    IntentHandler("set", ["flat", "rate"], "handleSetFlatRate");
    assert OwnerIntentWords[9] == ["set"] + ["flat", "rate"];
  }

  lemma ResolvesViewRates()
    ensures HandlerName(Join(OwnerIntentWords[10], "_")) == "handleViewRates"
  {
    IntentHandler("view", ["rates"], "handleViewRates");
    assert OwnerIntentWords[10] == ["view"] + ["rates"];
  }

  lemma ResolvesSetPassRate()
    ensures HandlerName(Join(OwnerIntentWords[11], "_")) == "handleSetPassRate"
  {
    IntentHandler("set", ["pass", "rate"], "handleSetPassRate");
    assert OwnerIntentWords[11] == ["set"] + ["pass", "rate"];
  }

  lemma ResolvesListAttendants()
    ensures HandlerName(Join(OwnerIntentWords[12], "_")) == "handleListAttendants"
  {
    IntentHandler("list", ["attendants"], "handleListAttendants");
    assert OwnerIntentWords[12] == ["list"] + ["attendants"];
  }

  lemma ResolvesActivateAttendant()
    ensures HandlerName(Join(OwnerIntentWords[13], "_")) == "handleActivateAttendant"
  {
    IntentHandler("activate", ["attendant"], "handleActivateAttendant");
    assert OwnerIntentWords[13] == ["activate"] + ["attendant"];
  }

  /** `set_flat_rate` resolves to `handleSetFlatRate`. */
  lemma FlatRateExample()
    ensures "set_flat_rate" in OwnerIntents
    ensures RouteIntent(OwnerRole, "set_flat_rate") == OwnerHandler("handleSetFlatRate")
  {
    ResolvesSetFlatRate();
    JoinCons("set", ["flat", "rate"]);
    JoinCons("flat", ["rate"]);
    assert Join(OwnerIntentWords[9], "_") == "set_flat_rate";
  }

  /** Every owner intent names an exported owner handler, so the router's
      "feature not available" branch is never taken; and an owner intent is
      handled only for an owner. */
  lemma OwnerIntentsResolve(role: Role, intent: string)
    requires intent in OwnerIntents
    ensures role == OwnerRole ==> RouteIntent(role, intent).OwnerHandler? && RouteIntent(role, intent).name in OwnerExports
    ensures role != OwnerRole ==> RouteIntent(role, intent) == OwnersOnly
  {
    var k :| 0 <= k < |OwnerIntentWords| && intent == Join(OwnerIntentWords[k], "_");
    if k == 0 {
      ResolvesAddPass();
    } else if k == 1 {
      ResolvesRemovePass();
    } else if k == 2 {
      ResolvesRemoveAttendant();
    } else if k == 3 {
      ResolvesManageAttendant();
    } else if k == 4 {
      ResolvesAddAttendant();
    } else if k == 5 {
      ResolvesViewPasses();
    } else if k == 6 {
      ResolvesGetReport();
    } else if k == 7 {
      ResolvesSetPricingModel();
    } else if k == 8 {
      ResolvesSetTieredRate();
    } else if k == 9 {
      ResolvesSetFlatRate();
    } else if k == 10 {
      ResolvesViewRates();
    } else if k == 11 {
      ResolvesSetPassRate();
    } else if k == 12 {
      ResolvesListAttendants();
    } else {
      ResolvesActivateAttendant();
    }
  }

  // ---------------------------------------------------------------- main router

  /** Where `mainRouter` sends a message. */
  datatype Route =
    | CancelCommand
    | CustomerNumberInput
    | ParkingConfirmation
    | CheckoutConfirmed
    | CheckoutDeclined
    | ExitConfirmation
    | PassTypeSelection
    | PassCustomerNumberInput
    | PassFinalConfirmation
    | RemovalConfirmation
    | RemovalRefused
    | ListExit
    | IdleAgain
    | ResetConversation
    | IdleCommand

  /** The router's decision from the user's role and saved state alone: a
      universal `cancel` first, then the state's handler, and the idle
      commands for a user in no flow (an empty state name counts as none). */
  function MainRoute(role: Role, state: ConvState, text: string): (r: Route)
    ensures r == CustomerNumberInput ==> state == AwaitingCustomerNumber
    ensures r == ParkingConfirmation ==> state == AwaitingPaymentType || state == AwaitingParkingConfirmation
    ensures r == CheckoutConfirmed || r == CheckoutDeclined ==> state == AwaitingCheckoutConfirmation
    ensures r == ExitConfirmation ==> state == AwaitingExitConfirmation
    ensures r == PassTypeSelection ==> state == AwaitingPassTypeSelection
    ensures r == PassCustomerNumberInput ==> state == AwaitingPassCustomerNumber
    ensures r == PassFinalConfirmation ==> state == AwaitingPassPaymentConfirm
    ensures r == RemovalConfirmation ==> state == AwaitingRemovalConfirmation && role == OwnerRole
    ensures r == ListExit ==> state == AwaitingListCheckout && IsListNumber(text)
    ensures r == IdleCommand ==> state == Idle || state == Unrecognised("")
    ensures r != CancelCommand <==> ToLower(text) != "cancel"
  {
    if ToLower(text) == "cancel" then CancelCommand
    else
      match state
      case Idle => IdleCommand
      case AwaitingCustomerNumber => CustomerNumberInput
      case AwaitingPaymentType => ParkingConfirmation
      case AwaitingParkingConfirmation => ParkingConfirmation
      case AwaitingCheckoutConfirmation => if text == "Yes, Check Out" then CheckoutConfirmed else CheckoutDeclined
      case AwaitingExitConfirmation => ExitConfirmation
      case AwaitingPassTypeSelection => PassTypeSelection
      case AwaitingPassCustomerNumber => PassCustomerNumberInput
      case AwaitingPassPaymentConfirm => PassFinalConfirmation
      case AwaitingRemovalConfirmation => if role == OwnerRole then RemovalConfirmation else RemovalRefused
      case AwaitingListCheckout => if IsListNumber(text) then ListExit else IdleAgain
      case AwaitingCustomerNumberForReceipt => ResetConversation
      case Unrecognised(name) => if name == "" then IdleCommand else ResetConversation
  }

  /** The other direction of MainRoute's contract: a message that is not
      `cancel` reaches the handler of the state the user waits in, with the
      owner check of the removal state and the list-number check of the list
      state deciding between their two outcomes. */
  lemma MainRouteReachesHandler(role: Role, state: ConvState, text: string)
    requires ToLower(text) != "cancel"
    ensures state == Idle ==> MainRoute(role, state, text) == IdleCommand
    ensures state == AwaitingCustomerNumber ==> MainRoute(role, state, text) == CustomerNumberInput
    ensures state == AwaitingPaymentType || state == AwaitingParkingConfirmation ==>
      MainRoute(role, state, text) == ParkingConfirmation
    ensures state == AwaitingCheckoutConfirmation ==>
      MainRoute(role, state, text) == (if text == "Yes, Check Out" then CheckoutConfirmed else CheckoutDeclined)
    ensures state == AwaitingExitConfirmation ==> MainRoute(role, state, text) == ExitConfirmation
    ensures state == AwaitingPassTypeSelection ==> MainRoute(role, state, text) == PassTypeSelection
    ensures state == AwaitingPassCustomerNumber ==> MainRoute(role, state, text) == PassCustomerNumberInput
    ensures state == AwaitingPassPaymentConfirm ==> MainRoute(role, state, text) == PassFinalConfirmation
    ensures state == AwaitingRemovalConfirmation ==>
      MainRoute(role, state, text) == (if role == OwnerRole then RemovalConfirmation else RemovalRefused)
    ensures state == AwaitingListCheckout ==>
      MainRoute(role, state, text) == (if IsListNumber(text) then ListExit else IdleAgain)
  {
  }

  /** A button titled "Cancel" is a universal cancel whatever the state, so
      the handlers' own Cancel branches are never reached through the router. */
  lemma CancelButtonIsUniversal(role: Role, state: ConvState)
    ensures MainRoute(role, state, "Cancel") == CancelCommand
  {
    assert ToLower("Cancel") == "cancel";
  }

  /** The receipt-number state has no case of its own: any reply to it but
      `cancel` resets the conversation, so the receipt handler is never run. */
  lemma ReceiptStateResets(role: Role, text: string)
    ensures MainRoute(role, AwaitingCustomerNumberForReceipt, text) == ResetConversation
            || MainRoute(role, AwaitingCustomerNumberForReceipt, text) == CancelCommand
  {
  }
}

=== FILE: messages.dfy ===
/** The outbound WhatsApp messages the handlers send, one constructor per kind
    of message; a message for another number than the sender's names it. */
module Messages {
  import opened Wrappers
  import Records

  /** One line of the bulk-checkout summary. */
  datatype SummaryLine =
    | NotFound(identifier: string)
    | CheckedOut(vehicle: string)
    | PaymentPending(vehicle: string, fee: int)

  datatype Reply =
    // router
    | Cancelled | ActionCancelled | InvalidAction | Reset
    | OutUsage | PassUsage | Menu(role: Records.Role) | HelpList | OwnersOnly
    | Fallback(role: Records.Role, text: string) | FeatureNotAvailable | Delegated(handler: string)
    | InternalError
    // entry
    | InvalidVehicle(vehicle: string) | AlreadyParkedMenu(vehicle: string) | PassHolderMenu(vehicle: string)
    | AskCustomerNumber(vehicle: string) | InvalidCustomerNumber | PaymentMenu(vehicle: string, entryFee: int)
    | ParkingCancelled(vehicle: string) | Parked(vehicle: string, paymentPending: bool)
    | ReceiptSent(to: string) | AskReceiptNumber | ReceiptNumberSaved(vehicle: string) | ReceiptSkipped
    // exit
    | SpecifyVehicle | OneAtATime | InvalidListNumber(inside: nat) | NotInside(identifier: string)
    | CollectPaymentMenu(vehicle: string, fee: int) | OkToGoMenu(vehicle: string)
    | ExitCancelled(vehicle: string) | InvalidOption | ExitConfirmed(vehicle: string)
    // pass
    | InvalidPassVehicle | NoPassTypes | PassTypeMenu(vehicle: string, titles: seq<string>) | InvalidPassType
    | AskPassCustomerNumber(passName: string) | InvalidPassNumber
    | PassPaymentMenu(passName: string, vehicle: string, fee: int)
    | PassCancelled(vehicle: string) | PassCreated(passName: string, vehicle: string) | EpassSent(to: string)
    // legacy shared handlers
    | NoVehiclesParked | ParkedList(vehicles: seq<string>) | ParkedCount(count: nat)
    | NoIdentifiers | BadListNumberWarning(n: int) | BadVehicleWarning(identifier: string)
    | ProcessingCheckout(count: nat)
    | Skipped(vehicle: string) | PassExitLogged(vehicle: string) | RateNotSet(vehicle: string)
    | FeeLogged(vehicle: string, fee: int)
    | NoCheckInVehicle | InvalidCheckInVehicle(vehicle: string) | AlreadyMarkedParked(vehicle: string)
    | CheckedIn(vehicle: string)
    // owner
    | OwnerOnlyCommand | CheckoutSummary(lines: seq<SummaryLine>)
    | InvalidModel | PricingModelSet(model: string)
    | MissingAttendantDetails | CapReached(cap: nat, plan: string) | InvalidAttendantNumber(number: string)
    | DuplicateAttendant(phone: string) | AttendantAdded(name: string, count: nat, cap: nat)
    | SpecifyAttendant | InvalidAttendantListNumber | InvalidPhoneFormat | AttendantNotFound(phone: string)
    | AlreadyInactive(name: string) | RemovalMenu(name: string, phone: string)
    | RemovalContextMissing | Deactivated(name: string) | Deleted(name: string) | RemovalCancelled
    | AlreadyActive(name: string) | Reactivated(name: string)
    | MissingDurationOrFee | TieredRateSet(durationText: string, feeText: string)
    | MissingRateTypeOrFee | BlockNeedsHours | BlockRateSet(feeText: string, hoursText: string)
    | HourlyRateSet(feeText: string) | InvalidRateType
    | InvalidPassRate | PassRateSet(feeText: string)
    | MissingPassVehicle | InvalidOwnerPassVehicle(vehicle: string)
    | PassAdded(vehicle: string, expiry: int, rate: int, customer: Option<string>)
    | NoPassVehicle | PassRemoved(vehicle: string) | NoActivePass(vehicle: string)
    | MissingAttendantIdentifier | InvalidRemovalListNumber | InvalidPhoneFor(identifier: string)
    | AttendantDeactivated(phone: string) | AttendantNumberNotFound(phone: string)
}

=== FILE: owner_rules.dfy ===
/** The decisions of the owner handlers in handlers/ownerHandlers.js: the
    plan's attendant cap, the pricing-model setting, which attendant an
    identifier names, and how a bulk checkout resolves and closes rows. */
module OwnerRules {
  import opened Wrappers
  import opened Text
  import opened Validators
  import opened Records
  import opened Messages
  import Billing
  import AttendantRules

  /** A parameter the handler accepts: present and, being a string, truthy. */
  predicate Given(param: Option<string>) {
    param.Some? && param.value != ""
  }

  /** The lot's settings and staff, which only the owner's commands write:
      lot rows, rate cards, pass types, attendants and plans. */
  predicate SettingsKept(db: Database, db': Database) {
    && db'.lots == db.lots && db'.rateCards == db.rateCards && db'.passTypes == db.passTypes
    && db'.attendants == db.attendants && db'.nextAttendantId == db.nextAttendantId && db'.plans == db.plans
  }

  // ---------------------------------------------------------------- plan cap

  /** `subscription_plan || 'Starter'`. */
  function PlanName(plan: Option<string>): string {
    match plan
    case None => "Starter"
    case Some(p) => if p == "" then "Starter" else p
  }

  function PlanOf(db: Database, owner: int): Option<string> {
    if owner in db.plans then Some(db.plans[owner]) else None
  }

  /** Growth allows 5 active attendants, Pro 15, any other plan 1. */
  function MaxAttendants(plan: string): (cap: nat)
    ensures cap >= 1
  {
    if plan == "Pro" then 15 else if plan == "Growth" then 5 else 1
  }

  function ActiveIn(attendants: map<int, Attendant>, lot: int): set<int> {
    set id | id in attendants && attendants[id].lotId == lot && attendants[id].active
  }

  function ActiveCount(attendants: map<int, Attendant>, lot: int): nat {
    |ActiveIn(attendants, lot)|
  }

  /** A missing or empty plan is Starter and allows exactly one attendant. */
  lemma CapOfPlan(plan: Option<string>)
    ensures plan.None? || plan == Some("") ==> MaxAttendants(PlanName(plan)) == 1
    ensures plan == Some("Growth") ==> MaxAttendants(PlanName(plan)) == 5
    ensures plan == Some("Pro") ==> MaxAttendants(PlanName(plan)) == 15
  {
  }

  /** Adding an active attendant under a fresh id raises the lot's count by one. */
  lemma AddRaisesCount(attendants: map<int, Attendant>, lot: int, id: int, a: Attendant)
    requires id !in attendants && a.lotId == lot && a.active
    ensures ActiveCount(attendants[id := a], lot) == ActiveCount(attendants, lot) + 1
  {
    assert ActiveIn(attendants[id := a], lot) == ActiveIn(attendants, lot) + {id};
  }

  /** Reactivating an inactive attendant of the lot raises the lot's count by one. */
  lemma ActivateRaisesCount(attendants: map<int, Attendant>, lot: int, id: int)
    requires id in attendants && attendants[id].lotId == lot && !attendants[id].active
    ensures ActiveCount(attendants[id := attendants[id].(active := true)], lot) == ActiveCount(attendants, lot) + 1
  {
    assert ActiveIn(attendants[id := attendants[id].(active := true)], lot) == ActiveIn(attendants, lot) + {id};
  }

  // ---------------------------------------------------------------- pricing model

  const PricingModels: set<string> := {"TIERED", "BLOCK", "HOURLY"}

  /** The model `handleSetPricingModel` writes, or None when it refuses. */
  function PricingModelChoice(modelType: Option<string>): (r: Option<string>)
    ensures r.Some? ==> r.value in PricingModels
  {
    match modelType
    case None => None
    case Some(m) => var u := ToUpper(m); if u in PricingModels then Some(u) else None
  }

  /** The setting is case-insensitive, and the model written is the one the
      billing engine then bills by. */
  lemma PricingModelTakesEffect(modelType: string, lot: Billing.Lot, card: seq<Billing.Tier>, hours: int)
    ensures PricingModelChoice(Some(modelType)) == PricingModelChoice(Some(ToUpper(modelType)))
    ensures PricingModelChoice(Some(modelType)).Some? <==> ToUpper(modelType) in PricingModels
    ensures var r := PricingModelChoice(Some(modelType));
      r.Some? ==>
        var bill := Billing.TotalBill(lot.(pricingModel := r.value), card, hours);
        (r.value == "BLOCK" ==> bill == Billing.BlockBill(lot, hours))
        && (r.value == "HOURLY" ==> bill == Billing.HourlyBill(lot, hours))
        && (r.value == "TIERED" ==> bill == Billing.TieredBill(card, hours))
  {
    ToUpperIdempotent(modelType);
  }

  // ---------------------------------------------------------------- rates

  /** `INSERT INTO RateCards ... ON CONFLICT (lot_id, duration_hours) DO
      UPDATE SET fee`, read back in `duration_hours` order: the tier takes its
      place by duration, replacing the tier of the same duration if any. */
  function UpsertTier(card: seq<Billing.Tier>, t: Billing.Tier): (r: seq<Billing.Tier>)
    ensures t in r && |card| <= |r| <= |card| + 1
  {
    if |card| == 0 then [t]
    else if card[0].durationHours < t.durationHours then [card[0]] + UpsertTier(card[1..], t)
    else if card[0].durationHours == t.durationHours then [t] + card[1..]
    else [t] + card
  }

  /** The card still holds one tier per duration, in order; the new tier is
      on it, the old tier of its duration is gone, every other tier stays. */
  lemma UpsertTierSpec(card: seq<Billing.Tier>, t: Billing.Tier)
    requires Billing.KeyedByDuration(card)
    ensures Billing.KeyedByDuration(UpsertTier(card, t))
    ensures forall x :: x in UpsertTier(card, t) <==> x == t || (x in card && x.durationHours != t.durationHours)
  {
    UpsertTierMembers(card, t);
    UpsertTierKeyed(card, t);
  }

  lemma KeyedTail(card: seq<Billing.Tier>)
    requires |card| > 0 && Billing.KeyedByDuration(card)
    ensures Billing.KeyedByDuration(card[1..])
    ensures forall x :: x in card[1..] ==> card[0].durationHours < x.durationHours
    ensures forall x :: x in card <==> x == card[0] || x in card[1..]
  {
    assert card == [card[0]] + card[1..];
    forall x | x in card[1..]
      ensures card[0].durationHours < x.durationHours
    {
      var i :| 0 <= i < |card[1..]| && card[1..][i] == x;
      assert card[i + 1] == x;
    }
  }

  lemma KeyedCons(x: Billing.Tier, s: seq<Billing.Tier>)
    requires Billing.KeyedByDuration(s)
    requires forall y :: y in s ==> x.durationHours < y.durationHours
    ensures Billing.KeyedByDuration([x] + s)
  {
    var r := [x] + s;
    forall i, j | 0 <= i < j < |r|
      ensures r[i].durationHours < r[j].durationHours
    {
      assert r[j] == s[j - 1];
      if i > 0 {
        assert r[i] == s[i - 1];
      } else {
        assert s[j - 1] in s;
      }
    }
  }

  lemma {:induction false} UpsertTierMembers(card: seq<Billing.Tier>, t: Billing.Tier)
    requires Billing.KeyedByDuration(card)
    ensures forall x :: x in UpsertTier(card, t) <==> x == t || (x in card && x.durationHours != t.durationHours)
  {
    if |card| > 0 {
      KeyedTail(card);
      if card[0].durationHours < t.durationHours {
        UpsertTierMembers(card[1..], t);
        assert UpsertTier(card, t) == [card[0]] + UpsertTier(card[1..], t);
      } else if card[0].durationHours == t.durationHours {
        assert UpsertTier(card, t) == [t] + card[1..];
      } else {
        assert UpsertTier(card, t) == [t] + card;
      }
    }
  }

  lemma {:induction false} UpsertTierKeyed(card: seq<Billing.Tier>, t: Billing.Tier)
    requires Billing.KeyedByDuration(card)
    ensures Billing.KeyedByDuration(UpsertTier(card, t))
  {
    if |card| == 0 {
      assert UpsertTier(card, t) == [t];
    } else {
      KeyedTail(card);
      if card[0].durationHours < t.durationHours {
        UpsertTierKeyed(card[1..], t);
        UpsertTierMembers(card[1..], t);
        KeyedCons(card[0], UpsertTier(card[1..], t));
      } else if card[0].durationHours == t.durationHours {
        KeyedCons(t, card[1..]);
      } else {
        KeyedCons(t, card);
      }
    }
  }

  /** A rate `handleSetFlatRate` writes: a fee per block of hours, or per hour. */
  datatype FlatRate = PerBlock(fee: int, hours: int) | PerHour(fee: int)

  /** The lot row after the UPDATE, which switches the model along with the rate. */
  function WithFlatRate(lot: Billing.Lot, rate: FlatRate): Billing.Lot {
    match rate
    case PerBlock(f, h) => lot.(pricingModel := "BLOCK", blockRateFee := f, blockRateHours := h)
    case PerHour(f) => lot.(pricingModel := "HOURLY", hourlyRate := f)
  }

  /** A flat rate takes effect at once: the bill no longer depends on the
      lot's former model, its other rates or its rate card; an hourly rate
      bills every started hour, and a block rate whole blocks, at least one. */
  lemma FlatRateTakesEffect(lot: Billing.Lot, lot': Billing.Lot, card: seq<Billing.Tier>, card': seq<Billing.Tier>,
                            rate: FlatRate, hours: int)
    ensures Billing.TotalBill(WithFlatRate(lot, rate), card, hours) == Billing.TotalBill(WithFlatRate(lot', rate), card', hours)
    ensures rate.PerHour? && rate.fee != 0 ==>
      Billing.TotalBill(WithFlatRate(lot, rate), card, hours) == Billing.Max(1, hours) * rate.fee
    ensures rate.PerBlock? && rate.fee != 0 && rate.hours > 0 ==>
      var blocks := Billing.Max(1, Billing.CeilDiv(hours, rate.hours));
      Billing.TotalBill(WithFlatRate(lot, rate), card, hours) == blocks * rate.fee
      && hours <= blocks * rate.hours && (blocks == 1 || (blocks - 1) * rate.hours < hours)
  {
    if rate.PerBlock? {
      Billing.BlockChargesWholeBlocks(WithFlatRate(lot, rate), card, hours);
    }
  }

  /** `pass_rate || 500`: the price an owner is told to collect for a pass. */
  const DefaultPassRate: int := 500

  function QuotedPassRate(db: Database, lot: int): (rate: int)
    ensures rate != 0
    ensures lot in db.passRates && db.passRates[lot] != 0 ==> rate == db.passRates[lot]
  {
    if lot in db.passRates && db.passRates[lot] != 0 then db.passRates[lot] else DefaultPassRate
  }

  // ---------------------------------------------------------------- owner passes

  /** `duration_days = 30` when the classifier gives none, otherwise its
      `parseInt`, None being NaN. */
  function PassDays(days: Option<string>): Option<int> {
    match days
    case None => Some(30)
    case Some(d) => ParseInt(d)
  }

  /** The first word that is a valid vehicle number. */
  function FirstValidPlate(words: seq<string>): (r: Option<string>)
    ensures r.None? <==> forall k :: 0 <= k < |words| ==> !IsValidVehicleNumber(words[k])
    ensures r.Some? ==> exists k :: 0 <= k < |words| && words[k] == r.value && IsValidVehicleNumber(r.value)
                                    && forall j :: 0 <= j < k ==> !IsValidVehicleNumber(words[j])
  {
    if |words| == 0 then None
    else if IsValidVehicleNumber(words[0]) then Some(words[0])
    else
      var r := FirstValidPlate(words[1..]);
      assert forall k :: 1 <= k < |words| ==> words[k] == words[1..][k - 1];
      r
  }

  /** The vehicle `handleRemovePass` removes the pass of: the classifier's,
      or else the first valid vehicle number among the upper-cased message's
      space-separated words. */
  function PassToRemove(vehicle: Option<string>, text: string): (r: Option<string>)
    ensures Given(vehicle) ==> r == vehicle
    ensures !Given(vehicle) && r.Some? ==> IsValidVehicleNumber(r.value)
    ensures !Given(vehicle) && text != "" ==> r == FirstValidPlate(Split(ToUpper(text), ' '))
  {
    if Given(vehicle) then vehicle
    else if text == "" then None
    else FirstValidPlate(Split(ToUpper(text), ' '))
  }

  /** `status = 'ACTIVE'`, whatever the expiry. */
  predicate PassStatusActive(db: Database, lot: int, vehicle: string) {
    (lot, vehicle) in db.passes && db.passes[(lot, vehicle)].active
  }

  /** `SET status = 'INACTIVE', expiry_date = NOW() - interval '1 day'`. */
  function Revoke(passes: map<(int, string), Pass>, key: (int, string), now: int): map<(int, string), Pass> {
    if key in passes then passes[key := passes[key].(expiry := now - AttendantRules.MsPerDay, active := false)]
    else passes
  }

  /** A granted pass counts as active exactly up to its expiry, and a revoked
      one never again, for the checks the attendants' flows make. */
  lemma PassGrantAndRevoke(db: Database, lot: int, vehicle: string, expiry: int, customer: Option<string>, now: int, t: int)
    ensures HasActivePass(db.(passes := db.passes[(lot, vehicle) := Pass(expiry, true, customer)]), lot, vehicle, t) <==> t <= expiry
    ensures !HasActivePass(db.(passes := Revoke(db.passes, (lot, vehicle), now)), lot, vehicle, t)
  {
  }

  // ---------------------------------------------------------------- naming an attendant

  predicate NoDupInts(s: seq<int>) {
    forall i, j :: 0 <= i < j < |s| ==> s[i] != s[j]
  }

  /** `ORDER BY is_active DESC, name ASC` over the lot's attendants: each once,
      active ones first. The order among names is the database collation's. */
  ghost predicate IsRoster(attendants: map<int, Attendant>, lot: int, roster: seq<int>) {
    && NoDupInts(roster)
    && (forall k :: 0 <= k < |roster| ==> roster[k] in attendants && attendants[roster[k]].lotId == lot)
    && (forall id :: id in attendants && attendants[id].lotId == lot ==> id in roster)
    && (forall i, j :: 0 <= i < j < |roster| && attendants[roster[j]].active ==> attendants[roster[i]].active)
  }

  datatype AttendantChoice = Chosen(id: int) | NoSuchListNumber | BadPhone | NoSuchPhone(phone: string)

  /** The first attendant on the roster with that number. */
  function FindByPhone(attendants: map<int, Attendant>, roster: seq<int>, phone: string): (r: Option<int>)
    ensures r.Some? ==> r.value in roster && r.value in attendants && attendants[r.value].phone == phone
    ensures r.None? ==> forall k :: 0 <= k < |roster| && roster[k] in attendants ==> attendants[roster[k]].phone != phone
  {
    if |roster| == 0 then None
    else if roster[0] in attendants && attendants[roster[0]].phone == phone then Some(roster[0])
    else FindByPhone(attendants, roster[1..], phone)
  }

  /** The attendant an identifier names: a positive list number is a roster
      position, anything else must normalise to a phone number of the lot. */
  function ChooseAttendant(attendants: map<int, Attendant>, roster: seq<int>, identifier: string): (r: AttendantChoice)
    ensures r.Chosen? && (forall k :: 0 <= k < |roster| ==> roster[k] in attendants) ==> r.id in attendants
  {
    var n := ParseInt(identifier);
    if n.Some? && n.value > 0 then
      if n.value <= |roster| then Chosen(roster[n.value - 1]) else NoSuchListNumber
    else
      match NormalizePhoneNumber(identifier)
      case None => BadPhone
      case Some(p) =>
        match FindByPhone(attendants, roster, p)
        case None => NoSuchPhone(p)
        case Some(id) => Chosen(id)
  }

  /** On a roster the choice is an attendant of the lot; by number it is the
      lot's only attendant with that normalised number, and a number is
      reported missing only when no attendant of the lot has it. */
  lemma ChooseAttendantSpec(attendants: map<int, Attendant>, lot: int, roster: seq<int>, identifier: string)
    requires IsRoster(attendants, lot, roster)
    ensures var c := ChooseAttendant(attendants, roster, identifier);
      (c.Chosen? ==> c.id in attendants && attendants[c.id].lotId == lot)
      && (c.NoSuchPhone? ==> forall id :: id in attendants && attendants[id].lotId == lot ==> attendants[id].phone != c.phone)
      && (c.Chosen? && !IsListNumber(identifier) ==> Some(attendants[c.id].phone) == NormalizePhoneNumber(identifier))
  {
    var c := ChooseAttendant(attendants, roster, identifier);
    if c.NoSuchPhone? {
      forall id | id in attendants && attendants[id].lotId == lot
        ensures attendants[id].phone != c.phone
      {
        var k :| 0 <= k < |roster| && roster[k] == id;
      }
    }
  }

  /** Some attendant, of any lot, already has the number: the unique
      constraint on `whatsapp_number` refuses the INSERT. */
  predicate PhoneTaken(attendants: map<int, Attendant>, phone: string) {
    exists id :: id in attendants && attendants[id].phone == phone
  }

  // ---------------------------------------------------------------- removal

  /** `UPDATE Attendants SET is_active = FALSE WHERE attendant_id = $1`. */
  function Deactivate(attendants: map<int, Attendant>, id: int): map<int, Attendant> {
    if id in attendants then attendants[id := attendants[id].(active := false)] else attendants
  }

  /** `UPDATE Transactions SET attendant_id = NULL WHERE attendant_id = $1`. */
  function Detach(txs: seq<Transaction>, id: int): (r: seq<Transaction>)
    ensures |r| == |txs|
  {
    seq(|txs|, k requires 0 <= k < |txs| =>
      if txs[k].attendantId == Some(id) then txs[k].(attendantId := None) else txs[k])
  }

  /** After the detach no row names the attendant, every row is as before
      apart from its attendant, and rows of other attendants are untouched. */
  lemma DetachSpec(txs: seq<Transaction>, id: int)
    ensures forall k :: 0 <= k < |txs| ==>
      Detach(txs, id)[k].attendantId != Some(id)
      && Detach(txs, id)[k].(attendantId := txs[k].attendantId) == txs[k]
      && (txs[k].attendantId != Some(id) ==> Detach(txs, id)[k] == txs[k])
    ensures NoNewInside(txs, Detach(txs, id))
  {
  }

  /** Deactivating one of the lot's active attendants lowers its count by one,
      and the attendant stays on the roster. */
  lemma DeactivateLowersCount(attendants: map<int, Attendant>, lot: int, id: int)
    requires id in attendants && attendants[id].lotId == lot && attendants[id].active
    ensures ActiveCount(Deactivate(attendants, id), lot) == ActiveCount(attendants, lot) - 1
    ensures Deactivate(attendants, id).Keys == attendants.Keys
  {
    assert ActiveIn(Deactivate(attendants, id), lot) == ActiveIn(attendants, lot) - {id};
  }

  /** The lot has an attendant with that number. */
  predicate HasPhoneIn(attendants: map<int, Attendant>, lot: int, phone: string) {
    exists id :: id in attendants && attendants[id].lotId == lot && attendants[id].phone == phone
  }

  /** On a roster, the phone lookup finds an attendant exactly when the lot has one with that number. */
  lemma FindByPhoneComplete(attendants: map<int, Attendant>, lot: int, roster: seq<int>, phone: string)
    requires IsRoster(attendants, lot, roster)
    ensures FindByPhone(attendants, roster, phone).Some? <==> HasPhoneIn(attendants, lot, phone)
    ensures FindByPhone(attendants, roster, phone).Some? ==> attendants[FindByPhone(attendants, roster, phone).value].lotId == lot
  {
    if HasPhoneIn(attendants, lot, phone) {
      var id :| id in attendants && attendants[id].lotId == lot && attendants[id].phone == phone;
      var k :| 0 <= k < |roster| && roster[k] == id;
    }
  }

  /** `UPDATE Attendants SET is_active = FALSE WHERE whatsapp_number = $1 AND lot_id = $2`. */
  function DeactivateByPhone(attendants: map<int, Attendant>, lot: int, phone: string): (r: map<int, Attendant>)
    ensures r.Keys == attendants.Keys
  {
    map id | id in attendants ::
      if attendants[id].lotId == lot && attendants[id].phone == phone then attendants[id].(active := false) else attendants[id]
  }

  /** Numbers being unique, deactivating by number deactivates that one attendant. */
  lemma DeactivateByPhoneIsDeactivate(attendants: map<int, Attendant>, lot: int, id: int)
    requires PhonesUnique(attendants) && id in attendants && attendants[id].lotId == lot
    ensures DeactivateByPhone(attendants, lot, attendants[id].phone) == Deactivate(attendants, id)
  {
    var r := DeactivateByPhone(attendants, lot, attendants[id].phone);
    assert forall k :: k in r ==> r[k] == Deactivate(attendants, id)[k];
  }

  datatype RemovalTarget = ByPhone(phone: string) | NoActiveAt | BadRemovalPhone

  /** The number `handleRemoveAttendant` deactivates: a positive list number
      counts among the lot's active attendants by name, who lead the roster;
      anything else must normalise to a phone number. */
  function RemovalPhone(attendants: map<int, Attendant>, roster: seq<int>, identifier: string): RemovalTarget {
    var n := ParseInt(identifier);
    if n.Some? && n.value > 0 then
      if n.value <= |roster| && roster[n.value - 1] in attendants && attendants[roster[n.value - 1]].active
      then ByPhone(attendants[roster[n.value - 1]].phone)
      else NoActiveAt
    else
      match NormalizePhoneNumber(identifier)
      case None => BadRemovalPhone
      case Some(p) => ByPhone(p)
  }

  /** By list number the number removed is an active attendant's of the lot,
      and the lot loses exactly that one active attendant; otherwise it is
      the typed number, normalised. */
  lemma RemovalPhoneSpec(attendants: map<int, Attendant>, lot: int, roster: seq<int>, identifier: string)
    requires IsRoster(attendants, lot, roster) && PhonesUnique(attendants)
    ensures var t := RemovalPhone(attendants, roster, identifier);
      (t.ByPhone? && IsListNumber(identifier) ==>
         HasPhoneIn(attendants, lot, t.phone)
         && ActiveCount(DeactivateByPhone(attendants, lot, t.phone), lot) == ActiveCount(attendants, lot) - 1)
      && (t.ByPhone? && !IsListNumber(identifier) ==> Some(t.phone) == NormalizePhoneNumber(identifier))
      && (t.BadRemovalPhone? ==> !IsListNumber(identifier) && NormalizePhoneNumber(identifier).None?)
  {
    var t := RemovalPhone(attendants, roster, identifier);
    if t.ByPhone? && IsListNumber(identifier) {
      var id := roster[ParseInt(identifier).value - 1];
      DeactivateByPhoneIsDeactivate(attendants, lot, id);
      DeactivateLowersCount(attendants, lot, id);
    }
  }

  /** Reactivation ignores the plan: a lot already at its cap goes over it. */
  lemma ActivationIgnoresCap(attendants: map<int, Attendant>, lot: int, id: int, plan: Option<string>)
    requires id in attendants && attendants[id].lotId == lot && !attendants[id].active
    requires ActiveCount(attendants, lot) == MaxAttendants(PlanName(plan))
    ensures ActiveCount(attendants[id := attendants[id].(active := true)], lot) > MaxAttendants(PlanName(plan))
  {
    ActivateRaisesCount(attendants, lot, id);
  }

  // ---------------------------------------------------------------- bulk checkout

  /** Rows the bulk checkout closes without collecting anything. PARKED_UNPAID
      contains PAID and is one of them. */
  predicate ClosesAtOnce(status: string) {
    Contains(status, "PAID") || Contains(status, "PASS") || status == "COMPLETED_CASH_ENTRY"
  }

  function ClosedStatus(status: string): string {
    if Contains(status, "PASS") then "COMPLETED_PASS_EXIT" else "COMPLETED_NO_FEE_EXIT"
  }

  /** The row as the UPDATE leaves it: exited, `total_fee` untouched. */
  function Close(t: Transaction, now: int): Transaction {
    t.(endTime := Some(now), status := ClosedStatus(t.status), vehicleState := Exited)
  }

  /** An unpaid vehicle is closed at once as a no-fee exit. */
  lemma UnpaidClosesWithoutFee(t: Transaction, now: int)
    requires t.status == "PARKED_UNPAID"
    ensures ClosesAtOnce(t.status)
    ensures Close(t, now).status == "COMPLETED_NO_FEE_EXIT" && Close(t, now).totalFee == t.totalFee
  {
    ContainsAt(t.status, "PAID", 9);
    LacksCharNotContains(t.status, "PASS", 2);
  }

  /** `listMap.has(u)` for keys `(index + 1).toString()`: the position u names. */
  function ListKey(u: string, n: nat): (r: Option<nat>)
    ensures r.Some? ==> r.value < n
  {
    if Canonical(u) && 1 <= DecimalValue(u) <= n then Some(DecimalValue(u) - 1) else None
  }

  /** A text is a list key exactly when it is how `toString` prints a position. */
  lemma ListKeyIff(u: string, n: nat, j: nat)
    ensures ListKey(u, n) == Some(j) <==> j < n && Decimal(j + 1) == u
  {
    if ListKey(u, n) == Some(j) {
      CanonicalRoundTrip(u);
    }
    if j < n && Decimal(j + 1) == u {
      DecimalIsCanonical(j + 1);
      DecimalRoundTrip(j + 1);
    }
  }

  /** `rows.find(v => v.vehicle_number === u)`. */
  function FindVehicle(txs: seq<Transaction>, rows: seq<nat>, u: string): (r: Option<nat>)
    requires forall k :: 0 <= k < |rows| ==> rows[k] < |txs|
    ensures r.Some? ==> r.value in rows && txs[r.value].vehicle == u
    ensures r.None? ==> forall k :: 0 <= k < |rows| ==> txs[rows[k]].vehicle != u
  {
    if |rows| == 0 then None
    else if txs[rows[0]].vehicle == u then Some(rows[0])
    else FindVehicle(txs, rows[1..], u)
  }

  predicate InTable(txs: seq<Transaction>, rows: seq<nat>) {
    forall k :: 0 <= k < |rows| ==> rows[k] < |txs|
  }

  /** The row an identifier names: first a list position, then a vehicle number. */
  function Resolve(txs: seq<Transaction>, rows: seq<nat>, identifier: string): (r: Option<nat>)
    requires InTable(txs, rows)
    ensures r.Some? ==> r.value in rows
  {
    var u := ToUpper(identifier);
    match ListKey(u, |rows|)
    case Some(j) => Some(rows[j])
    case None => FindVehicle(txs, rows, u)
  }

  /** The summary line of one identifier against the snapshot. */
  function SummaryLineFor(db: Database, lot: int, rows: seq<nat>, identifier: string, now: int): SummaryLine
    requires InTable(db.transactions, rows)
  {
    match Resolve(db.transactions, rows, identifier)
    case None => NotFound(identifier)
    case Some(k) =>
      var t := db.transactions[k];
      if ClosesAtOnce(t.status) then CheckedOut(t.vehicle)
      else PaymentPending(t.vehicle, Billing.FinalFee(LotRow(db, lot), RateCard(db, lot), StayOf(t), now))
  }

  function Summary(db: Database, lot: int, rows: seq<nat>, ids: seq<string>, now: int): seq<SummaryLine>
    requires InTable(db.transactions, rows)
  {
    seq(|ids|, i requires 0 <= i < |ids| => SummaryLineFor(db, lot, rows, ids[i], now))
  }

  /** Some identifier names row k and the row is closed at once. */
  predicate ClosedBy(txs: seq<Transaction>, rows: seq<nat>, ids: seq<string>, k: nat)
    requires InTable(txs, rows) && k < |txs|
  {
    exists i :: 0 <= i < |ids| && Resolve(txs, rows, ids[i]) == Some(k) && ClosesAtOnce(txs[k].status)
  }

  /** The table after the bulk checkout. */
  function CloseAll(txs: seq<Transaction>, rows: seq<nat>, ids: seq<string>, now: int): (r: seq<Transaction>)
    requires InTable(txs, rows)
    ensures |r| == |txs|
  {
    seq(|txs|, k requires 0 <= k < |txs| => if ClosedBy(txs, rows, ids, k) then Close(txs[k], now) else txs[k])
  }

  /** The summary has one line per identifier, in input order; an identifier
      that names nothing is reported and leaves the table alone, one that
      names a row closed at once closes it with its `total_fee` untouched, and
      any other row is only reported with its fee and not written. Only rows
      of the snapshot are ever written. */
  lemma BulkCheckoutOutcome(db: Database, lot: int, rows: seq<nat>, ids: seq<string>, now: int)
    requires InTable(db.transactions, rows)
    ensures var lines := Summary(db, lot, rows, ids, now);
      var txs := db.transactions;
      var after := CloseAll(txs, rows, ids, now);
      |lines| == |ids|
      && (forall i :: 0 <= i < |ids| ==>
            (lines[i] == NotFound(ids[i]) <==> Resolve(txs, rows, ids[i]).None?)
            && (lines[i].CheckedOut? ==> var k := Resolve(txs, rows, ids[i]).value;
                  after[k] == Close(txs[k], now) && after[k].totalFee == txs[k].totalFee)
            && (lines[i].PaymentPending? ==> var k := Resolve(txs, rows, ids[i]).value;
                  !ClosesAtOnce(txs[k].status) && after[k] == txs[k]))
      && (forall k :: 0 <= k < |txs| && after[k] != txs[k] ==> k in rows)
  {
    var txs := db.transactions;
    var lines := Summary(db, lot, rows, ids, now);
    var after := CloseAll(txs, rows, ids, now);
    forall i | 0 <= i < |ids| && lines[i].CheckedOut?
      ensures var k := Resolve(txs, rows, ids[i]).value; after[k] == Close(txs[k], now)
    {
      var k := Resolve(txs, rows, ids[i]).value;
      assert ClosedBy(txs, rows, ids, k);
    }
    forall k | 0 <= k < |txs| && after[k] != txs[k] ensures k in rows {
      var i :| 0 <= i < |ids| && Resolve(txs, rows, ids[i]) == Some(k) && ClosesAtOnce(txs[k].status);
    }
  }

  /** The bulk checkout only ever moves rows out of the lot. */
  lemma CloseAllIsNoNewInside(txs: seq<Transaction>, rows: seq<nat>, ids: seq<string>, now: int)
    requires InTable(txs, rows)
    ensures NoNewInside(txs, CloseAll(txs, rows, ids, now))
  {
  }

  /** Closing one more identifier's row extends the table after the others. */
  lemma CloseAllStep(txs: seq<Transaction>, rows: seq<nat>, ids: seq<string>, id: string, now: int)
    requires InTable(txs, rows)
    ensures var after := CloseAll(txs, rows, ids, now);
      CloseAll(txs, rows, ids + [id], now) ==
        match Resolve(txs, rows, id)
        case None => after
        case Some(k) => if ClosesAtOnce(txs[k].status) then after[k := Close(txs[k], now)] else after
  {
    var ids' := ids + [id];
    forall k | 0 <= k < |txs|
      ensures ClosedBy(txs, rows, ids', k) <==>
        (ClosedBy(txs, rows, ids, k) || (Resolve(txs, rows, id) == Some(k) && ClosesAtOnce(txs[k].status)))
    {
      if ClosedBy(txs, rows, ids, k) {
        var i :| 0 <= i < |ids| && Resolve(txs, rows, ids[i]) == Some(k) && ClosesAtOnce(txs[k].status);
        assert ids'[i] == ids[i];
      }
      if Resolve(txs, rows, id) == Some(k) && ClosesAtOnce(txs[k].status) {
        assert ids'[|ids|] == id;
      }
      if ClosedBy(txs, rows, ids', k) {
        var i :| 0 <= i < |ids'| && Resolve(txs, rows, ids'[i]) == Some(k) && ClosesAtOnce(txs[k].status);
        if i < |ids| {
          assert ids'[i] == ids[i];
        }
      }
    }
  }
}

=== FILE: parking.dfy ===
/** One user's side of the WhatsApp bot: the persisted conversation state and
    context, the lot's tables, and the messages sent back, with one method per
    handler of handlers/attendantHandlers.js, handlers/sharedHandlers.js and
    handlers/ownerHandlers.js that this model covers, and the router of
    controllers/whatsappController.js on top. */
module Parking {
  import opened Wrappers
  import opened Text
  import opened Validators
  import opened Records
  import opened Messages
  import Billing
  import opened AttendantRules
  import opened OwnerRules
  import opened SharedRules
  import Commands

  /** The intent classifier's answer: the intent name and the parameters the
      owner handlers read, each as its text and None when absent. */
  datatype Intent = Intent(name: string, modelType: Option<string>, attendantName: Option<string>,
                           attendantNumber: Option<string>, identifier: Option<string>,
                           duration: Option<string>, fee: Option<string>, rateType: Option<string>,
                           hours: Option<string>, vehicleNumber: Option<string>,
                           durationDays: Option<string>, customerNumber: Option<string>)

  /** The owner handlers that write the tables or the conversation; of the
      others an owner intent can reach, handleViewPasses, handleGetReport,
      handleViewRates and handleListAttendants, each only reads and replies. */
  const WritingHandlers: set<string> := {
    "handleSetPricingModel", "handleSetTieredRate", "handleSetFlatRate", "handleSetPassRate",
    "handleAddPass", "handleRemovePass", "handleRemoveAttendant", "handleAddAttendant",
    "handleManageAttendant", "handleActivateAttendant"
  }

  /** The routes of `mainRouter` that continue a parking or exit flow. */
  predicate ParkingFlowRoute(r: Commands.Route) {
    r.CustomerNumberInput? || r.ParkingConfirmation? || r.CheckoutConfirmed? || r.ExitConfirmation? || r.ListExit?
  }

  /** The routes of `mainRouter` that continue a pass sale. */
  predicate PassFlowRoute(r: Commands.Route) {
    r.PassTypeSelection? || r.PassCustomerNumberInput? || r.PassFinalConfirmation?
  }

  /** The routes of `mainRouter` that end the flow or start it again. */
  predicate EndingRoute(r: Commands.Route) {
    r.CancelCommand? || r.CheckoutDeclined? || r.RemovalRefused? || r.ResetConversation? || r.IdleAgain?
  }

  /** What a waiting state needs from the saved context, as the handler that
      entered the state wrote it. A vehicle waiting to be parked is not inside. */
  predicate ContextFits(s: ConvState, c: Context, txs: seq<Transaction>, lot: int) {
    match s
    case AwaitingCustomerNumber | AwaitingPaymentType | AwaitingParkingConfirmation =>
      c.vehicle.Some? && Records.NotInside(txs, lot, c.vehicle.value)
    case AwaitingExitConfirmation =>
      c.vehicle.Some? && c.fee.Some? && c.transactionId.Some? && c.transactionId.value < |txs|
    case AwaitingPassCustomerNumber | AwaitingPassPaymentConfirm =>
      c.vehicle.Some? && c.fee.Some? && c.passName.Some? && c.durationDays.Some?
    case AwaitingCustomerNumberForReceipt | AwaitingCheckoutConfirmation | AwaitingPassTypeSelection =>
      c.vehicle.Some?
    case _ => true
  }

  /** A change of Transactions that creates no INSIDE row keeps the table
      invariant and every saved context. */
  lemma NoNewInsideKeepsContext(s: ConvState, c: Context, txs: seq<Transaction>, txs': seq<Transaction>, lot: int)
    requires NoNewInside(txs, txs')
    ensures OneInsidePerVehicle(txs) ==> OneInsidePerVehicle(txs')
    ensures ContextFits(s, c, txs, lot) ==> ContextFits(s, c, txs', lot)
  {
    NoNewInsideKeeps(txs, txs');
  }

  /** The loop of the shared `handleVehicleCheckout` that reads the
      identifiers: the vehicles named, each once in order of first mention
      (the insertion order of a Set), and the warnings sent on the way. */
  method ResolveIdentifiers(parked: seq<string>, ids: seq<string>) returns (chosen: seq<string>, warnings: seq<Reply>)
    ensures chosen == Distinct(Targets(parked, ids)) && warnings == Warnings(parked, ids)
    ensures NoDup(chosen) && forall v :: v in chosen <==> v in Targets(parked, ids)
  {
    chosen, warnings := [], [];
    var i := 0;
    while i < |ids|
      invariant 0 <= i <= |ids|
      invariant chosen == Distinct(Targets(parked, ids[..i]))
      invariant warnings == Warnings(parked, ids[..i])
    {
      ResolveStep(parked, ids, i);
      var identifier := ids[i];
      var n := ParseInt(identifier);
      if n.Some? && n.value > 0 {
        if |parked| >= n.value {
          chosen := AddOnce(chosen, parked[n.value - 1]);
        } else {
          warnings := warnings + [BadListNumberWarning(n.value)];
        }
      } else if IsValidVehicleNumber(ToUpper(identifier)) {
        chosen := AddOnce(chosen, ToUpper(identifier));
      } else {
        warnings := warnings + [BadVehicleWarning(identifier)];
      }
      i := i + 1;
    }
    assert ids[..|ids|] == ids;
    DistinctSpec(Targets(parked, ids));
  }

  /** The loop of the owner `handleVehicleCheckout` over one snapshot of the
      table: the table after the rows paid for are closed, and the summary. */
  method CloseIdentified(snapshot: Database, lot: int, rows: seq<nat>, ids: seq<string>, now: int)
    returns (txs: seq<Transaction>, lines: seq<SummaryLine>)
    requires InTable(snapshot.transactions, rows)
    ensures txs == CloseAll(snapshot.transactions, rows, ids, now)
    ensures lines == Summary(snapshot, lot, rows, ids, now)
  {
    txs, lines := snapshot.transactions, [];
    var i := 0;
    while i < |ids|
      invariant 0 <= i <= |ids|
      invariant txs == CloseAll(snapshot.transactions, rows, ids[..i], now)
      invariant lines == Summary(snapshot, lot, rows, ids[..i], now)
    {
      CloseAllStep(snapshot.transactions, rows, ids[..i], ids[i], now);
      assert ids[..i + 1] == ids[..i] + [ids[i]];
      var u := ToUpper(ids[i]);
      var found: Option<nat>;
      match ListKey(u, |rows|) {
        case Some(j) => found := Some(rows[j]);
        case None => found := FindVehicle(snapshot.transactions, rows, u);
      }
      if found.None? {
        lines := lines + [NotFound(ids[i])];
      } else {
        var t := snapshot.transactions[found.value];
        if ClosesAtOnce(t.status) {
          txs := txs[found.value := Close(t, now)];
          lines := lines + [CheckedOut(t.vehicle)];
        } else {
          var fee := Billing.CalculateFinalFee(LotRow(snapshot, lot), RateCard(snapshot, lot), StayOf(t), now);
          lines := lines + [PaymentPending(t.vehicle, fee)];
        }
      }
      i := i + 1;
    }
    assert ids[..|ids|] == ids;
  }

  class ParkingSystem {
    const role: Role
    const userId: int
    const lotId: int
    var state: ConvState
    var context: Context
    var db: Database
    var replies: seq<Reply>

    ghost predicate Valid()
      reads this
    {
      lotId in db.lots && WellFormed(db) && ContextFits(state, context, db.transactions, lotId)
    }

    constructor (role: Role, userId: int, lotId: int, db: Database)
      requires lotId in db.lots && WellFormed(db)
      ensures Valid()
      ensures this.role == role && this.userId == userId && this.lotId == lotId && this.db == db
      ensures state == Idle && context == EmptyContext && replies == []
    {
      this.role, this.userId, this.lotId, this.db := role, userId, lotId, db;
      state, context, replies := Idle, EmptyContext, [];
    }

    // ------------------------------------------------------------ entry

    /** `handleInitialVehicleEntry`: a valid number not yet inside is asked to
        park as a pass holder, asked how to pay when its customer is known, or
        asked for the customer's number; one already inside is offered the exit. */
    twostate predicate EntryHandled(v: string, now: int)
      requires old(Valid())
      reads this
    {
      db == old(db)
      && (!IsValidVehicleNumber(v) ==>
            state == old(state) && context == old(context) && replies == old(replies) + [InvalidVehicle(v)])
      && (IsValidVehicleNumber(v) && !Records.NotInside(db.transactions, lotId, v) ==>
            state == AwaitingCheckoutConfirmation && context == VehicleContext(v)
            && replies == old(replies) + [AlreadyParkedMenu(v)])
      && (IsValidVehicleNumber(v) && Records.NotInside(db.transactions, lotId, v) && HasActivePass(db, lotId, v, now) ==>
            state == AwaitingParkingConfirmation && context == VehicleContext(v).(isPassHolder := true)
            && replies == old(replies) + [PassHolderMenu(v)])
      && (IsValidVehicleNumber(v) && Records.NotInside(db.transactions, lotId, v) && !HasActivePass(db, lotId, v, now) ==>
            match KnownCustomer(db, lotId, v)
            case Some(c) =>
              var fee := Billing.EntryFee(db.lots[lotId], RateCard(db, lotId));
              state == AwaitingPaymentType && context == VehicleContext(v).(customer := Some(c), entryFee := Some(fee))
              && replies == old(replies) + [PaymentMenu(v, fee)]
            case None =>
              state == AwaitingCustomerNumber && context == VehicleContext(v) && replies == old(replies) + [AskCustomerNumber(v)])
    }

    method HandleInitialVehicleEntry(v: string, now: int)
      requires Valid()
      modifies this
      ensures EntryHandled(v, now)
      ensures Valid()
    {
      if !IsValidVehicleNumber(v) {
        replies := replies + [InvalidVehicle(v)];
        return;
      }
      var inside := Rows(db.transactions, InsideAs(lotId, v));
      if |inside| > 0 {
        assert Matches(db.transactions[inside[0]], InsideAs(lotId, v));
        state, context := AwaitingCheckoutConfirmation, VehicleContext(v);
        replies := replies + [AlreadyParkedMenu(v)];
        return;
      }
      var c := VehicleContext(v).(isPassHolder := HasActivePass(db, lotId, v, now));
      if c.isPassHolder {
        state, context := AwaitingParkingConfirmation, c;
        replies := replies + [PassHolderMenu(v)];
        return;
      }
      match KnownCustomer(db, lotId, v) {
        case Some(number) =>
          AskForPaymentType(c.(customer := Some(number)));
        case None =>
          state, context := AwaitingCustomerNumber, c;
          replies := replies + [AskCustomerNumber(v)];
      }
    }

    /** `handleCustomerNumberInput`: a valid number is saved for the vehicle
        and the payment question follows; anything else is refused. */
    twostate predicate CustomerNumberHandled(text: string)
      requires old(Valid()) && old(state) == AwaitingCustomerNumber
      reads this
    {
      var v := old(context).vehicle.value;
      match NormalizePhoneNumber(text)
      case None =>
        db == old(db) && state == old(state) && context == old(context)
        && replies == old(replies) + [InvalidCustomerNumber]
      case Some(p) =>
        db == old(db).(customers := old(db).customers[(lotId, v) := p])
        && var fee := Billing.EntryFee(db.lots[lotId], RateCard(db, lotId));
           state == AwaitingPaymentType && context == old(context).(customer := Some(p), entryFee := Some(fee))
           && replies == old(replies) + [PaymentMenu(v, fee)]
    }

    method HandleCustomerNumberInput(text: string)
      requires Valid() && state == AwaitingCustomerNumber
      modifies this
      ensures CustomerNumberHandled(text)
      ensures Valid()
    {
      match NormalizePhoneNumber(text) {
        case None =>
          replies := replies + [InvalidCustomerNumber];
        case Some(p) =>
          var c := context.(customer := Some(p));
          db := db.(customers := db.customers[(lotId, c.vehicle.value) := p]);
          AskForPaymentType(c);
      }
    }

    /** `askForPaymentType`: the entry fee of the lot's pricing model is quoted,
        saved in the context, and the payment buttons are offered. */
    method AskForPaymentType(c: Context)
      requires Valid() && c.vehicle.Some? && Records.NotInside(db.transactions, lotId, c.vehicle.value)
      modifies this
      ensures Valid() && db == old(db)
      ensures var fee := Billing.EntryFee(db.lots[lotId], RateCard(db, lotId));
        fee != 0 && state == AwaitingPaymentType && context == c.(entryFee := Some(fee))
        && replies == old(replies) + [PaymentMenu(c.vehicle.value, fee)]
    {
      var fee := Billing.EntryFee(db.lots[lotId], RateCard(db, lotId));
      state, context := AwaitingPaymentType, c.(entryFee := Some(fee));
      replies := replies + [PaymentMenu(c.vehicle.value, fee)];
    }

    /** `handleParkingConfirmation`: an accepted reply inserts the one INSIDE
        row of the vehicle, with the status the reply chooses, and sends the
        receipt or asks for a number to send it to; any other reply cancels. */
    twostate predicate ParkingConfirmationHandled(button: string, now: int)
      requires old(Valid()) && (old(state) == AwaitingPaymentType || old(state) == AwaitingParkingConfirmation)
      reads this
    {
      (ParkingStatus(old(context).isPassHolder, button).None? ==>
         db == old(db) && state == Idle && context == EmptyContext
         && replies == old(replies) + [ParkingCancelled(old(context).vehicle.value)])
      && (ParkingStatus(old(context).isPassHolder, button).Some? ==>
            var c, s := old(context), ParkingStatus(old(context).isPassHolder, button).value;
            db == old(db).(transactions := old(db).transactions + [EntryRow(lotId, userId, c.vehicle.value, c.customer, c.entryFee, s, now)])
            && Rows(db.transactions, InsideAs(lotId, c.vehicle.value)) == [|old(db).transactions|])
      && (ParkingStatus(old(context).isPassHolder, button).Some? && old(context).customer.Some? ==>
            var c, s := old(context), ParkingStatus(old(context).isPassHolder, button).value;
            state == Idle && context == EmptyContext
            && replies == old(replies) + [Parked(c.vehicle.value, s == "PARKED_UNPAID"), ReceiptSent(c.customer.value)])
      && (ParkingStatus(old(context).isPassHolder, button).Some? && old(context).customer.None? ==>
            var c, s := old(context), ParkingStatus(old(context).isPassHolder, button).value;
            state == AwaitingCustomerNumberForReceipt && context == VehicleContext(c.vehicle.value)
            && replies == old(replies) + [Parked(c.vehicle.value, s == "PARKED_UNPAID"), AskReceiptNumber])
    }

    method HandleParkingConfirmation(button: string, now: int)
      requires Valid() && (state == AwaitingPaymentType || state == AwaitingParkingConfirmation)
      modifies this
      ensures ParkingConfirmationHandled(button, now)
      ensures Valid()
    {
      var c := context;
      var v := c.vehicle.value;
      var status := ParkingStatus(c.isPassHolder, button);
      if status.None? {
        state, context := Idle, EmptyContext;
        replies := replies + [ParkingCancelled(v)];
        return;
      }
      var row := EntryRow(lotId, userId, v, c.customer, c.entryFee, status.value, now);
      ParkingKeepsWellFormed(db, row);
      db := db.(transactions := db.transactions + [row]);
      var parked := Parked(v, status.value == "PARKED_UNPAID");
      if c.customer.Some? {
        state, context := Idle, EmptyContext;
        replies := replies + [parked, ReceiptSent(c.customer.value)];
      } else {
        state, context := AwaitingCustomerNumberForReceipt, VehicleContext(v);
        replies := replies + [parked, AskReceiptNumber];
      }
    }

    /** `handleReceiptCustomerNumber`: a valid number is written on the
        vehicle's newest INSIDE row and saved for the vehicle, and the receipt
        goes to it; anything else skips the receipt. Either way the
        conversation ends. */
    method HandleReceiptCustomerNumber(text: string)
      requires Valid() && state == AwaitingCustomerNumberForReceipt
      modifies this
      ensures Valid() && state == Idle && context == EmptyContext
      ensures var v := old(context).vehicle.value;
        var txs := old(db).transactions;
        match NormalizePhoneNumber(text)
        case None => db == old(db) && replies == old(replies) + [ReceiptSkipped]
        case Some(p) =>
          db.customers == old(db).customers[(lotId, v) := p]
          && db.transactions == RecordReceiptNumber(txs, lotId, v, p)
          && db == old(db).(customers := db.customers, transactions := db.transactions)
          && replies == old(replies) + [ReceiptNumberSaved(v), ReceiptSent(p)]
    {
      var v := context.vehicle.value;
      match NormalizePhoneNumber(text) {
        case None =>
          replies := replies + [ReceiptSkipped];
        case Some(p) =>
          var txs := db.transactions;
          match Newest(txs, InsideAs(lotId, v)) {
            case None =>
            case Some(k) =>
              SamePlaceKeepsOne(txs, k, txs[k].(customer := Some(p)));
              txs := txs[k := txs[k].(customer := Some(p))];
          }
          db := db.(transactions := txs, customers := db.customers[(lotId, v) := p]);
          replies := replies + [ReceiptNumberSaved(v), ReceiptSent(p)];
      }
      state, context := Idle, EmptyContext;
    }

    /** `handleReceiptCustomerNumber` as written: the UPDATE's `ORDER BY ...
        LIMIT 1` is not PostgreSQL, so for a valid number the query is
        rejected before anything is saved, the controller reports an internal
        error and the conversation stays where it was. */
    method HandleReceiptCustomerNumberAsWritten(text: string)
      requires Valid() && state == AwaitingCustomerNumberForReceipt
      modifies this
      ensures Valid()
      ensures NormalizePhoneNumber(text).Some? ==>
        db == old(db) && state == old(state) && context == old(context)
        && replies == old(replies) + [InternalError]
      ensures NormalizePhoneNumber(text).None? ==>
        db == old(db) && state == Idle && context == EmptyContext
        && replies == old(replies) + [ReceiptSkipped]
    {
      if NormalizePhoneNumber(text).Some? {
        replies := replies + [InternalError];
        return;
      }
      replies := replies + [ReceiptSkipped];
      state, context := Idle, EmptyContext;
    }

    // ------------------------------------------------------------ exit

    /** `handleInitialVehicleExit`: exactly one identifier is looked up among
        the vehicles inside; the row found is billed by the billing engine and
        the exit is offered with the amount still due. Nothing is written. */
    twostate predicate ExitOfferHandled(ids: seq<string>, now: int)
      requires old(Valid())
      reads this
    {
      db == old(db)
      && (|ids| != 1 || ExitTarget(db.transactions, lotId, ids[0]).None? ==>
            state == old(state) && context == old(context)
            && replies == old(replies) + [if |ids| == 0 then SpecifyVehicle
                                          else if |ids| > 1 then OneAtATime
                                          else ExitRefusal(db.transactions, lotId, ids[0])])
      && (|ids| == 1 && ExitTarget(db.transactions, lotId, ids[0]).Some? ==>
            var k := ExitTarget(db.transactions, lotId, ids[0]).value;
            var t := db.transactions[k];
            var fee := Billing.FinalFee(LotRow(db, lotId), RateCard(db, lotId), StayOf(t), now);
            fee >= 0 && state == AwaitingExitConfirmation
            && context == EmptyContext.(vehicle := Some(t.vehicle), fee := Some(fee), transactionId := Some(k))
            && replies == old(replies) + [if fee > 0 then CollectPaymentMenu(t.vehicle, fee) else OkToGoMenu(t.vehicle)])
    }

    method HandleInitialVehicleExit(ids: seq<string>, now: int)
      requires Valid()
      modifies this
      ensures ExitOfferHandled(ids, now)
      ensures Valid()
    {
      if |ids| == 0 {
        replies := replies + [SpecifyVehicle];
        return;
      }
      if |ids| > 1 {
        replies := replies + [OneAtATime];
        return;
      }
      var identifier := ids[0];
      var target: Option<nat>;
      var n := ParseInt(identifier);
      if n.Some? && n.value > 0 {
        target := Nth(db.transactions, InsideIn(lotId), n.value);
      } else {
        target := Newest(db.transactions, InsideAs(lotId, ToUpper(identifier)));
      }
      if target.None? {
        replies := replies + [ExitRefusal(db.transactions, lotId, identifier)];
        return;
      }
      var k := target.value;
      var t := db.transactions[k];
      var fee := Billing.CalculateFinalFee(LotRow(db, lotId), RateCard(db, lotId), StayOf(t), now);
      state, context := AwaitingExitConfirmation, EmptyContext.(vehicle := Some(t.vehicle), fee := Some(fee), transactionId := Some(k));
      if fee > 0 {
        replies := replies + [CollectPaymentMenu(t.vehicle, fee)];
      } else {
        replies := replies + [OkToGoMenu(t.vehicle)];
      }
    }

    /** `handleExitConfirmation`: one of the three exit buttons closes the
        saved row with its status and adds the amount collected to its
        `total_fee`; "Cancel" or any other reply writes nothing. The
        conversation ends either way. */
    twostate predicate ExitConfirmationHandled(button: string, now: int)
      requires old(Valid()) && old(state) == AwaitingExitConfirmation
      reads this
    {
      state == Idle && context == EmptyContext
      && (button == "Cancel" ==>
            db == old(db) && replies == old(replies) + [ExitCancelled(old(context).vehicle.value)])
      && (button != "Cancel" ==>
            var c := old(context);
            var k := c.transactionId.value;
            var t := old(db).transactions[k];
            match ExitStatus(button, t.status)
            case None => db == old(db) && replies == old(replies) + [InvalidOption]
            case Some(s) =>
              db == old(db).(transactions := old(db).transactions[k := ExitedRow(t, s, c.fee.value, now)])
              && replies == old(replies) + [ExitConfirmed(c.vehicle.value)]
                                         + (if t.customer.Some? then [ReceiptSent(t.customer.value)] else []))
    }

    method HandleExitConfirmation(button: string, now: int)
      requires Valid() && state == AwaitingExitConfirmation
      modifies this
      ensures ExitConfirmationHandled(button, now)
      ensures Valid()
    {
      var c := context;
      var v := c.vehicle.value;
      state, context := Idle, EmptyContext;
      if button == "Cancel" {
        replies := replies + [ExitCancelled(v)];
        return;
      }
      var k := c.transactionId.value;
      var t := db.transactions[k];
      var status := ExitStatus(button, t.status);
      if status.None? {
        replies := replies + [InvalidOption];
        return;
      }
      var row := ExitedRow(t, status.value, c.fee.value, now);
      RewriteIsNoNewInside(db.transactions, k, row);
      NoNewInsideKeepsWellFormed(db, db.transactions[k := row]);
      db := db.(transactions := db.transactions[k := row]);
      replies := replies + [ExitConfirmed(v)];
      if t.customer.Some? {
        replies := replies + [ReceiptSent(t.customer.value)];
      }
    }

    // ------------------------------------------------------------ passes

    /** `handleStartPassCreation`: a valid vehicle number is offered the lot's
        pass types, in table order, and Cancel. */
    twostate predicate PassMenuHandled(v: string)
      requires old(Valid())
      reads this
    {
      db == old(db)
      && (!IsValidVehicleNumber(v) ==>
            state == old(state) && context == old(context) && replies == old(replies) + [InvalidPassVehicle])
      && (IsValidVehicleNumber(v) && |PassTypesOf(db.passTypes, lotId)| == 0 ==>
            state == old(state) && context == old(context) && replies == old(replies) + [NoPassTypes])
      && (IsValidVehicleNumber(v) && |PassTypesOf(db.passTypes, lotId)| > 0 ==>
            state == AwaitingPassTypeSelection && context == VehicleContext(v)
            && replies == old(replies) + [PassTypeMenu(v, PassMenu(PassTypesOf(db.passTypes, lotId)) + ["Cancel"])])
    }

    method HandleStartPassCreation(v: string)
      requires Valid()
      modifies this
      ensures PassMenuHandled(v)
      ensures Valid()
    {
      if !IsValidVehicleNumber(v) {
        replies := replies + [InvalidPassVehicle];
        return;
      }
      var types := PassTypesOf(db.passTypes, lotId);
      if |types| == 0 {
        replies := replies + [NoPassTypes];
        return;
      }
      state, context := AwaitingPassTypeSelection, VehicleContext(v);
      replies := replies + [PassTypeMenu(v, PassMenu(types) + ["Cancel"])];
    }

    /** `handlePassTypeSelection`: a button naming a pass type of the lot with
        a fee is saved with the type's duration, and the payment is asked for
        when the customer is known, the customer's number otherwise; any
        other reply starts over. */
    twostate predicate PassTypeHandled(button: string)
      requires old(Valid()) && old(state) == AwaitingPassTypeSelection
      reads this
    {
      var name, fee := PassName(button), PassFee(button);
      var v := old(context).vehicle.value;
      db == old(db)
      && (FindPassType(db.passTypes, lotId, name).None? || fee == 0 ==>
            state == Idle && context == EmptyContext && replies == old(replies) + [InvalidPassType])
      && (FindPassType(db.passTypes, lotId, name).Some? && fee != 0 ==>
            var c := old(context).(fee := Some(fee), passName := Some(name),
                                   durationDays := Some(FindPassType(db.passTypes, lotId, name).value.durationDays));
            match KnownCustomer(db, lotId, v)
            case Some(p) =>
              state == AwaitingPassPaymentConfirm && context == c.(customer := Some(p))
              && replies == old(replies) + [PassPaymentMenu(name, v, fee)]
            case None =>
              state == AwaitingPassCustomerNumber && context == c && replies == old(replies) + [AskPassCustomerNumber(name)])
    }

    method HandlePassTypeSelection(button: string)
      requires Valid() && state == AwaitingPassTypeSelection
      modifies this
      ensures PassTypeHandled(button)
      ensures Valid()
    {
      var fee := PassFee(button);
      var name := PassName(button);
      var passType := FindPassType(db.passTypes, lotId, name);
      if passType.None? || fee == 0 {
        state, context := Idle, EmptyContext;
        replies := replies + [InvalidPassType];
        return;
      }
      var v := context.vehicle.value;
      var c := context.(fee := Some(fee), passName := Some(name), durationDays := Some(passType.value.durationDays));
      match KnownCustomer(db, lotId, v) {
        case Some(p) =>
          state, context := AwaitingPassPaymentConfirm, c.(customer := Some(p));
          replies := replies + [PassPaymentMenu(name, v, fee)];
        case None =>
          state, context := AwaitingPassCustomerNumber, c;
          replies := replies + [AskPassCustomerNumber(name)];
      }
    }

    /** `handlePassCustomerNumberInput`: a valid number is saved for the
        vehicle and the payment is asked for; anything else is refused. */
    twostate predicate PassNumberHandled(text: string)
      requires old(Valid()) && old(state) == AwaitingPassCustomerNumber
      reads this
    {
      var c := old(context);
      match NormalizePhoneNumber(text)
      case None =>
        db == old(db) && state == old(state) && context == old(context)
        && replies == old(replies) + [InvalidPassNumber]
      case Some(p) =>
        db == old(db).(customers := old(db).customers[(lotId, c.vehicle.value) := p])
        && state == AwaitingPassPaymentConfirm && context == c.(customer := Some(p))
        && replies == old(replies) + [PassPaymentMenu(c.passName.value, c.vehicle.value, c.fee.value)]
    }

    method HandlePassCustomerNumberInput(text: string)
      requires Valid() && state == AwaitingPassCustomerNumber
      modifies this
      ensures PassNumberHandled(text)
      ensures Valid()
    {
      match NormalizePhoneNumber(text) {
        case None =>
          replies := replies + [InvalidPassNumber];
        case Some(p) =>
          var c := context;
          db := db.(customers := db.customers[(lotId, c.vehicle.value) := p]);
          state, context := AwaitingPassPaymentConfirm, c.(customer := Some(p));
          replies := replies + [PassPaymentMenu(c.passName.value, c.vehicle.value, c.fee.value)];
      }
    }

    /** `handlePassFinalConfirmation`: any reply but "Cancel" writes the
        vehicle's pass, active until the saved number of days from now, over
        any earlier one, and the e-pass goes to the customer when known. The
        conversation ends either way. */
    twostate predicate PassConfirmationHandled(button: string, now: int)
      requires old(Valid()) && old(state) == AwaitingPassPaymentConfirm
      reads this
    {
      var c := old(context);
      var v, days := c.vehicle.value, c.durationDays.value;
      state == Idle && context == EmptyContext
      && (button == "Cancel" ==> db == old(db) && replies == old(replies) + [PassCancelled(v)])
      && (button != "Cancel" ==>
            db == old(db).(passes := old(db).passes[(lotId, v) := Pass(PassExpiry(now, days), true, c.customer)])
            && (days >= 0 ==> HasActivePass(db, lotId, v, now))
            && replies == old(replies) + [PassCreated(c.passName.value, v)]
                                       + (if c.customer.Some? then [EpassSent(c.customer.value)] else []))
    }

    method HandlePassFinalConfirmation(button: string, now: int)
      requires Valid() && state == AwaitingPassPaymentConfirm
      modifies this
      ensures PassConfirmationHandled(button, now)
      ensures Valid()
    {
      var c := context;
      var v := c.vehicle.value;
      state, context := Idle, EmptyContext;
      if button == "Cancel" {
        replies := replies + [PassCancelled(v)];
        return;
      }
      db := db.(passes := db.passes[(lotId, v) := Pass(PassExpiry(now, c.durationDays.value), true, c.customer)]);
      replies := replies + [PassCreated(c.passName.value, v)];
      if c.customer.Some? {
        replies := replies + [EpassSent(c.customer.value)];
      }
    }

    // ------------------------------------------------------------ legacy shared handlers

    /** `handleListVehicles`: the lot's PARKED vehicles, oldest first. */
    twostate predicate VehiclesListed()
      reads this
    {
      var vs := ParkedVehicles(db.transactions, lotId);
      db == old(db) && state == old(state) && context == old(context)
      && replies == old(replies) + [if |vs| == 0 then NoVehiclesParked else ParkedList(vs)]
    }

    method SharedListVehicles()
      requires Valid()
      modifies this
      ensures Valid() && VehiclesListed()
    {
      var vs := ParkedVehicles(db.transactions, lotId);
      if |vs| == 0 {
        replies := replies + [NoVehiclesParked];
      } else {
        replies := replies + [ParkedList(vs)];
      }
    }

    /** `handleGetStatus`: the number of the lot's PARKED rows. */
    twostate predicate StatusSent()
      reads this
    {
      db == old(db) && state == old(state) && context == old(context)
      && replies == old(replies) + [ParkedCount(|Rows(db.transactions, ParkedIn(lotId))|)]
    }

    method SharedGetStatus()
      requires Valid()
      modifies this
      ensures Valid() && StatusSent()
    {
      replies := replies + [ParkedCount(|Rows(db.transactions, ParkedIn(lotId))|)];
    }

    /** `checkoutSingleVehicle`, proved against CheckoutOne. */
    method CheckoutSingleVehicle(v: string, now: int)
      requires Valid()
      modifies this
      ensures Valid() && state == old(state) && context == old(context)
      ensures db == CheckoutOne(old(db), lotId, v, now).0
      ensures replies == old(replies) + [CheckoutOne(old(db), lotId, v, now).1]
    {
      var found := Newest(db.transactions, ParkedAs(lotId, v));
      if found.None? {
        replies := replies + [Skipped(v)];
        return;
      }
      var k := found.value;
      var t := db.transactions[k];
      var row: Transaction;
      if HasActivePass(db, lotId, v, now) {
        row := t.(endTime := Some(now), status := "COMPLETED_PASS");
        replies := replies + [PassExitLogged(v)];
      } else {
        var rate := HourlyRate(db, lotId);
        if rate == 0 {
          replies := replies + [RateNotSet(v)];
          return;
        }
        var fee := Billing.LegacyHourlyFee(t.startTime, now, rate);
        row := t.(endTime := Some(now), totalFee := Some(fee), status := "COMPLETED_CASH");
        replies := replies + [FeeLogged(v, fee)];
      }
      RewriteIsNoNewInside(db.transactions, k, row);
      NoNewInsideKeepsWellFormed(db, db.transactions[k := row]);
      NoNewInsideKeepsContext(state, context, db.transactions, db.transactions[k := row], lotId);
      db := db.(transactions := db.transactions[k := row]);
    }

    /** `handleVehicleCheckout` of the shared handlers: the identifiers are
        resolved against the PARKED list, with a warning for each that names
        nothing, and the vehicles named are checked out once each, in order of
        first mention. */
    twostate predicate SharedCheckoutHandled(ids: seq<string>, now: int)
      reads this
    {
      state == old(state) && context == old(context)
      && db == old(db).(transactions := db.transactions)
      && (|ids| == 0 ==> db == old(db) && replies == old(replies) + [NoIdentifiers])
      && (|ids| > 0 ==>
            var parked := ParkedVehicles(old(db).transactions, lotId);
            var chosen := Distinct(Targets(parked, ids));
            db == CheckoutAll(old(db), lotId, chosen, now).0
            && (|chosen| == 0 ==> replies == old(replies) + Warnings(parked, ids))
            && (|chosen| > 0 ==>
                  replies == old(replies) + Warnings(parked, ids) + [ProcessingCheckout(|chosen|)]
                             + CheckoutAll(old(db), lotId, chosen, now).1))
    }

    method SharedVehicleCheckout(ids: seq<string>, now: int)
      requires Valid()
      modifies this
      ensures SharedCheckoutHandled(ids, now)
      ensures Valid()
    {
      if |ids| == 0 {
        replies := replies + [NoIdentifiers];
        return;
      }
      var parked := ParkedVehicles(db.transactions, lotId);
      var chosen, warnings := ResolveIdentifiers(parked, ids);
      replies := replies + warnings;
      if |chosen| == 0 {
        return;
      }
      replies := replies + [ProcessingCheckout(|chosen|)];
      CheckoutAllKeepsTables(db, lotId, chosen, now);
      CheckoutVehicles(chosen, now);
    }

    /** The second loop of the shared `handleVehicleCheckout`: each vehicle
        is checked out in turn, proved against CheckoutAll. */
    method CheckoutVehicles(vs: seq<string>, now: int)
      requires Valid()
      modifies this
      ensures Valid() && state == old(state) && context == old(context)
      ensures db == CheckoutAll(old(db), lotId, vs, now).0
      ensures replies == old(replies) + CheckoutAll(old(db), lotId, vs, now).1
    {
      var j := 0;
      while j < |vs|
        invariant 0 <= j <= |vs|
        invariant Valid() && state == old(state) && context == old(context)
        invariant db == CheckoutAll(old(db), lotId, vs[..j], now).0
        invariant replies == old(replies) + CheckoutAll(old(db), lotId, vs[..j], now).1
      {
        CheckoutAllStep(old(db), lotId, vs[..j], vs[j], now);
        assert vs[..j + 1] == vs[..j] + [vs[j]];
        CheckoutSingleVehicle(vs[j], now);
        j := j + 1;
      }
      assert vs[..|vs|] == vs;
    }

    /** `handleVehicleCheckIn`: a valid vehicle number with no PARKED row gets
        one, started now; otherwise the reason is sent. */
    method LegacyCheckIn(vehicle: Option<string>, customer: Option<string>, now: int)
      requires Valid()
      modifies this
      ensures Valid() && state == old(state) && context == old(context)
      ensures match CheckInRefusal(old(db), lotId, vehicle)
        case Some(r) => db == old(db) && replies == old(replies) + [r]
        case None =>
          db == old(db).(transactions := old(db).transactions + [CheckInRow(role, userId, lotId, vehicle.value, customer, now)])
          && replies == old(replies) + [CheckedIn(vehicle.value)]
    {
      if vehicle.None? || vehicle.value == "" {
        replies := replies + [NoCheckInVehicle];
        return;
      }
      var v := vehicle.value;
      if !IsValidVehicleNumber(v) {
        replies := replies + [InvalidCheckInVehicle(v)];
        return;
      }
      if |Rows(db.transactions, ParkedAs(lotId, v))| > 0 {
        replies := replies + [AlreadyMarkedParked(v)];
        return;
      }
      var attendant := if role == AttendantRole then Some(userId) else None;
      var row := Transaction(lotId, attendant, v, now, None, "PARKED", Unrecorded, None, NormalizeOptional(customer));
      AppendOutsideIsNoNewInside(db.transactions, row);
      NoNewInsideKeepsWellFormed(db, db.transactions + [row]);
      NoNewInsideKeepsContext(state, context, db.transactions, db.transactions + [row], lotId);
      db := db.(transactions := db.transactions + [row]);
      replies := replies + [CheckedIn(v)];
    }

    // ------------------------------------------------------------ owner handlers

    /** `handleVehicleCheckout` of the owner handlers: every identifier is
        resolved against one snapshot of the INSIDE rows; rows already paid
        for are closed and the rest only reported with their fee. */
    method OwnerVehicleCheckout(ids: seq<string>, now: int)
      requires Valid()
      modifies this
      ensures Valid() && state == old(state) && context == old(context)
      ensures |ids| == 0 ==> db == old(db) && replies == old(replies) + [NoIdentifiers]
      ensures |ids| > 0 ==>
        var rows := Rows(old(db).transactions, InsideIn(lotId));
        db == old(db).(transactions := CloseAll(old(db).transactions, rows, ids, now))
        && replies == old(replies) + [ProcessingCheckout(|ids|), CheckoutSummary(Summary(old(db), lotId, rows, ids, now))]
    {
      if |ids| == 0 {
        replies := replies + [NoIdentifiers];
        return;
      }
      var rows := Rows(db.transactions, InsideIn(lotId));
      replies := replies + [ProcessingCheckout(|ids|)];
      var txs, lines := CloseIdentified(db, lotId, rows, ids, now);
      CloseAllIsNoNewInside(db.transactions, rows, ids, now);
      NoNewInsideKeepsWellFormed(db, txs);
      NoNewInsideKeepsContext(state, context, db.transactions, txs, lotId);
      db := db.(transactions := txs);
      replies := replies + [CheckoutSummary(lines)];
    }

    /** `handleSetPricingModel`: an owner's TIERED, BLOCK or HOURLY, in any
        case, becomes the lot's pricing model. */
    twostate predicate PricingModelHandled(modelType: Option<string>)
      requires old(Valid())
      reads this
    {
      state == old(state) && context == old(context)
      && (role != OwnerRole ==> db == old(db) && replies == old(replies) + [OwnerOnlyCommand])
      && (role == OwnerRole && PricingModelChoice(modelType).None? ==>
            db == old(db) && replies == old(replies) + [InvalidModel])
      && (role == OwnerRole && PricingModelChoice(modelType).Some? ==>
            var m := PricingModelChoice(modelType).value;
            db == old(db).(lots := old(db).lots[lotId := old(db).lots[lotId].(pricingModel := m)])
            && replies == old(replies) + [PricingModelSet(m)])
    }

    method SetPricingModel(modelType: Option<string>)
      requires Valid()
      modifies this
      ensures PricingModelHandled(modelType)
      ensures Valid()
    {
      if role != OwnerRole {
        replies := replies + [OwnerOnlyCommand];
        return;
      }
      var choice := PricingModelChoice(modelType);
      if choice.None? {
        replies := replies + [InvalidModel];
        return;
      }
      db := db.(lots := db.lots[lotId := db.lots[lotId].(pricingModel := choice.value)]);
      replies := replies + [PricingModelSet(choice.value)];
    }

    /** `handleAddAttendant`: a new active attendant is added only while the
        lot is under its plan's cap, with a valid number no attendant has yet;
        the lot then has one more active attendant, and no more than the cap. */
    twostate predicate AttendantAddHandled(name: Option<string>, number: Option<string>)
      reads this
    {
      state == old(state) && context == old(context)
      && (role != OwnerRole ==> db == old(db) && replies == old(replies) + [OwnerOnlyCommand])
      && (role == OwnerRole && !(Given(name) && Given(number)) ==>
            db == old(db) && replies == old(replies) + [MissingAttendantDetails])
      && (role == OwnerRole && Given(name) && Given(number) ==>
              var plan := PlanName(PlanOf(old(db), userId));
              var cap := MaxAttendants(plan);
              var count := ActiveCount(old(db).attendants, lotId);
              var phone := NormalizePhoneNumber(number.value);
              (count >= cap ==> db == old(db) && replies == old(replies) + [CapReached(cap, plan)])
              && (count < cap && phone.None? ==>
                    db == old(db) && replies == old(replies) + [InvalidAttendantNumber(number.value)])
              && (count < cap && phone.Some? && PhoneTaken(old(db).attendants, phone.value) ==>
                    db == old(db) && replies == old(replies) + [DuplicateAttendant(phone.value)])
              && (count < cap && phone.Some? && !PhoneTaken(old(db).attendants, phone.value) ==>
                    db == old(db).(attendants := old(db).attendants[old(db).nextAttendantId := Attendant(lotId, name.value, phone.value, true)],
                                   nextAttendantId := old(db).nextAttendantId + 1)
                    && replies == old(replies) + [AttendantAdded(name.value, count + 1, cap)]
                    && ActiveCount(db.attendants, lotId) == count + 1 <= cap))
    }

    method AddAttendant(name: Option<string>, number: Option<string>)
      requires Valid()
      modifies this
      ensures AttendantAddHandled(name, number)
      ensures Valid()
    {
      if role != OwnerRole {
        replies := replies + [OwnerOnlyCommand];
        return;
      }
      if !(Given(name) && Given(number)) {
        replies := replies + [MissingAttendantDetails];
        return;
      }
      var plan := PlanName(PlanOf(db, userId));
      var cap := MaxAttendants(plan);
      var count := ActiveCount(db.attendants, lotId);
      if count >= cap {
        replies := replies + [CapReached(cap, plan)];
        return;
      }
      var phone := NormalizePhoneNumber(number.value);
      if phone.None? {
        replies := replies + [InvalidAttendantNumber(number.value)];
        return;
      }
      if PhoneTaken(db.attendants, phone.value) {
        replies := replies + [DuplicateAttendant(phone.value)];
        return;
      }
      var hired := Attendant(lotId, name.value, phone.value, true);
      AddRaisesCount(db.attendants, lotId, db.nextAttendantId, hired);
      HiringKeepsWellFormed(db, hired);
      db := db.(attendants := db.attendants[db.nextAttendantId := hired], nextAttendantId := db.nextAttendantId + 1);
      assert Valid();
      replies := replies + [AttendantAdded(name.value, count + 1, cap)];
    }

    /** `handleManageAttendant`: the attendant named by list number or phone
        number is offered for removal if active; nothing is changed yet. */
    twostate predicate ManageHandled(identifier: Option<string>, roster: seq<int>)
      requires IsRoster(old(db).attendants, lotId, roster)
      reads this
    {
      db == old(db)
      && (role != OwnerRole ==>
            state == old(state) && context == old(context) && replies == old(replies) + [OwnerOnlyCommand])
      && (role == OwnerRole && !Given(identifier) ==>
            state == old(state) && context == old(context) && replies == old(replies) + [SpecifyAttendant])
      && (role == OwnerRole && Given(identifier) ==>
              var c := ChooseAttendant(db.attendants, roster, identifier.value);
              (c.NoSuchListNumber? ==> state == old(state) && context == old(context)
                                       && replies == old(replies) + [InvalidAttendantListNumber])
              && (c.BadPhone? ==> state == old(state) && context == old(context)
                                  && replies == old(replies) + [InvalidPhoneFormat])
              && (c.NoSuchPhone? ==> state == old(state) && context == old(context)
                                     && replies == old(replies) + [AttendantNotFound(c.phone)])
              && (c.Chosen? ==> c.id in db.attendants && db.attendants[c.id].lotId == lotId)
              && (c.Chosen? && !db.attendants[c.id].active ==>
                    state == old(state) && context == old(context)
                    && replies == old(replies) + [AlreadyInactive(db.attendants[c.id].name)])
              && (c.Chosen? && db.attendants[c.id].active ==>
                    var a := db.attendants[c.id];
                    state == AwaitingRemovalConfirmation
                    && context == EmptyContext.(attendantToRemove := Some(AttendantRef(c.id, a.name, a.phone)))
                    && replies == old(replies) + [RemovalMenu(a.name, a.phone)]))
    }

    method ManageAttendant(identifier: Option<string>, roster: seq<int>)
      requires Valid() && IsRoster(db.attendants, lotId, roster)
      modifies this
      ensures ManageHandled(identifier, roster)
      ensures Valid()
    {
      if role != OwnerRole {
        replies := replies + [OwnerOnlyCommand];
        return;
      }
      if !Given(identifier) {
        replies := replies + [SpecifyAttendant];
        return;
      }
      ChooseAttendantSpec(db.attendants, lotId, roster, identifier.value);
      match ChooseAttendant(db.attendants, roster, identifier.value) {
        case NoSuchListNumber => replies := replies + [InvalidAttendantListNumber];
        case BadPhone => replies := replies + [InvalidPhoneFormat];
        case NoSuchPhone(p) => replies := replies + [AttendantNotFound(p)];
        case Chosen(id) =>
          var a := db.attendants[id];
          if !a.active {
            replies := replies + [AlreadyInactive(a.name)];
          } else {
            state := AwaitingRemovalConfirmation;
            context := EmptyContext.(attendantToRemove := Some(AttendantRef(id, a.name, a.phone)));
            replies := replies + [RemovalMenu(a.name, a.phone)];
          }
      }
    }

    /** `handleRemovalConfirmation`: the attendant saved in the context is
        deactivated, or detached from its transactions and deleted, or left
        alone; the conversation returns to idle in every case. */
    twostate predicate RemovalHandled(button: string)
      reads this
    {
      state == Idle && context == EmptyContext
      && (old(context).attendantToRemove.None? ==> db == old(db) && replies == old(replies) + [RemovalContextMissing])
      && (old(context).attendantToRemove.Some? ==>
              var r := old(context).attendantToRemove.value;
              (button == "Deactivate Only" ==>
                  db == old(db).(attendants := Deactivate(old(db).attendants, r.id))
                  && replies == old(replies) + [Deactivated(r.name)]
                  && (r.id in db.attendants ==> !db.attendants[r.id].active))
              && (button == "Delete Forever" ==>
                  db == old(db).(transactions := Detach(old(db).transactions, r.id), attendants := old(db).attendants - {r.id})
                  && replies == old(replies) + [Deleted(r.name)]
                  && r.id !in db.attendants
                  && forall k :: 0 <= k < |db.transactions| ==> db.transactions[k].attendantId != Some(r.id))
              && (button != "Deactivate Only" && button != "Delete Forever" ==>
                  db == old(db) && replies == old(replies) + [RemovalCancelled]))
    }

    method RemovalConfirmation(button: string)
      requires Valid() && state == AwaitingRemovalConfirmation
      modifies this
      ensures RemovalHandled(button)
      ensures Valid()
    {
      var target := context.attendantToRemove;
      state, context := Idle, EmptyContext;
      if target.None? {
        replies := replies + [RemovalContextMissing];
        return;
      }
      var r := target.value;
      if button == "Deactivate Only" {
        if r.id in db.attendants {
          FlagKeepsWellFormed(db, r.id, false);
        }
        db := db.(attendants := Deactivate(db.attendants, r.id));
        replies := replies + [Deactivated(r.name)];
      } else if button == "Delete Forever" {
        DetachSpec(db.transactions, r.id);
        DismissalKeepsWellFormed(db, r.id, Detach(db.transactions, r.id));
        db := db.(transactions := Detach(db.transactions, r.id), attendants := db.attendants - {r.id});
        replies := replies + [Deleted(r.name)];
      } else {
        replies := replies + [RemovalCancelled];
      }
    }

    /** `handleActivateAttendant`: the inactive attendant named by list number
        or phone number is made active again, raising the lot's active count
        by one; the plan's cap is not consulted. */
    twostate predicate ActivationHandled(identifier: Option<string>, roster: seq<int>)
      requires IsRoster(old(db).attendants, lotId, roster)
      reads this
    {
      state == old(state) && context == old(context)
      && (role != OwnerRole ==> db == old(db) && replies == old(replies) + [OwnerOnlyCommand])
      && (role == OwnerRole && !Given(identifier) ==> db == old(db) && replies == old(replies) + [SpecifyAttendant])
      && (role == OwnerRole && Given(identifier) ==>
              var c := ChooseAttendant(old(db).attendants, roster, identifier.value);
              (c.NoSuchListNumber? ==> db == old(db) && replies == old(replies) + [InvalidAttendantListNumber])
              && (c.BadPhone? ==> db == old(db) && replies == old(replies) + [InvalidPhoneFormat])
              && (c.NoSuchPhone? ==> db == old(db) && replies == old(replies) + [AttendantNotFound(c.phone)])
              && (c.Chosen? ==> c.id in old(db).attendants && old(db).attendants[c.id].lotId == lotId)
              && (c.Chosen? && old(db).attendants[c.id].active ==>
                    db == old(db) && replies == old(replies) + [AlreadyActive(old(db).attendants[c.id].name)])
              && (c.Chosen? && !old(db).attendants[c.id].active ==>
                    db == old(db).(attendants := old(db).attendants[c.id := old(db).attendants[c.id].(active := true)])
                    && replies == old(replies) + [Reactivated(old(db).attendants[c.id].name)]
                    && ActiveCount(db.attendants, lotId) == ActiveCount(old(db).attendants, lotId) + 1))
    }

    method ActivateAttendant(identifier: Option<string>, roster: seq<int>)
      requires Valid() && IsRoster(db.attendants, lotId, roster)
      modifies this
      ensures ActivationHandled(identifier, roster)
      ensures Valid()
    {
      if role != OwnerRole {
        replies := replies + [OwnerOnlyCommand];
        return;
      }
      if !Given(identifier) {
        replies := replies + [SpecifyAttendant];
        return;
      }
      ChooseAttendantSpec(db.attendants, lotId, roster, identifier.value);
      match ChooseAttendant(db.attendants, roster, identifier.value) {
        case NoSuchListNumber => replies := replies + [InvalidAttendantListNumber];
        case BadPhone => replies := replies + [InvalidPhoneFormat];
        case NoSuchPhone(p) => replies := replies + [AttendantNotFound(p)];
        case Chosen(id) =>
          var a := db.attendants[id];
          if a.active {
            replies := replies + [AlreadyActive(a.name)];
          } else {
            ActivateRaisesCount(db.attendants, lotId, id);
            FlagKeepsWellFormed(db, id, true);
            db := db.(attendants := db.attendants[id := a.(active := true)]);
            replies := replies + [Reactivated(a.name)];
          }
      }
    }

    /** `handleSetTieredRate`: with a duration and a fee the lot switches to
        TIERED and the tier of that duration is inserted or repriced; when
        either is not a number the insert fails after the switch and the
        controller reports an internal error. */
    twostate predicate TieredRateHandled(duration: Option<string>, fee: Option<string>)
      requires old(Valid())
      reads this
    {
      state == old(state) && context == old(context)
      && (role != OwnerRole ==> db == old(db) && replies == old(replies) + [OwnerOnlyCommand])
      && (role == OwnerRole && !(Given(duration) && Given(fee)) ==>
            db == old(db) && replies == old(replies) + [MissingDurationOrFee])
      && (role == OwnerRole && Given(duration) && Given(fee) ==>
            var switched := old(db).(lots := old(db).lots[lotId := old(db).lots[lotId].(pricingModel := "TIERED")]);
            var d := ParseInt(duration.value);
            var f := ParseInt(fee.value);
            (d.None? || f.None? ==> db == switched && replies == old(replies) + [InternalError])
            && (d.Some? && f.Some? ==>
                  var t := Billing.Tier(d.value, f.value);
                  db == switched.(rateCards := old(db).rateCards[lotId := UpsertTier(RateCard(old(db), lotId), t)])
                  && replies == old(replies) + [TieredRateSet(duration.value, fee.value)]
                  && forall x :: x in RateCard(db, lotId) <==>
                       x == t || (x in RateCard(old(db), lotId) && x.durationHours != t.durationHours)))
    }

    method SetTieredRate(duration: Option<string>, fee: Option<string>)
      requires Valid()
      modifies this
      ensures TieredRateHandled(duration, fee)
      ensures Valid()
    {
      if role != OwnerRole {
        replies := replies + [OwnerOnlyCommand];
        return;
      }
      if !(Given(duration) && Given(fee)) {
        replies := replies + [MissingDurationOrFee];
        return;
      }
      db := db.(lots := db.lots[lotId := db.lots[lotId].(pricingModel := "TIERED")]);
      var d := ParseInt(duration.value);
      var f := ParseInt(fee.value);
      if d.None? || f.None? {
        replies := replies + [InternalError];
        return;
      }
      var t := Billing.Tier(d.value, f.value);
      UpsertTierSpec(RateCard(db, lotId), t);
      db := db.(rateCards := db.rateCards[lotId := UpsertTier(RateCard(db, lotId), t)]);
      replies := replies + [TieredRateSet(duration.value, fee.value)];
    }

    /** `handleSetFlatRate`: a `block` rate with its hours, or an `hourly`
        rate, is written with the matching pricing model; a fee or hours that
        is not a number makes the UPDATE fail and nothing is written. */
    twostate predicate FlatRateHandled(rateType: Option<string>, fee: Option<string>, hours: Option<string>)
      requires old(Valid())
      reads this
    {
      state == old(state) && context == old(context)
      && (role != OwnerRole ==> db == old(db) && replies == old(replies) + [OwnerOnlyCommand])
      && (role == OwnerRole && !(Given(rateType) && Given(fee)) ==>
            db == old(db) && replies == old(replies) + [MissingRateTypeOrFee])
      && (role == OwnerRole && Given(rateType) && Given(fee) ==>
            var lot := old(db).lots[lotId];
            var f := ParseInt(fee.value);
            (rateType.value == "block" && !Given(hours) ==> db == old(db) && replies == old(replies) + [BlockNeedsHours])
            && (rateType.value == "block" && Given(hours) ==>
                  var h := ParseInt(hours.value);
                  (f.None? || h.None? ==> db == old(db) && replies == old(replies) + [InternalError])
                  && (f.Some? && h.Some? ==>
                        db == old(db).(lots := old(db).lots[lotId := WithFlatRate(lot, PerBlock(f.value, h.value))])
                        && replies == old(replies) + [BlockRateSet(fee.value, hours.value)]))
            && (rateType.value == "hourly" ==>
                  (f.None? ==> db == old(db) && replies == old(replies) + [InternalError])
                  && (f.Some? ==>
                        db == old(db).(lots := old(db).lots[lotId := WithFlatRate(lot, PerHour(f.value))])
                        && replies == old(replies) + [HourlyRateSet(fee.value)]))
            && (rateType.value != "block" && rateType.value != "hourly" ==>
                  db == old(db) && replies == old(replies) + [InvalidRateType]))
    }

    method SetFlatRate(rateType: Option<string>, fee: Option<string>, hours: Option<string>)
      requires Valid()
      modifies this
      ensures FlatRateHandled(rateType, fee, hours)
      ensures Valid()
    {
      if role != OwnerRole {
        replies := replies + [OwnerOnlyCommand];
        return;
      }
      if !(Given(rateType) && Given(fee)) {
        replies := replies + [MissingRateTypeOrFee];
        return;
      }
      var f := ParseInt(fee.value);
      if rateType.value == "block" {
        if !Given(hours) {
          replies := replies + [BlockNeedsHours];
          return;
        }
        var h := ParseInt(hours.value);
        if f.None? || h.None? {
          replies := replies + [InternalError];
          return;
        }
        db := db.(lots := db.lots[lotId := WithFlatRate(db.lots[lotId], PerBlock(f.value, h.value))]);
        replies := replies + [BlockRateSet(fee.value, hours.value)];
      } else if rateType.value == "hourly" {
        if f.None? {
          replies := replies + [InternalError];
          return;
        }
        db := db.(lots := db.lots[lotId := WithFlatRate(db.lots[lotId], PerHour(f.value))]);
        replies := replies + [HourlyRateSet(fee.value)];
      } else {
        replies := replies + [InvalidRateType];
      }
    }

    /** `handleSetPassRate`: a fee that parses as a number becomes the lot's
        pass rate, and the price then quoted for a new pass unless it is 0. */
    twostate predicate PassRateHandled(fee: Option<string>)
      requires old(Valid())
      reads this
    {
      state == old(state) && context == old(context)
      && (role != OwnerRole ==> db == old(db) && replies == old(replies) + [OwnerOnlyCommand])
      && (role == OwnerRole && (!Given(fee) || ParseInt(fee.value).None?) ==>
            db == old(db) && replies == old(replies) + [InvalidPassRate])
      && (role == OwnerRole && Given(fee) && ParseInt(fee.value).Some? ==>
            var v := ParseInt(fee.value).value;
            db == old(db).(passRates := old(db).passRates[lotId := v])
            && replies == old(replies) + [PassRateSet(fee.value)]
            && QuotedPassRate(db, lotId) == (if v == 0 then DefaultPassRate else v))
    }

    method SetPassRate(fee: Option<string>)
      requires Valid()
      modifies this
      ensures PassRateHandled(fee)
      ensures Valid()
    {
      if role != OwnerRole {
        replies := replies + [OwnerOnlyCommand];
        return;
      }
      var v := if Given(fee) then ParseInt(fee.value) else None;
      if v.None? {
        replies := replies + [InvalidPassRate];
        return;
      }
      db := db.(passRates := db.passRates[lotId := v.value]);
      assert Valid();
      replies := replies + [PassRateSet(fee.value)];
    }

    /** `handleAddPass`: a valid vehicle number gets an ACTIVE pass for the
        given days, 30 by default, with the customer's number normalised,
        replacing any pass it had; the pass then counts as active up to its
        expiry and no longer. Days that are not a number make the expiry an
        invalid date, which the INSERT refuses. */
    twostate predicate OwnerPassAdded(vehicle: Option<string>, days: Option<string>, customer: Option<string>, now: int)
      requires old(Valid())
      reads this
    {
      state == old(state) && context == old(context)
      && (role != OwnerRole ==> db == old(db) && replies == old(replies) + [OwnerOnlyCommand])
      && (role == OwnerRole && !Given(vehicle) ==> db == old(db) && replies == old(replies) + [MissingPassVehicle])
      && (role == OwnerRole && Given(vehicle) && !IsValidVehicleNumber(vehicle.value) ==>
            db == old(db) && replies == old(replies) + [InvalidOwnerPassVehicle(vehicle.value)])
      && (role == OwnerRole && Given(vehicle) && IsValidVehicleNumber(vehicle.value) ==>
            var d := PassDays(days);
            (d.None? ==> db == old(db) && replies == old(replies) + [InternalError])
            && (d.Some? ==>
                  var expiry := PassExpiry(now, d.value);
                  var c := NormalizeOptional(customer);
                  db == old(db).(passes := old(db).passes[(lotId, vehicle.value) := Pass(expiry, true, c)])
                  && replies == old(replies) + [PassAdded(vehicle.value, expiry, QuotedPassRate(old(db), lotId), c)]
                  && forall t :: HasActivePass(db, lotId, vehicle.value, t) <==> t <= expiry))
    }

    method AddOwnerPass(vehicle: Option<string>, days: Option<string>, customer: Option<string>, now: int)
      requires Valid()
      modifies this
      ensures OwnerPassAdded(vehicle, days, customer, now)
      ensures Valid()
    {
      if role != OwnerRole {
        replies := replies + [OwnerOnlyCommand];
        return;
      }
      if !Given(vehicle) {
        replies := replies + [MissingPassVehicle];
        return;
      }
      if !IsValidVehicleNumber(vehicle.value) {
        replies := replies + [InvalidOwnerPassVehicle(vehicle.value)];
        return;
      }
      var rate := QuotedPassRate(db, lotId);
      var d := PassDays(days);
      if d.None? {
        replies := replies + [InternalError];
        return;
      }
      var expiry := PassExpiry(now, d.value);
      var c := NormalizeOptional(customer);
      db := db.(passes := db.passes[(lotId, vehicle.value) := Pass(expiry, true, c)]);
      replies := replies + [PassAdded(vehicle.value, expiry, rate, c)];
    }

    /** `handleRemovePass`: the vehicle the classifier named, or else the
        first valid vehicle number in the message, loses its ACTIVE pass,
        which is marked INACTIVE and expired a day ago; it then counts as
        active at no time. */
    twostate predicate OwnerPassRemoved(vehicle: Option<string>, text: string, now: int)
      requires old(Valid())
      reads this
    {
      state == old(state) && context == old(context)
      && (role != OwnerRole ==> db == old(db) && replies == old(replies) + [OwnerOnlyCommand])
      && (role == OwnerRole ==>
            var v := PassToRemove(vehicle, text);
            (v.None? ==> db == old(db) && replies == old(replies) + [NoPassVehicle])
            && (v.Some? && !PassStatusActive(old(db), lotId, v.value) ==>
                  db == old(db) && replies == old(replies) + [NoActivePass(v.value)])
            && (v.Some? && PassStatusActive(old(db), lotId, v.value) ==>
                  db == old(db).(passes := Revoke(old(db).passes, (lotId, v.value), now))
                  && replies == old(replies) + [PassRemoved(v.value)]
                  && forall t :: !HasActivePass(db, lotId, v.value, t)))
    }

    method RemoveOwnerPass(vehicle: Option<string>, text: string, now: int)
      requires Valid()
      modifies this
      ensures OwnerPassRemoved(vehicle, text, now)
      ensures Valid()
    {
      if role != OwnerRole {
        replies := replies + [OwnerOnlyCommand];
        return;
      }
      var v := PassToRemove(vehicle, text);
      if v.None? {
        replies := replies + [NoPassVehicle];
        return;
      }
      if !PassStatusActive(db, lotId, v.value) {
        replies := replies + [NoActivePass(v.value)];
        return;
      }
      db := db.(passes := Revoke(db.passes, (lotId, v.value), now));
      replies := replies + [PassRemoved(v.value)];
    }

    /** `handleRemoveAttendant`: the lot's attendants with the number named,
        by list position among the active ones or typed, are deactivated; by
        list position that lowers the lot's active count by one. */
    twostate predicate StaffRemovalHandled(identifier: Option<string>, roster: seq<int>)
      requires old(Valid()) && IsRoster(old(db).attendants, lotId, roster)
      reads this
    {
      state == old(state) && context == old(context)
      && (role != OwnerRole ==> db == old(db) && replies == old(replies) + [OwnerOnlyCommand])
      && (role == OwnerRole && !Given(identifier) ==>
            db == old(db) && replies == old(replies) + [MissingAttendantIdentifier])
      && (role == OwnerRole && Given(identifier) ==>
            var t := RemovalPhone(old(db).attendants, roster, identifier.value);
            (t.NoActiveAt? ==> db == old(db) && replies == old(replies) + [InvalidRemovalListNumber])
            && (t.BadRemovalPhone? ==> db == old(db) && replies == old(replies) + [InvalidPhoneFor(identifier.value)])
            && (t.ByPhone? && !HasPhoneIn(old(db).attendants, lotId, t.phone) ==>
                  db == old(db) && replies == old(replies) + [AttendantNumberNotFound(t.phone)])
            && (t.ByPhone? && HasPhoneIn(old(db).attendants, lotId, t.phone) ==>
                  db == old(db).(attendants := DeactivateByPhone(old(db).attendants, lotId, t.phone))
                  && replies == old(replies) + [AttendantDeactivated(t.phone)]
                  && (IsListNumber(identifier.value) ==>
                        ActiveCount(db.attendants, lotId) == ActiveCount(old(db).attendants, lotId) - 1)))
    }

    method RemoveAttendant(identifier: Option<string>, roster: seq<int>)
      requires Valid() && IsRoster(db.attendants, lotId, roster)
      modifies this
      ensures StaffRemovalHandled(identifier, roster)
      ensures Valid()
    {
      if role != OwnerRole {
        replies := replies + [OwnerOnlyCommand];
        return;
      }
      if !Given(identifier) {
        replies := replies + [MissingAttendantIdentifier];
        return;
      }
      RemovalPhoneSpec(db.attendants, lotId, roster, identifier.value);
      match RemovalPhone(db.attendants, roster, identifier.value) {
        case NoActiveAt => replies := replies + [InvalidRemovalListNumber];
        case BadRemovalPhone => replies := replies + [InvalidPhoneFor(identifier.value)];
        case ByPhone(p) =>
          FindByPhoneComplete(db.attendants, lotId, roster, p);
          var found := FindByPhone(db.attendants, roster, p);
          if found.None? {
            replies := replies + [AttendantNumberNotFound(p)];
          } else {
            DeactivateByPhoneIsDeactivate(db.attendants, lotId, found.value);
            FlagKeepsWellFormed(db, found.value, false);
            db := db.(attendants := DeactivateByPhone(db.attendants, lotId, p));
            replies := replies + [AttendantDeactivated(p)];
          }
      }
    }

    // ------------------------------------------------------------ router

    /** What the fast paths of `handleIdleUserCommands` leave behind, route by
        route: each has the effect of the handler it calls, and a usage hint
        is only a reply. */
    twostate predicate FastPathHandled(text: string, now: int)
      requires old(Valid())
      reads this
    {
      var route := Commands.ClassifyIdle(text);
      (route.ListVehicles? ==> VehiclesListed())
      && (route.Status? ==> StatusSent())
      && (route.Entry? ==> EntryHandled(route.vehicle, now))
      && (route.Checkout? ==> SharedCheckoutHandled(route.identifiers, now))
      && (route.OutUsage? ==>
            db == old(db) && state == old(state) && context == old(context) && replies == old(replies) + [OutUsage])
      && (route.StartPass? ==> PassMenuHandled(route.vehicle))
      && (route.PassUsage? ==>
            db == old(db) && state == old(state) && context == old(context) && replies == old(replies) + [PassUsage])
    }

    /** The fast paths of `handleIdleUserCommands`: the commands that need no
        classifier. None of them changes the lot's settings or staff. */
    method HandleFastPath(text: string, now: int)
      requires Valid() && !Commands.ClassifyIdle(text).AskClassifier?
      modifies this
      ensures FastPathHandled(text, now)
      ensures Valid() && SettingsKept(old(db), db)
    {
      match Commands.ClassifyIdle(text) {
        case ListVehicles => SharedListVehicles();
        case Status => SharedGetStatus();
        case Entry(v) => HandleInitialVehicleEntry(v, now);
        case Checkout(ids) => SharedVehicleCheckout(ids, now);
        case OutUsage => replies := replies + [OutUsage];
        case StartPass(v) => HandleStartPassCreation(v);
        case PassUsage => replies := replies + [PassUsage];
        case AskClassifier => assert false;
      }
    }

    /** What `handleIdleUserCommands` leaves behind: a fast path's effect, or
        for a message left for the classifier, its intent's effect. */
    twostate predicate IdleCommandHandled(text: string, intent: Intent, roster: seq<int>, now: int)
      requires old(Valid()) && IsRoster(old(db).attendants, lotId, roster)
      reads this
    {
      FastPathHandled(text, now)
      && (Commands.ClassifyIdle(text).AskClassifier? ==> IntentHandled(text, intent, roster, now))
    }

    /** `handleIdleUserCommands`: the fast paths first, then the classified
        intent. Only an owner's commands change the lot's settings or staff. */
    method HandleIdleUserCommands(text: string, intent: Intent, roster: seq<int>, now: int)
      requires Valid() && IsRoster(db.attendants, lotId, roster)
      modifies this
      ensures IdleCommandHandled(text, intent, roster, now)
      ensures Valid()
      ensures role != OwnerRole ==> SettingsKept(old(db), db)
      ensures Commands.ClassifyIdle(text).AskClassifier? && !Commands.RouteIntent(role, intent.name).OwnerHandler? ==>
        db == old(db) && state == old(state) && context == old(context)
    {
      if Commands.ClassifyIdle(text).AskClassifier? {
        HandleIntent(text, intent, roster, now);
      } else {
        HandleFastPath(text, now);
      }
    }

    /** What the classified half of `handleIdleUserCommands` leaves behind:
        a menu, help or refusal is only a reply, and an owner intent has the
        effect of the owner handler it names. */
    twostate predicate IntentHandled(text: string, intent: Intent, roster: seq<int>, now: int)
      requires old(Valid()) && IsRoster(old(db).attendants, lotId, roster)
      reads this
    {
      var r := Commands.RouteIntent(role, intent.name);
      (!r.OwnerHandler? ==> db == old(db) && state == old(state) && context == old(context))
      && (r.ShowMenu? ==> replies == old(replies) + [Menu(role)])
      && (r.GetHelp? ==> replies == old(replies) + [HelpList])
      && (r.OwnersOnly? ==> replies == old(replies) + [OwnersOnly])
      && (r.NotAvailable? ==> replies == old(replies) + [FeatureNotAvailable])
      && (r.Fallback? ==> replies == old(replies) + [Fallback(role, text)] + (if role == OwnerRole then [Menu(role)] else []))
      && (r.OwnerHandler? ==> OwnerHandlerRan(r.name, text, intent, roster, now))
    }

    /** The classified half of `handleIdleUserCommands`: menus, help and
        refusals are only replies; an owner intent runs its owner handler. */
    method HandleIntent(text: string, intent: Intent, roster: seq<int>, now: int)
      requires Valid() && IsRoster(db.attendants, lotId, roster)
      modifies this
      ensures Valid()
      ensures role != OwnerRole ==> db == old(db) && state == old(state) && context == old(context)
      ensures IntentHandled(text, intent, roster, now)
    {
      match Commands.RouteIntent(role, intent.name) {
        case ShowMenu => replies := replies + [Menu(role)];
        case GetHelp => replies := replies + [HelpList];
        case OwnersOnly => replies := replies + [OwnersOnly];
        case NotAvailable => replies := replies + [FeatureNotAvailable];
        case OwnerHandler(name) => RunOwnerHandler(name, text, intent, roster, now);
        case Fallback =>
          replies := replies + [Fallback(role, text)];
          if role == OwnerRole {
            replies := replies + [Menu(role)];
          }
      }
    }

    /** What `ownerHandlers[handlerName](...)` leaves behind: the effect of
        the handler named, with the intent's fields as its arguments; the
        handlers that only read (passes, report, rates and the attendant
        list) are recorded as called and change nothing. */
    twostate predicate OwnerHandlerRan(name: string, text: string, intent: Intent, roster: seq<int>, now: int)
      requires old(Valid()) && IsRoster(old(db).attendants, lotId, roster)
      reads this
    {
      (name == "handleSetPricingModel" ==> PricingModelHandled(intent.modelType))
      && (name == "handleSetTieredRate" ==> TieredRateHandled(intent.duration, intent.fee))
      && (name == "handleSetFlatRate" ==> FlatRateHandled(intent.rateType, intent.fee, intent.hours))
      && (name == "handleSetPassRate" ==> PassRateHandled(intent.fee))
      && (name == "handleAddPass" ==> OwnerPassAdded(intent.vehicleNumber, intent.durationDays, intent.customerNumber, now))
      && (name == "handleRemovePass" ==> OwnerPassRemoved(intent.vehicleNumber, text, now))
      && (name == "handleRemoveAttendant" ==> StaffRemovalHandled(intent.identifier, roster))
      && (name == "handleAddAttendant" ==> AttendantAddHandled(intent.attendantName, intent.attendantNumber))
      && (name == "handleManageAttendant" ==> ManageHandled(intent.identifier, roster))
      && (name == "handleActivateAttendant" ==> ActivationHandled(intent.identifier, roster))
      && (name !in WritingHandlers ==>
            db == old(db) && state == old(state) && context == old(context) && replies == old(replies) + [Delegated(name)])
    }

    /** `ownerHandlers[handlerName](from, user, params, messageText)` for an
        owner: every handler that writes runs; one that only reads is
        recorded as called. */
    method RunOwnerHandler(name: string, text: string, intent: Intent, roster: seq<int>, now: int)
      requires Valid() && IsRoster(db.attendants, lotId, roster)
      modifies this
      ensures OwnerHandlerRan(name, text, intent, roster, now)
      ensures Valid()
      ensures role != OwnerRole ==> SettingsKept(old(db), db)
    {
      if name == "handleSetPricingModel" {
        SetPricingModel(intent.modelType);
      } else if name == "handleSetTieredRate" {
        SetTieredRate(intent.duration, intent.fee);
      } else if name == "handleSetFlatRate" {
        SetFlatRate(intent.rateType, intent.fee, intent.hours);
      } else if name == "handleSetPassRate" {
        SetPassRate(intent.fee);
      } else if name == "handleAddPass" {
        AddOwnerPass(intent.vehicleNumber, intent.durationDays, intent.customerNumber, now);
      } else if name == "handleRemovePass" {
        RemoveOwnerPass(intent.vehicleNumber, text, now);
      } else if name == "handleRemoveAttendant" {
        RemoveAttendant(intent.identifier, roster);
      } else if name == "handleAddAttendant" {
        AddAttendant(intent.attendantName, intent.attendantNumber);
      } else if name == "handleManageAttendant" {
        ManageAttendant(intent.identifier, roster);
      } else if name == "handleActivateAttendant" {
        ActivateAttendant(intent.identifier, roster);
      } else {
        replies := replies + [Delegated(name)];
      }
    }

    /** What the parking and exit cases of `mainRouter` leave behind: the
        effect of the handler of the state the user waited in. */
    twostate predicate ParkingFlowContinued(text: string, now: int)
      requires old(Valid())
      reads this
    {
      var route := Commands.MainRoute(role, old(state), text);
      (route.CustomerNumberInput? ==>
         old(state) == AwaitingCustomerNumber && CustomerNumberHandled(text))
      && (route.ParkingConfirmation? ==>
            (old(state) == AwaitingPaymentType || old(state) == AwaitingParkingConfirmation)
            && ParkingConfirmationHandled(text, now))
      && (route.CheckoutConfirmed? ==>
            old(state) == AwaitingCheckoutConfirmation && old(context).vehicle.Some?
            && ExitOfferHandled([old(context).vehicle.value], now))
      && (route.ExitConfirmation? ==>
            old(state) == AwaitingExitConfirmation && ExitConfirmationHandled(text, now))
      && (route.ListExit? ==> ExitOfferHandled([text], now))
    }

    /** The cases of `mainRouter` that continue a parking or exit flow: the
        state's handler runs, and only Transactions and customer numbers change. */
    method ContinueParkingFlow(text: string, now: int)
      requires Valid()
      requires ParkingFlowRoute(Commands.MainRoute(role, state, text))
      modifies this
      ensures Valid() && SettingsKept(old(db), db) && db.passes == old(db).passes
      ensures ParkingFlowContinued(text, now)
    {
      match Commands.MainRoute(role, state, text) {
        case CustomerNumberInput => HandleCustomerNumberInput(text);
        case ParkingConfirmation => HandleParkingConfirmation(text, now);
        case CheckoutConfirmed => HandleInitialVehicleExit([context.vehicle.value], now);
        case ExitConfirmation => HandleExitConfirmation(text, now);
        case ListExit => HandleInitialVehicleExit([text], now);
      }
    }

    /** What the pass cases of `mainRouter` leave behind: the effect of the
        handler of the state the user waited in. */
    twostate predicate PassFlowContinued(text: string, now: int)
      requires old(Valid())
      reads this
    {
      var route := Commands.MainRoute(role, old(state), text);
      (route.PassTypeSelection? ==>
         old(state) == AwaitingPassTypeSelection && PassTypeHandled(text))
      && (route.PassCustomerNumberInput? ==>
            old(state) == AwaitingPassCustomerNumber && PassNumberHandled(text))
      && (route.PassFinalConfirmation? ==>
            old(state) == AwaitingPassPaymentConfirm && PassConfirmationHandled(text, now))
    }

    /** The cases of `mainRouter` that continue a pass sale: the state's
        handler runs, and only passes and customer numbers change. */
    method ContinuePassFlow(text: string, now: int)
      requires Valid()
      requires PassFlowRoute(Commands.MainRoute(role, state, text))
      modifies this
      ensures Valid() && SettingsKept(old(db), db) && db.transactions == old(db).transactions
      ensures PassFlowContinued(text, now)
    {
      match Commands.MainRoute(role, state, text) {
        case PassTypeSelection => HandlePassTypeSelection(text);
        case PassCustomerNumberInput => HandlePassCustomerNumberInput(text);
        case PassFinalConfirmation => HandlePassFinalConfirmation(text, now);
      }
    }

    /** The cases of `mainRouter` for a user waiting in a flow: the state's
        handler runs with its effect. */
    method ContinueWaitingFlow(text: string, now: int)
      requires Valid()
      requires var route := Commands.MainRoute(role, state, text);
        ParkingFlowRoute(route) || PassFlowRoute(route) || route.RemovalConfirmation?
      modifies this
      ensures var route := Commands.MainRoute(role, old(state), text);
        (ParkingFlowRoute(route) ==> ParkingFlowContinued(text, now))
        && (PassFlowRoute(route) ==> PassFlowContinued(text, now))
        && (route.RemovalConfirmation? ==> old(state) == AwaitingRemovalConfirmation && RemovalHandled(text))
      ensures Valid()
      ensures role != OwnerRole ==> SettingsKept(old(db), db)
    {
      var route := Commands.MainRoute(role, state, text);
      if ParkingFlowRoute(route) {
        ContinueParkingFlow(text, now);
      } else if PassFlowRoute(route) {
        ContinuePassFlow(text, now);
      } else {
        RemovalConfirmation(text);
      }
    }

    /** The cases of `mainRouter` that end or restart the conversation:
        cancelling, declining a checkout, a non-owner's removal reply and a
        state without a case end the flow without touching the tables; a list
        reply that is not a list number restarts it with the idle commands. */
    method EndOrRestart(text: string, intent: Intent, roster: seq<int>, now: int)
      requires Valid() && IsRoster(db.attendants, lotId, roster)
      requires EndingRoute(Commands.MainRoute(role, state, text))
      modifies this
      ensures var route := Commands.MainRoute(role, old(state), text);
        (route.CancelCommand? ==>
            db == old(db) && state == Idle && replies == old(replies) + [Cancelled]
            && context == (if old(state) == Idle then old(context) else EmptyContext))
        && (route.CheckoutDeclined? ==>
            db == old(db) && state == Idle && context == EmptyContext && replies == old(replies) + [ActionCancelled])
        && (route.RemovalRefused? ==>
            db == old(db) && state == Idle && context == EmptyContext && replies == old(replies) + [InvalidAction])
        && (route.ResetConversation? ==>
            db == old(db) && state == Idle && context == EmptyContext && replies == old(replies) + [Reset])
      ensures Valid()
      ensures role != OwnerRole ==> SettingsKept(old(db), db)
    {
      match Commands.MainRoute(role, state, text) {
        case CancelCommand =>
          if state != Idle {
            state, context := Idle, EmptyContext;
          }
          replies := replies + [Cancelled];
        case CheckoutDeclined =>
          state, context := Idle, EmptyContext;
          replies := replies + [ActionCancelled];
        case RemovalRefused =>
          state, context := Idle, EmptyContext;
          replies := replies + [InvalidAction];
        case ResetConversation =>
          state, context := Idle, EmptyContext;
          replies := replies + [Reset];
        case IdleAgain =>
          state, context := Idle, EmptyContext;
          HandleIdleUserCommands(text, intent, roster, now);
      }
    }

    /** `mainRouter`: one incoming message, dispatched as MainRoute decides.
        Cancelling, declining a checkout, a non-owner's removal reply and a
        state without a case each end the flow without touching the tables,
        and only an owner's commands change the lot's settings or staff. */
    method MainRouter(text: string, intent: Intent, roster: seq<int>, now: int)
      requires Valid() && IsRoster(db.attendants, lotId, roster)
      modifies this
      ensures Valid()
      ensures role != OwnerRole ==> SettingsKept(old(db), db)
      ensures var route := Commands.MainRoute(role, old(state), text);
        (route.CancelCommand? ==>
            db == old(db) && state == Idle && replies == old(replies) + [Cancelled]
            && context == (if old(state) == Idle then old(context) else EmptyContext))
        && (route.CheckoutDeclined? ==>
            db == old(db) && state == Idle && context == EmptyContext && replies == old(replies) + [ActionCancelled])
        && (route.RemovalRefused? ==>
            db == old(db) && state == Idle && context == EmptyContext && replies == old(replies) + [InvalidAction])
        && (route.ResetConversation? ==>
            db == old(db) && state == Idle && context == EmptyContext && replies == old(replies) + [Reset])
      ensures var route := Commands.MainRoute(role, old(state), text);
        (ParkingFlowRoute(route) ==> ParkingFlowContinued(text, now))
        && (PassFlowRoute(route) ==> PassFlowContinued(text, now))
        && (route.RemovalConfirmation? ==> old(state) == AwaitingRemovalConfirmation && RemovalHandled(text))
        && (route.IdleCommand? ==> IdleCommandHandled(text, intent, roster, now))
    {
      var route := Commands.MainRoute(role, state, text);
      if route.IdleCommand? {
        HandleIdleUserCommands(text, intent, roster, now);
      } else if EndingRoute(route) {
        EndOrRestart(text, intent, roster, now);
      } else {
        ContinueWaitingFlow(text, now);
      }
    }
  }
}

=== FILE: records.dfy ===
/** The tables the handlers read and write, the per-user conversation record,
    and the ordered row queries the handlers issue. A table is an in-memory
    collection: Transactions is a sequence whose positions are the
    transaction ids, Passes and Customers are maps keyed by (lot, vehicle). */
module Records {
  import opened Wrappers
  import Billing

  datatype VehicleState = Inside | Exited | Unrecorded

  /** A Transactions row. `vehicleState` is Unrecorded for rows written by the
      legacy check-in, whose INSERT does not name that column. */
  datatype Transaction = Transaction(
    lotId: int, attendantId: Option<int>, vehicle: string,
    startTime: int, endTime: Option<int>, status: string,
    vehicleState: VehicleState, totalFee: Option<int>, customer: Option<string>)

  /** A Passes row. */
  datatype Pass = Pass(expiry: int, active: bool, customer: Option<string>)

  /** A PassTypes row; the table is kept in `duration_days` order. */
  datatype PassType = PassType(lotId: int, name: string, fee: nat, durationDays: int)

  /** `ORDER BY duration_days ASC` holds of the PassTypes table as stored. */
  predicate DaysAscending(types: seq<PassType>) {
    forall i, j :: 0 <= i < j < |types| ==> types[i].durationDays <= types[j].durationDays
  }

  /** An Attendants row. */
  datatype Attendant = Attendant(lotId: int, name: string, phone: string, active: bool)

  /** The tables as maps and sequences; `passRates` is the `pass_rate`
      column of ParkingLots, a lot without a key having it NULL. */
  datatype Database = Database(
    lots: map<int, Billing.Lot>,
    rateCards: map<int, seq<Billing.Tier>>,
    passTypes: seq<PassType>,
    transactions: seq<Transaction>,
    passes: map<(int, string), Pass>,
    passRates: map<int, int>,
    customers: map<(int, string), string>,
    attendants: map<int, Attendant>,
    nextAttendantId: int,
    plans: map<int, string>)

  datatype Role = AttendantRole | OwnerRole

  /** The persisted `conversation_state`; a name the router has no case for is
      kept as it is. */
  datatype ConvState =
    | Idle
    | AwaitingCustomerNumber
    | AwaitingPaymentType
    | AwaitingParkingConfirmation
    | AwaitingCustomerNumberForReceipt
    | AwaitingCheckoutConfirmation
    | AwaitingExitConfirmation
    | AwaitingPassTypeSelection
    | AwaitingPassCustomerNumber
    | AwaitingPassPaymentConfirm
    | AwaitingRemovalConfirmation
    | AwaitingListCheckout
    | Unrecognised(name: string)

  /** The attendant row saved in the context while a removal is confirmed. */
  datatype AttendantRef = AttendantRef(id: int, name: string, phone: string)

  /** The persisted `conversation_context`; a key that is absent is None. */
  datatype Context = Context(
    vehicle: Option<string>, isPassHolder: bool, customer: Option<string>,
    entryFee: Option<int>, fee: Option<int>, transactionId: Option<nat>,
    passName: Option<string>, durationDays: Option<int>,
    attendantToRemove: Option<AttendantRef>)

  const EmptyContext: Context := Context(None, false, None, None, None, None, None, None, None)

  /** `{ vehicle_number }`. */
  function VehicleContext(v: string): Context {
    EmptyContext.(vehicle := Some(v))
  }

  // ---------------------------------------------------------------- lookups

  function LotRow(db: Database, lot: int): Option<Billing.Lot> {
    if lot in db.lots then Some(db.lots[lot]) else None
  }

  /** The rate card in `duration_hours` order; no rows is the empty card. */
  function RateCard(db: Database, lot: int): seq<Billing.Tier> {
    if lot in db.rateCards then db.rateCards[lot] else []
  }

  function StayOf(t: Transaction): Billing.Stay {
    Billing.Stay(t.startTime, t.totalFee)
  }

  /** `status = 'ACTIVE' AND expiry_date >= NOW()`. */
  predicate HasActivePass(db: Database, lot: int, vehicle: string, now: int) {
    (lot, vehicle) in db.passes && db.passes[(lot, vehicle)].active
      && db.passes[(lot, vehicle)].expiry >= now
  }

  function KnownCustomer(db: Database, lot: int, vehicle: string): Option<string> {
    if (lot, vehicle) in db.customers then Some(db.customers[(lot, vehicle)]) else None
  }

  // ---------------------------------------------------------------- ordered row queries

  /** The WHERE clauses the handlers filter Transactions by. */
  datatype Filter =
    | InsideIn(lot: int)
    | InsideAs(lot: int, vehicle: string)
    | ParkedIn(lot: int)
    | ParkedAs(lot: int, vehicle: string)

  predicate Matches(t: Transaction, f: Filter) {
    match f
    case InsideIn(lot) => t.lotId == lot && t.vehicleState == Inside
    case InsideAs(lot, v) => t.lotId == lot && t.vehicleState == Inside && t.vehicle == v
    case ParkedIn(lot) => t.lotId == lot && t.status == "PARKED"
    case ParkedAs(lot, v) => t.lotId == lot && t.status == "PARKED" && t.vehicle == v
  }

  /** The ids of the matching rows, oldest first. Rows are appended with
      `start_time = NOW()`, so table order is `ORDER BY start_time ASC`. */
  function Rows(txs: seq<Transaction>, f: Filter): (r: seq<nat>)
    ensures forall k :: 0 <= k < |r| ==> r[k] < |txs| && Matches(txs[r[k]], f)
    ensures forall i :: 0 <= i < |txs| && Matches(txs[i], f) ==> i in r
    ensures forall k, l :: 0 <= k < l < |r| ==> r[k] < r[l]
  {
    if |txs| == 0 then []
    else
      var front := Rows(txs[..|txs| - 1], f);
      if Matches(txs[|txs| - 1], f) then front + [|txs| - 1] else front
  }

  /** `ORDER BY start_time DESC LIMIT 1`: the newest matching row. */
  function Newest(txs: seq<Transaction>, f: Filter): (r: Option<nat>)
    ensures r.Some? ==> r.value < |txs| && Matches(txs[r.value], f)
  {
    var rows := Rows(txs, f);
    if |rows| == 0 then None else Some(rows[|rows| - 1])
  }

  /** `ORDER BY start_time ASC LIMIT 1 OFFSET n - 1`: the n-th matching row. */
  function Nth(txs: seq<Transaction>, f: Filter, n: int): (r: Option<nat>)
    ensures r.Some? ==> r.value < |txs| && Matches(txs[r.value], f)
  {
    var rows := Rows(txs, f);
    if 1 <= n <= |rows| then Some(rows[n - 1]) else None
  }

  /** The newest row is the matching row with no later matching row, and there
      is none exactly when no row matches. */
  lemma NewestSpec(txs: seq<Transaction>, f: Filter, k: nat)
    ensures Newest(txs, f) == Some(k) <==>
      k < |txs| && Matches(txs[k], f) && forall i :: k < i < |txs| ==> !Matches(txs[i], f)
    ensures Newest(txs, f).None? <==> forall i :: 0 <= i < |txs| ==> !Matches(txs[i], f)
  {
  }

  /** A new row joins the end of every list it matches and leaves the others alone. */
  lemma RowsAppend(txs: seq<Transaction>, t: Transaction, f: Filter)
    ensures Rows(txs + [t], f) == Rows(txs, f) + (if Matches(t, f) then [|txs|] else [])
  {
    assert (txs + [t])[..|txs|] == txs;
  }

  // ---------------------------------------------------------------- table invariants

  /** No two INSIDE rows share a lot and a vehicle number. */
  predicate OneInsidePerVehicle(txs: seq<Transaction>) {
    forall i, j :: 0 <= i < j < |txs| && txs[i].vehicleState == Inside && txs[j].vehicleState == Inside ==>
      txs[i].lotId != txs[j].lotId || txs[i].vehicle != txs[j].vehicle
  }

  predicate NotInside(txs: seq<Transaction>, lot: int, vehicle: string) {
    forall i :: 0 <= i < |txs| ==> !Matches(txs[i], InsideAs(lot, vehicle))
  }

  lemma FirstTwoRows(txs: seq<Transaction>, f: Filter)
    ensures var rows := Rows(txs, f);
      |rows| > 1 ==> (rows[0] < rows[1] && rows[1] < |txs|
        && Matches(txs[rows[0]], f) && Matches(txs[rows[1]], f))
  {
  }

  /** While the invariant holds, a vehicle is inside at most once, so the
      newest INSIDE row for it is its only one. */
  lemma InsideAtMostOnce(txs: seq<Transaction>, lot: int, vehicle: string)
    requires OneInsidePerVehicle(txs)
    ensures |Rows(txs, InsideAs(lot, vehicle))| <= 1
  {
    FirstTwoRows(txs, InsideAs(lot, vehicle));
  }

  /** Appending an INSIDE row for a vehicle that is not inside keeps the invariant. */
  lemma AppendInsideKeepsOne(txs: seq<Transaction>, t: Transaction)
    requires OneInsidePerVehicle(txs) && NotInside(txs, t.lotId, t.vehicle)
    ensures OneInsidePerVehicle(txs + [t])
  {
    var s := txs + [t];
    forall i, j | 0 <= i < j < |s| && s[i].vehicleState == Inside && s[j].vehicleState == Inside
      && s[i].lotId == s[j].lotId
      ensures s[i].vehicle != s[j].vehicle
    {
      if j == |txs| {
        assert !Matches(txs[i], InsideAs(t.lotId, t.vehicle));
      }
    }
  }

  /** Rewriting a row so that it is not INSIDE keeps the invariant. */
  lemma LeaveKeepsOne(txs: seq<Transaction>, k: nat, t: Transaction)
    requires OneInsidePerVehicle(txs) && k < |txs| && t.vehicleState != Inside
    ensures OneInsidePerVehicle(txs[k := t])
  {
  }

  /** Parking a vehicle that is not inside leaves exactly one INSIDE row for
      it, the new one, and keeps the invariant. */
  lemma ParkingLeavesOneInside(txs: seq<Transaction>, t: Transaction)
    requires OneInsidePerVehicle(txs) && NotInside(txs, t.lotId, t.vehicle) && t.vehicleState == Inside
    ensures OneInsidePerVehicle(txs + [t])
    ensures Rows(txs + [t], InsideAs(t.lotId, t.vehicle)) == [|txs|]
  {
    AppendInsideKeepsOne(txs, t);
    NoRowsWhenNotInside(txs, t.lotId, t.vehicle);
    RowsAppend(txs, t, InsideAs(t.lotId, t.vehicle));
  }

  lemma NoRowsWhenNotInside(txs: seq<Transaction>, lot: int, vehicle: string)
    requires NotInside(txs, lot, vehicle)
    ensures Rows(txs, InsideAs(lot, vehicle)) == []
  {
  }

  /** Rewriting a row without touching its lot, vehicle or vehicle state keeps the invariant. */
  lemma SamePlaceKeepsOne(txs: seq<Transaction>, k: nat, t: Transaction)
    requires OneInsidePerVehicle(txs) && k < |txs|
    requires t.lotId == txs[k].lotId && t.vehicle == txs[k].vehicle && t.vehicleState == txs[k].vehicleState
    ensures OneInsidePerVehicle(txs[k := t])
  {
  }

  /** The new table has every old row in place and no INSIDE row that was not
      already INSIDE, for the same lot and vehicle, in the old one. */
  predicate NoNewInside(txs: seq<Transaction>, txs': seq<Transaction>) {
    |txs| <= |txs'|
    && forall i :: 0 <= i < |txs'| && txs'[i].vehicleState == Inside ==>
         i < |txs| && txs[i].vehicleState == Inside && txs[i].lotId == txs'[i].lotId && txs[i].vehicle == txs'[i].vehicle
  }

  /** A change that creates no INSIDE row keeps the invariant, and a vehicle
      that was not inside is still not inside. */
  lemma NoNewInsideKeeps(txs: seq<Transaction>, txs': seq<Transaction>)
    requires NoNewInside(txs, txs')
    ensures OneInsidePerVehicle(txs) ==> OneInsidePerVehicle(txs')
    ensures forall lot, v :: NotInside(txs, lot, v) ==> NotInside(txs', lot, v)
  {
    forall lot, v | NotInside(txs, lot, v)
      ensures NotInside(txs', lot, v)
    {
      forall i | 0 <= i < |txs'|
        ensures !Matches(txs'[i], InsideAs(lot, v))
      {
        if txs'[i].vehicleState == Inside {
          assert !Matches(txs[i], InsideAs(lot, v));
        }
      }
    }
  }

  /** The invariants every table keeps whatever the conversation. */
  ghost predicate WellFormed(db: Database) {
    && OneInsidePerVehicle(db.transactions)
    && (forall lot :: lot in db.rateCards ==> Billing.KeyedByDuration(db.rateCards[lot]))
    && DaysAscending(db.passTypes)
    && (forall id :: id in db.attendants ==> id < db.nextAttendantId)
    && PhonesUnique(db.attendants)
  }

  /** The unique constraint on `whatsapp_number`. */
  predicate PhonesUnique(attendants: map<int, Attendant>) {
    forall a, b :: a in attendants && b in attendants && a != b ==> attendants[a].phone != attendants[b].phone
  }

  /** Parking a vehicle that is not inside keeps the database well formed. */
  lemma ParkingKeepsWellFormed(db: Database, t: Transaction)
    requires WellFormed(db) && NotInside(db.transactions, t.lotId, t.vehicle) && t.vehicleState == Inside
    ensures WellFormed(db.(transactions := db.transactions + [t]))
    ensures Rows(db.transactions + [t], InsideAs(t.lotId, t.vehicle)) == [|db.transactions|]
  {
    ParkingLeavesOneInside(db.transactions, t);
  }

  /** Rewriting one row keeps every INSIDE row in place unless the new row is
      not inside, or is the same lot and vehicle still inside. */
  lemma RewriteIsNoNewInside(txs: seq<Transaction>, k: nat, t: Transaction)
    requires k < |txs|
    requires t.vehicleState == Inside ==>
      txs[k].vehicleState == Inside && t.lotId == txs[k].lotId && t.vehicle == txs[k].vehicle
    ensures NoNewInside(txs, txs[k := t])
  {
  }

  /** A change of Transactions that creates no INSIDE row keeps the database well formed. */
  lemma NoNewInsideKeepsWellFormed(db: Database, txs': seq<Transaction>)
    requires WellFormed(db) && NoNewInside(db.transactions, txs')
    ensures WellFormed(db.(transactions := txs'))
  {
    NoNewInsideKeeps(db.transactions, txs');
  }

  /** A row that is not inside can be appended without creating an INSIDE row. */
  lemma AppendOutsideIsNoNewInside(txs: seq<Transaction>, t: Transaction)
    requires t.vehicleState != Inside
    ensures NoNewInside(txs, txs + [t])
  {
  }

  /** A new attendant under the next id, with a number nobody has, keeps the
      database well formed. */
  lemma HiringKeepsWellFormed(db: Database, a: Attendant)
    requires WellFormed(db)
    requires forall id :: id in db.attendants ==> db.attendants[id].phone != a.phone
    ensures WellFormed(db.(attendants := db.attendants[db.nextAttendantId := a], nextAttendantId := db.nextAttendantId + 1))
  {
  }

  /** Changing an attendant's active flag keeps the database well formed. */
  lemma FlagKeepsWellFormed(db: Database, id: int, active: bool)
    requires WellFormed(db) && id in db.attendants
    ensures WellFormed(db.(attendants := db.attendants[id := db.attendants[id].(active := active)]))
  {
  }

  /** Deleting an attendant, with Transactions changed without creating an
      INSIDE row, keeps the database well formed. */
  lemma DismissalKeepsWellFormed(db: Database, id: int, txs': seq<Transaction>)
    requires WellFormed(db) && NoNewInside(db.transactions, txs')
    ensures WellFormed(db.(transactions := txs', attendants := db.attendants - {id}))
  {
    NoNewInsideKeeps(db.transactions, txs');
  }
}

=== FILE: shared_rules.dfy ===
/** The legacy handlers of handlers/sharedHandlers.js, which track parked
    vehicles by `status = 'PARKED'`: identifier resolution and de-duplication
    for checkout, the hourly checkout of one vehicle, and the check-in guard. */
module SharedRules {
  import opened Wrappers
  import opened Text
  import opened Validators
  import opened Records
  import opened Messages
  import Billing

  /** The vehicle numbers of the lot's PARKED rows, oldest first. */
  function ParkedVehicles(txs: seq<Transaction>, lot: int): (vs: seq<string>)
    ensures |vs| == |Rows(txs, ParkedIn(lot))|
  {
    var rows := Rows(txs, ParkedIn(lot));
    seq(|rows|, k requires 0 <= k < |rows| => txs[rows[k]].vehicle)
  }

  datatype Resolution = ToCheckOut(vehicle: string) | BadListNumber(n: int) | BadVehicle(identifier: string)

  /** What one checkout identifier names against the parked list. */
  function LegacyResolve(parked: seq<string>, identifier: string): Resolution {
    var n := ParseInt(identifier);
    if n.Some? && n.value > 0 then
      if |parked| >= n.value then ToCheckOut(parked[n.value - 1]) else BadListNumber(n.value)
    else
      var u := ToUpper(identifier);
      if IsValidVehicleNumber(u) then ToCheckOut(u) else BadVehicle(identifier)
  }

  /** A list number is never read as a plate and names a parked vehicle or is
      warned about; otherwise a plate in any letter case names its upper-case
      form, and anything else is warned about. */
  lemma LegacyResolveSpec(parked: seq<string>, identifier: string)
    ensures IsListNumber(identifier) ==>
      var n := ParseInt(identifier).value;
      LegacyResolve(parked, identifier) == (if n <= |parked| then ToCheckOut(parked[n - 1]) else BadListNumber(n))
    ensures !IsListNumber(identifier) ==>
      (IsValidVehicleNumber(identifier) <==> LegacyResolve(parked, identifier).ToCheckOut?)
    ensures !IsListNumber(identifier) && IsValidVehicleNumber(identifier) ==>
      LegacyResolve(parked, identifier) == ToCheckOut(ToUpper(identifier))
  {
    ValidCaseInsensitive(identifier);
  }

  // ---------------------------------------------------------------- de-duplication

  predicate NoDup(vs: seq<string>) {
    forall i, j :: 0 <= i < j < |vs| ==> vs[i] != vs[j]
  }

  /** `set.add(v)` on a Set kept as its insertion order. */
  function AddOnce(vs: seq<string>, v: string): seq<string> {
    if v in vs then vs else vs + [v]
  }

  /** `Array.from(new Set(vs))`: each value once, in order of first occurrence. */
  function Distinct(vs: seq<string>): seq<string> {
    if |vs| == 0 then [] else AddOnce(Distinct(vs[..|vs| - 1]), vs[|vs| - 1])
  }

  /** Reading one more identifier: a vehicle it names is added once, any
      other identifier adds its warning. */
  lemma ResolveStep(parked: seq<string>, ids: seq<string>, i: nat)
    requires i < |ids|
    ensures var r := LegacyResolve(parked, ids[i]);
      var chosen, warnings := Distinct(Targets(parked, ids[..i])), Warnings(parked, ids[..i]);
      (r.ToCheckOut? ==> Distinct(Targets(parked, ids[..i + 1])) == AddOnce(chosen, r.vehicle)
                         && Warnings(parked, ids[..i + 1]) == warnings)
      && (r.BadListNumber? ==> Distinct(Targets(parked, ids[..i + 1])) == chosen
                               && Warnings(parked, ids[..i + 1]) == warnings + [BadListNumberWarning(r.n)])
      && (r.BadVehicle? ==> Distinct(Targets(parked, ids[..i + 1])) == chosen
                            && Warnings(parked, ids[..i + 1]) == warnings + [BadVehicleWarning(r.identifier)])
  {
    assert ids[..i + 1][..i] == ids[..i];
    var front := Targets(parked, ids[..i]);
    var r := LegacyResolve(parked, ids[i]);
    if r.ToCheckOut? {
      assert (front + [r.vehicle])[..|front|] == front;
    }
  }

  /** The de-duplicated list has no repeats and the same members, and a list
      without repeats comes back unchanged, order included. */
  lemma {:induction false} DistinctSpec(vs: seq<string>)
    ensures NoDup(Distinct(vs))
    ensures forall v :: v in Distinct(vs) <==> v in vs
    ensures NoDup(vs) ==> Distinct(vs) == vs
  {
    if |vs| > 0 {
      var front := vs[..|vs| - 1];
      DistinctSpec(front);
      assert vs == front + [vs[|vs| - 1]];
      if NoDup(vs) {
        assert NoDup(front);
        assert vs[|vs| - 1] !in front;
      }
    }
  }

  /** The vehicles the identifiers name, in order, repeats kept. */
  function Targets(parked: seq<string>, ids: seq<string>): seq<string> {
    if |ids| == 0 then []
    else
      var front := Targets(parked, ids[..|ids| - 1]);
      match LegacyResolve(parked, ids[|ids| - 1])
      case ToCheckOut(v) => front + [v]
      case _ => front
  }

  /** The warnings sent while resolving, in order. */
  function Warnings(parked: seq<string>, ids: seq<string>): seq<Reply> {
    if |ids| == 0 then []
    else
      var front := Warnings(parked, ids[..|ids| - 1]);
      match LegacyResolve(parked, ids[|ids| - 1])
      case ToCheckOut(_) => front
      case BadListNumber(n) => front + [BadListNumberWarning(n)]
      case BadVehicle(id) => front + [BadVehicleWarning(id)]
  }

  /** Every identifier is either resolved to a vehicle or warned about. */
  lemma {:induction false} EveryIdentifierAccounted(parked: seq<string>, ids: seq<string>)
    ensures |Targets(parked, ids)| + |Warnings(parked, ids)| == |ids|
  {
    if |ids| > 0 {
      EveryIdentifierAccounted(parked, ids[..|ids| - 1]);
    }
  }

  // ---------------------------------------------------------------- one vehicle

  function HourlyRate(db: Database, lot: int): int {
    match LotRow(db, lot)
    case None => 0
    case Some(l) => l.hourlyRate
  }

  /** `checkoutSingleVehicle`: the newest PARKED row of the vehicle is closed as
      a pass exit, or billed by the hour; the result is the table afterwards
      and the message sent. */
  function CheckoutOne(db: Database, lot: int, v: string, now: int): (Database, Reply) {
    var txs := db.transactions;
    match Newest(txs, ParkedAs(lot, v))
    case None => (db, Skipped(v))
    case Some(k) =>
      var t := txs[k];
      if HasActivePass(db, lot, v, now) then
        (db.(transactions := txs[k := t.(endTime := Some(now), status := "COMPLETED_PASS")]), PassExitLogged(v))
      else
        var rate := HourlyRate(db, lot);
        if rate == 0 then (db, RateNotSet(v))
        else
          var fee := Billing.LegacyHourlyFee(t.startTime, now, rate);
          (db.(transactions := txs[k := t.(endTime := Some(now), totalFee := Some(fee), status := "COMPLETED_CASH")]),
           FeeLogged(v, fee))
  }

  /** Only the vehicle's newest PARKED row is written, and it keeps its lot,
      vehicle, start and vehicle state. A pass holder's row is closed without
      a fee; otherwise, when the lot has an hourly rate, the fee written is
      what the billing engine's HOURLY model charges for the stay. Nothing is
      written for a vehicle with no PARKED row or a lot without a rate. */
  lemma CheckoutOneSpec(db: Database, lot: int, v: string, now: int)
    ensures var (after, _) := CheckoutOne(db, lot, v, now);
      var txs := db.transactions;
      after == db.(transactions := after.transactions) && |after.transactions| == |txs|
      && (Newest(txs, ParkedAs(lot, v)).None? ==> after == db)
      && (forall i :: 0 <= i < |txs| && after.transactions[i] != txs[i] ==> Newest(txs, ParkedAs(lot, v)) == Some(i))
      && (Newest(txs, ParkedAs(lot, v)).Some? ==>
            var k := Newest(txs, ParkedAs(lot, v)).value;
            var t, t' := txs[k], after.transactions[k];
            t'.lotId == t.lotId && t'.vehicle == t.vehicle && t'.startTime == t.startTime
            && t'.vehicleState == t.vehicleState
            && (HasActivePass(db, lot, v, now) ==> t'.status == "COMPLETED_PASS" && t'.totalFee == t.totalFee)
            && (!HasActivePass(db, lot, v, now) && HourlyRate(db, lot) == 0 ==> after == db)
            && (!HasActivePass(db, lot, v, now) && HourlyRate(db, lot) != 0 ==>
                  t'.status == "COMPLETED_CASH"
                  && t'.totalFee == Some(Billing.TotalBill(LotRow(db, lot).value.(pricingModel := "HOURLY"),
                       RateCard(db, lot), Billing.ElapsedHours(t.startTime, now)))))
  {
    match Newest(db.transactions, ParkedAs(lot, v)) {
      case None =>
      case Some(k) =>
        if !HasActivePass(db, lot, v, now) && HourlyRate(db, lot) != 0 {
          var l := LotRow(db, lot).value;
          Billing.LegacyFeeIsHourlyBill(l.(pricingModel := "HOURLY"), RateCard(db, lot), db.transactions[k].startTime, now);
        }
    }
  }

  /** The vehicles checked out one after another, oldest mention first. */
  function CheckoutAll(db: Database, lot: int, vs: seq<string>, now: int): (Database, seq<Reply>) {
    if |vs| == 0 then (db, [])
    else
      var (d, rs) := CheckoutAll(db, lot, vs[..|vs| - 1], now);
      var (d', r) := CheckoutOne(d, lot, vs[|vs| - 1], now);
      (d', rs + [r])
  }

  /** One more vehicle is checked out against the table the others left. */
  lemma CheckoutAllStep(db: Database, lot: int, vs: seq<string>, v: string, now: int)
    ensures var (d, rs) := CheckoutAll(db, lot, vs, now);
      CheckoutAll(db, lot, vs + [v], now) == (CheckoutOne(d, lot, v, now).0, rs + [CheckoutOne(d, lot, v, now).1])
  {
    assert (vs + [v])[..|vs|] == vs;
  }

  /** Checking vehicles out writes Transactions only and never moves a row
      in or out of the lot, so no vehicle becomes inside twice. */
  lemma {:induction false} CheckoutAllKeepsTables(db: Database, lot: int, vs: seq<string>, now: int)
    requires OneInsidePerVehicle(db.transactions)
    ensures var (after, rs) := CheckoutAll(db, lot, vs, now);
      after == db.(transactions := after.transactions)
      && |after.transactions| == |db.transactions| && |rs| == |vs|
      && OneInsidePerVehicle(after.transactions)
  {
    if |vs| > 0 {
      CheckoutAllKeepsTables(db, lot, vs[..|vs| - 1], now);
      var (d, rs) := CheckoutAll(db, lot, vs[..|vs| - 1], now);
      CheckoutOneSpec(d, lot, vs[|vs| - 1], now);
      var (d', r) := CheckoutOne(d, lot, vs[|vs| - 1], now);
      match Newest(d.transactions, ParkedAs(lot, vs[|vs| - 1])) {
        case None =>
        case Some(k) =>
          SamePlaceKeepsOne(d.transactions, k, d'.transactions[k]);
          assert d'.transactions == d.transactions[k := d'.transactions[k]];
      }
    }
  }

  // ---------------------------------------------------------------- check-in

  /** Why `handleVehicleCheckIn` refuses, or None when it inserts. */
  function CheckInRefusal(db: Database, lot: int, vehicle: Option<string>): Option<Reply> {
    match vehicle
    case None => Some(NoCheckInVehicle)
    case Some(v) =>
      if v == "" then Some(NoCheckInVehicle)
      else if !IsValidVehicleNumber(v) then Some(InvalidCheckInVehicle(v))
      else if |Rows(db.transactions, ParkedAs(lot, v))| > 0 then Some(AlreadyMarkedParked(v))
      else None
  }

  /** The row the legacy check-in inserts: attendant only for the attendant role. */
  function CheckInRow(role: Role, userId: int, lot: int, v: string, customer: Option<string>, now: int): Transaction {
    Transaction(lot, if role == AttendantRole then Some(userId) else None, v, now, None, "PARKED",
      Unrecorded, None, NormalizeOptional(customer))
  }

  /** An accepted check-in is for a valid vehicle number and leaves exactly one
      PARKED row for that vehicle in the lot. */
  lemma CheckInLeavesOneParked(db: Database, lot: int, v: string, role: Role, userId: int,
                               customer: Option<string>, now: int)
    requires CheckInRefusal(db, lot, Some(v)).None?
    ensures IsValidVehicleNumber(v)
    ensures |Rows(db.transactions + [CheckInRow(role, userId, lot, v, customer, now)], ParkedAs(lot, v))| == 1
  {
    RowsAppend(db.transactions, CheckInRow(role, userId, lot, v, customer, now), ParkedAs(lot, v));
  }
}

=== FILE: text.dfy ===
/** String primitives of the JavaScript runtime that the handlers rely on,
    restricted to what the parking core needs: ASCII case mapping, white space,
    trimming, splitting, substring tests and `parseInt`. */
module Text {
  import opened Wrappers

  predicate IsDigit(c: char) { '0' <= c <= '9' }
  predicate IsUpper(c: char) { 'A' <= c <= 'Z' }
  predicate IsLower(c: char) { 'a' <= c <= 'z' }

  predicate AllDigits(s: string) { forall i :: 0 <= i < |s| ==> IsDigit(s[i]) }
  predicate AllUpper(s: string) { forall i :: 0 <= i < |s| ==> IsUpper(s[i]) }

  /** White space as `trim`, `\s` and `parseInt` see it, restricted to ASCII. */
  predicate IsSpace(c: char) {
    c == ' ' || c == '\t' || c == '\n' || c == '\r' || c == '\U{000B}' || c == '\U{000C}'
  }

  // ---------------------------------------------------------------- case

  /** The upper-case letter sits 32 code points below its lower-case one. */
  function UpperChar(c: char): (u: char)
    ensures IsLower(c) ==> IsUpper(u) && u as int == c as int - 32
    ensures !IsLower(c) ==> u == c
  {
    if IsLower(c) then (c as int - 32) as char else c
  }

  function LowerChar(c: char): (l: char)
    ensures IsUpper(c) ==> IsLower(l) && l as int == c as int + 32
    ensures !IsUpper(c) ==> l == c
  {
    if IsUpper(c) then (c as int + 32) as char else c
  }

  /** `toUpperCase` on the ASCII letters; every other character is kept. */
  function ToUpper(s: string): (u: string)
    ensures |u| == |s|
    ensures forall i :: 0 <= i < |s| ==> u[i] == UpperChar(s[i])
  {
    seq(|s|, i requires 0 <= i < |s| => UpperChar(s[i]))
  }

  /** `toLowerCase` on the ASCII letters. */
  function ToLower(s: string): (l: string)
    ensures |l| == |s|
    ensures forall i :: 0 <= i < |s| ==> l[i] == LowerChar(s[i])
  {
    seq(|s|, i requires 0 <= i < |s| => LowerChar(s[i]))
  }

  lemma ToUpperIdempotent(s: string)
    ensures ToUpper(ToUpper(s)) == ToUpper(s)
  {
  }

  // ---------------------------------------------------------------- white space

  function TrimStart(s: string): (t: string)
    ensures |t| <= |s| && t == s[|s| - |t|..]
    ensures |t| > 0 ==> !IsSpace(t[0])
    ensures forall i :: 0 <= i < |s| - |t| ==> IsSpace(s[i])
  {
    if |s| > 0 && IsSpace(s[0]) then TrimStart(s[1..]) else s
  }

  function TrimEnd(s: string): (t: string)
    ensures |t| <= |s| && t == s[..|t|]
    ensures |t| > 0 ==> !IsSpace(t[|t| - 1])
    ensures forall i :: |t| <= i < |s| ==> IsSpace(s[i])
  {
    if |s| > 0 && IsSpace(s[|s| - 1]) then TrimEnd(s[..|s| - 1]) else s
  }

  /** `String.prototype.trim`. */
  function Trim(s: string): string {
    TrimEnd(TrimStart(s))
  }

  /** `s.replace(/\s/g, '')`. */
  function RemoveSpaces(s: string): (r: string)
    ensures |r| <= |s|
    ensures forall i :: 0 <= i < |r| ==> !IsSpace(r[i])
    ensures |s| == 1 ==> r == (if IsSpace(s[0]) then "" else s)
  {
    if |s| == 0 then ""
    else (if IsSpace(s[0]) then "" else [s[0]]) + RemoveSpaces(s[1..])
  }

  /** Removing white space works piece by piece, so the characters kept stay
      in their order. */
  lemma {:induction false} RemoveSpacesAppend(a: string, b: string)
    ensures RemoveSpaces(a + b) == RemoveSpaces(a) + RemoveSpaces(b)
  {
    if |a| == 0 {
      assert a + b == b;
    } else {
      assert (a + b)[1..] == a[1..] + b;
      RemoveSpacesAppend(a[1..], b);
    }
  }

  // ---------------------------------------------------------------- prefixes and substrings

  predicate StartsWith(s: string, prefix: string) {
    |prefix| <= |s| && s[..|prefix|] == prefix
  }

  /** `s.includes(sub)`: some position of `s` starts with `sub`. */
  predicate Contains(s: string, sub: string)
    decreases |s|
  {
    StartsWith(s, sub) || (|s| > 0 && Contains(s[1..], sub))
  }

  lemma {:induction false} ContainsAt(s: string, sub: string, i: nat)
    requires i + |sub| <= |s| && s[i..i + |sub|] == sub
    ensures Contains(s, sub)
    decreases i
  {
    if i > 0 {
      assert s[1..][i - 1..i - 1 + |sub|] == sub;
      ContainsAt(s[1..], sub, i - 1);
    } else {
      assert s[..|sub|] == sub;
    }
  }

  /** A text lacking one of another's characters does not contain it. */
  lemma LacksCharNotContains(s: string, sub: string, k: nat)
    requires k < |sub| && sub[k] !in s
    ensures !Contains(s, sub)
  {
    if Contains(s, sub) {
      ContainsHasChars(s, sub, k);
    }
  }

  /** Every character of a contained text occurs in the containing one. */
  lemma {:induction false} ContainsHasChars(s: string, sub: string, k: nat)
    requires Contains(s, sub) && k < |sub|
    ensures sub[k] in s
    decreases |s|
  {
    if StartsWith(s, sub) {
      assert s[k] == sub[k];
    } else {
      ContainsHasChars(s[1..], sub, k);
      var j :| 0 <= j < |s[1..]| && s[1..][j] == sub[k];
      assert s[j + 1] == sub[k];
    }
  }

  // ---------------------------------------------------------------- split and join

  /** `s.split(sep)` for a one-character separator: always at least one piece. */
  function Split(s: string, sep: char): (parts: seq<string>)
    ensures |parts| >= 1
    ensures forall k, i :: 0 <= k < |parts| && 0 <= i < |parts[k]| ==> parts[k][i] != sep
  {
    if |s| == 0 then [""]
    else
      var rest := Split(s[1..], sep);
      if s[0] == sep then [""] + rest else [[s[0]] + rest[0]] + rest[1..]
  }

  /** `parts.join(sep)`. */
  function Join(parts: seq<string>, sep: string): string {
    if |parts| == 0 then ""
    else if |parts| == 1 then parts[0]
    else parts[0] + sep + Join(parts[1..], sep)
  }

  /** Splitting and re-joining with the same separator gives back the text. */
  lemma {:induction false} SplitJoin(s: string, sep: char)
    ensures Join(Split(s, sep), [sep]) == s
  {
    if |s| > 0 {
      var rest := Split(s[1..], sep);
      SplitJoin(s[1..], sep);
      if s[0] == sep {
        assert Split(s, sep) == [""] + rest;
        assert Join([""] + rest, [sep]) == "" + [sep] + Join(rest, [sep]);
        assert s == [s[0]] + s[1..];
      } else {
        var parts := [[s[0]] + rest[0]] + rest[1..];
        assert Split(s, sep) == parts;
        if |rest| == 1 {
          assert Join(parts, [sep]) == [s[0]] + rest[0];
          assert s == [s[0]] + s[1..];
        } else {
          assert parts[1..] == rest[1..];
          assert Join(rest, [sep]) == rest[0] + [sep] + Join(rest[1..], [sep]);
          assert Join(parts, [sep]) == [s[0]] + rest[0] + [sep] + Join(rest[1..], [sep]);
          assert s == [s[0]] + s[1..];
        }
      }
    }
  }

  /** `parts.filter(p => p)`: the empty strings removed, order kept. */
  function NonEmpty(parts: seq<string>): (r: seq<string>)
    ensures |r| <= |parts|
    ensures forall k :: 0 <= k < |r| ==> r[k] != "" && r[k] in parts
    ensures forall p :: p in parts && p != "" ==> p in r
    ensures |parts| == 1 ==> r == (if parts[0] == "" then [] else parts)
  {
    if |parts| == 0 then []
    else (if parts[0] == "" then [] else [parts[0]]) + NonEmpty(parts[1..])
  }

  /** Filtering works piece by piece, so the pieces kept stay in their order. */
  lemma {:induction false} NonEmptyAppend(a: seq<string>, b: seq<string>)
    ensures NonEmpty(a + b) == NonEmpty(a) + NonEmpty(b)
  {
    if |a| == 0 {
      assert a + b == b;
    } else {
      assert (a + b)[1..] == a[1..] + b;
      NonEmptyAppend(a[1..], b);
    }
  }

  // ---------------------------------------------------------------- numbers

  function DigitValue(c: char): nat
    requires IsDigit(c)
  {
    c as int - '0' as int
  }

  function DigitChar(n: nat): (c: char)
    requires n < 10
    ensures IsDigit(c) && DigitValue(c) == n
  {
    ('0' as int + n) as char
  }

  /** The value of a string of decimal digits. */
  function DecimalValue(d: string): nat
    requires AllDigits(d)
  {
    if |d| == 0 then 0 else DecimalValue(d[..|d| - 1]) * 10 + DigitValue(d[|d| - 1])
  }

  /** `n.toString()` for a natural number. */
  function Decimal(n: nat): (d: string)
    ensures |d| >= 1 && AllDigits(d)
  {
    if n < 10 then [DigitChar(n)] else Decimal(n / 10) + [DigitChar(n % 10)]
  }

  /** A digit string as `toString` prints it: no leading zero except "0" itself. */
  predicate Canonical(d: string) {
    |d| >= 1 && AllDigits(d) && (d[0] == '0' ==> |d| == 1)
  }

  lemma {:induction false} DecimalIsCanonical(n: nat)
    ensures Canonical(Decimal(n))
    ensures n > 0 ==> Decimal(n)[0] != '0'
  {
    if n >= 10 {
      DecimalIsCanonical(n / 10);
    }
  }

  /** Reading back what `toString` printed gives the number. */
  lemma {:induction false} DecimalRoundTrip(n: nat)
    ensures DecimalValue(Decimal(n)) == n
  {
    if n >= 10 {
      var d := Decimal(n);
      assert d[..|d| - 1] == Decimal(n / 10);
      DecimalRoundTrip(n / 10);
    }
  }

  lemma {:induction false} LeadingNonZeroIsPositive(d: string)
    requires |d| >= 1 && AllDigits(d) && d[0] != '0'
    ensures DecimalValue(d) >= 1
  {
    if |d| > 1 {
      LeadingNonZeroIsPositive(d[..|d| - 1]);
    }
  }

  /** Printing the value of a canonical digit string gives the string back. */
  lemma {:induction false} CanonicalRoundTrip(d: string)
    requires Canonical(d)
    ensures Decimal(DecimalValue(d)) == d
  {
    if |d| > 1 {
      var p := d[..|d| - 1];
      assert p[0] == d[0];
      LeadingNonZeroIsPositive(p);
      CanonicalRoundTrip(p);
      assert d == p + [d[|d| - 1]];
    }
  }

  /** Two numbers print the same only if they are equal. */
  lemma DecimalInjective(m: nat, n: nat)
    requires Decimal(m) == Decimal(n)
    ensures m == n
  {
    DecimalRoundTrip(m);
    DecimalRoundTrip(n);
  }

  /** The longest prefix of decimal digits. */
  function DigitPrefix(s: string): (d: string)
    ensures |d| <= |s| && d == s[..|d|]
    ensures AllDigits(d)
    ensures |d| < |s| ==> !IsDigit(s[|d|])
  {
    if |s| > 0 && IsDigit(s[0]) then [s[0]] + DigitPrefix(s[1..]) else ""
  }

  predicate IsHexDigit(c: char) {
    IsDigit(c) || 'a' <= c <= 'f' || 'A' <= c <= 'F'
  }

  function HexDigitValue(c: char): nat
    requires IsHexDigit(c)
  {
    if IsDigit(c) then DigitValue(c)
    else if 'a' <= c <= 'f' then c as int - 'a' as int + 10
    else c as int - 'A' as int + 10
  }

  /** The longest prefix of hexadecimal digits. */
  function HexPrefix(s: string): (h: string)
    ensures |h| <= |s|
    ensures forall i :: 0 <= i < |h| ==> IsHexDigit(h[i])
  {
    if |s| > 0 && IsHexDigit(s[0]) then [s[0]] + HexPrefix(s[1..]) else ""
  }

  function HexValue(h: string): nat
    requires forall i :: 0 <= i < |h| ==> IsHexDigit(h[i])
  {
    if |h| == 0 then 0 else HexValue(h[..|h| - 1]) * 16 + HexDigitValue(h[|h| - 1])
  }

  /** The unsigned part of `parseInt`: a `0x`/`0X` prefix switches to base 16,
      then the longest digit prefix is read; no digit at all is NaN (None). */
  function ParseMagnitude(body: string): (r: Option<int>)
    ensures r.Some? ==> r.value >= 0
  {
    if |body| >= 2 && body[0] == '0' && (body[1] == 'x' || body[1] == 'X') then
      var h := HexPrefix(body[2..]);
      if |h| == 0 then None else Some(HexValue(h))
    else
      var d := DigitPrefix(body);
      if |d| == 0 then None else Some(DecimalValue(d))
  }

  /** `parseInt(s)` without a radix: leading white space is skipped and one
      sign is read before the magnitude. */
  function ParseInt(s: string): (r: Option<int>)
  {
    var t := TrimStart(s);
    if |t| > 0 && t[0] == '-' then
      match ParseMagnitude(t[1..])
      case None => None
      case Some(m) => Some(-m)
    else if |t| > 0 && t[0] == '+' then ParseMagnitude(t[1..])
    else ParseMagnitude(t)
  }

  /** `!isNaN(parseInt(s)) && parseInt(s) > 0`: the text reads as a list position. */
  predicate IsListNumber(s: string) {
    var n := ParseInt(s);
    n.Some? && n.value > 0
  }

  lemma AllDigitsPrefix(d: string)
    requires AllDigits(d)
    ensures DigitPrefix(d) == d
  {
    if |d| > 0 {
      AllDigitsPrefix(d[1..]);
    }
  }

  lemma DigitStringParses(d: string)
    requires Canonical(d)
    ensures ParseInt(d) == Some(DecimalValue(d) as int)
  {
    AllDigitsPrefix(d);
    assert IsDigit(d[0]) && !IsSpace(d[0]);
    assert TrimStart(d) == d;
  }

  /** `parseInt` reads back every number that `toString` printed. */
  lemma ParseIntOfDecimal(n: nat)
    ensures ParseInt(Decimal(n)) == Some(n)
    ensures n > 0 ==> IsListNumber(Decimal(n))
  {
    DecimalIsCanonical(n);
    DecimalRoundTrip(n);
    DigitStringParses(Decimal(n));
  }

  /** Text whose first character is neither white space, a sign nor a digit is NaN to `parseInt`. */
  lemma ParseIntNaN(s: string)
    requires |s| > 0 && !IsSpace(s[0]) && !IsDigit(s[0]) && s[0] != '-' && s[0] != '+'
    ensures ParseInt(s) == None
  {
  }
}

=== FILE: validators.dfy ===
/** utils/validators.js: the vehicle-number recogniser and the phone-number
    normaliser. Both are pure functions of a string. */
module Validators {
  import opened Wrappers
  import opened Text

  // ---------------------------------------------------------------- vehicle numbers

  /** Length of the run of upper-case letters at the start of `s`. */
  function LetterRun(s: string): (k: nat)
    ensures k <= |s| && AllUpper(s[..k])
    ensures k < |s| ==> !IsUpper(s[k])
  {
    if |s| > 0 && IsUpper(s[0]) then 1 + LetterRun(s[1..]) else 0
  }

  /** `isValidIndianVehicleNumber`: after upper-casing, two letters, two digits,
      a run of one to three letters and exactly four digits up to the end. */
  predicate IsValidVehicleNumber(s: string) {
    var u := ToUpper(s);
    |u| >= 4 && AllUpper(u[..2]) && AllDigits(u[2..4]) &&
    var k := LetterRun(u[4..]);
    1 <= k <= 3 && |u| == 8 + k && AllDigits(u[4 + k..])
  }

  /** One alternative of the expression ^[A-Z]{2}[0-9]{2}[A-Z]{k}[0-9]{4}$. */
  predicate PlateShape(u: string, k: nat) {
    |u| == 8 + k && AllUpper(u[..2]) && AllDigits(u[2..4]) &&
    AllUpper(u[4..4 + k]) && AllDigits(u[4 + k..])
  }

  /** The language of ^[A-Z]{2}[0-9]{2}[A-Z]{1,3}[0-9]{4}$. */
  predicate MatchesPlatePattern(u: string) {
    PlateShape(u, 1) || PlateShape(u, 2) || PlateShape(u, 3)
  }

  lemma LetterRunExact(s: string, k: nat)
    requires k <= |s| && AllUpper(s[..k]) && (k < |s| ==> !IsUpper(s[k]))
    ensures LetterRun(s) == k
  {
    if k > 0 {
      assert s[1..][..k - 1] == s[1..k];
      LetterRunExact(s[1..], k - 1);
    }
  }

  /** The recogniser accepts exactly the strings whose upper-cased form is in
      the language of the source's regular expression. */
  lemma ValidIffPattern(s: string)
    ensures IsValidVehicleNumber(s) <==> MatchesPlatePattern(ToUpper(s))
  {
    var u := ToUpper(s);
    if MatchesPlatePattern(u) {
      var k: nat :| 1 <= k <= 3 && PlateShape(u, k);
      var tail := u[4..];
      assert PlateShape(u, k);
      assert AllUpper(u[4..4 + k]);
      assert tail[..k] == u[4..4 + k];
      assert AllUpper(tail[..k]);
      assert IsDigit(u[4 + k]) && !IsUpper(tail[k]);
      LetterRunExact(tail, k);
    }
    if IsValidVehicleNumber(s) {
      var tail := u[4..];
      var k := LetterRun(tail);
      assert tail[..k] == u[4..4 + k];
      assert AllUpper(u[4..4 + k]);
      assert PlateShape(u, k);
      if k == 1 {
        assert PlateShape(u, 1);
      } else if k == 2 {
        assert PlateShape(u, 2);
      } else {
        assert PlateShape(u, 3);
      }
    }
  }

  /** Accepted strings are 9 to 11 characters long. */
  lemma ValidLength(s: string)
    requires IsValidVehicleNumber(s)
    ensures 9 <= |s| <= 11
  {
  }

  /** Upper-casing first changes nothing: the test is case-insensitive. */
  lemma ValidCaseInsensitive(s: string)
    ensures IsValidVehicleNumber(s) == IsValidVehicleNumber(ToUpper(s))
  {
    ToUpperIdempotent(s);
  }

  /** The first character of an accepted string is a letter, so it contains
      no white space there and `parseInt` reads it as NaN. */
  lemma ValidIsNotListNumber(s: string)
    requires IsValidVehicleNumber(s)
    ensures ParseInt(s) == None && !IsListNumber(s)
  {
    var u := ToUpper(s);
    assert IsUpper(u[0]) && u[0] == UpperChar(s[0]);
    ParseIntNaN(s);
  }

  // ---------------------------------------------------------------- phone numbers

  /** `s.replace(/\D/g, '')`: the decimal digits of `s`, in order. */
  function DigitsOnly(s: string): (d: string)
    ensures |d| <= |s| && AllDigits(d)
    ensures |s| == 1 ==> d == (if IsDigit(s[0]) then s else "")
  {
    if |s| == 0 then ""
    else (if IsDigit(s[0]) then [s[0]] else "") + DigitsOnly(s[1..])
  }

  /** Digit extraction works piece by piece, so the digits keep their order. */
  lemma {:induction false} DigitsOnlyAppend(a: string, b: string)
    ensures DigitsOnly(a + b) == DigitsOnly(a) + DigitsOnly(b)
  {
    if |a| == 0 {
      assert a + b == b;
    } else {
      assert (a + b)[1..] == a[1..] + b;
      DigitsOnlyAppend(a[1..], b);
    }
  }

  lemma DigitsOnlyOfDigits(d: string)
    requires AllDigits(d)
    ensures DigitsOnly(d) == d
  {
    if |d| > 0 {
      DigitsOnlyOfDigits(d[1..]);
    }
  }

  /** `normalizePhoneNumber`: a 12-digit number starting with 91, or None. */
  function NormalizePhoneNumber(s: string): (r: Option<string>)
  {
    if |s| == 0 then None
    else
      var d := DigitsOnly(s);
      if |d| == 10 then Some("91" + d)
      else if |d| == 12 && StartsWith(d, "91") then Some(d)
      else if |d| == 11 && StartsWith(d, "0") then Some("91" + d[1..])
      else None
  }

  /** A number that may be absent (`!phoneStr` also rejects undefined). */
  function NormalizeOptional(s: Option<string>): (r: Option<string>)
    ensures s.None? ==> r.None?
    ensures s.Some? ==> r == NormalizePhoneNumber(s.value)
  {
    match s
    case None => None
    case Some(v) => NormalizePhoneNumber(v)
  }

  /** Every normalised number is exactly 12 digits and starts with 91. */
  lemma NormalizeShape(s: string)
    requires NormalizePhoneNumber(s).Some?
    ensures var r := NormalizePhoneNumber(s).value;
      |r| == 12 && AllDigits(r) && StartsWith(r, "91")
  {
  }

  /** The three accepted digit counts, and nothing else. */
  lemma NormalizeCases(s: string)
    requires s != ""
    ensures var d := DigitsOnly(s);
      NormalizePhoneNumber(s).Some? <==>
        (|d| == 10 || (|d| == 12 && d[..2] == "91") || (|d| == 11 && d[0] == '0'))
    ensures var d := DigitsOnly(s);
      |d| == 11 && d[0] == '0' ==> NormalizePhoneNumber(s) == Some("91" + d[1..])
  {
  }

  /** Normalising a normalised number gives it back. */
  lemma NormalizeIdempotent(s: string)
    requires NormalizePhoneNumber(s).Some?
    ensures NormalizePhoneNumber(NormalizePhoneNumber(s).value) == NormalizePhoneNumber(s)
  {
    var r := NormalizePhoneNumber(s).value;
    NormalizeShape(s);
    DigitsOnlyOfDigits(r);
  }

  /** The result depends only on the digits of a non-empty input. */
  lemma NormalizeUsesDigitsOnly(s: string)
    requires s != "" && DigitsOnly(s) != ""
    ensures NormalizePhoneNumber(s) == NormalizePhoneNumber(DigitsOnly(s))
  {
    DigitsOnlyOfDigits(DigitsOnly(s));
  }

  /** The bare, trunk-prefixed and country-prefixed forms of a 10-digit number
      all normalise to the same 12-digit number. */
  lemma TenDigitForms(d: string)
    requires |d| == 10 && AllDigits(d)
    ensures NormalizePhoneNumber(d) == Some("91" + d)
    ensures NormalizePhoneNumber("0" + d) == Some("91" + d)
    ensures NormalizePhoneNumber("91" + d) == Some("91" + d)
  {
    DigitsOnlyOfDigits(d);
    DigitsOnlyOfDigits("0" + d);
    DigitsOnlyOfDigits("91" + d);
    assert ("0" + d)[1..] == d;
  }
}

=== FILE: wrappers.dfy ===
/** The optional value used wherever the source has a nullable column, a missing
    JSON field or a function that may return null. */
module Wrappers {

  datatype Option<+T> = None | Some(value: T) {

    /** The value, or the given default when absent (JavaScript's `x || d` for non-falsy x). */
    function GetOr(default: T): T {
      match this
      case Some(v) => v
      case None => default
    }
  }
}
